=== FILE: README.md ===
# napi-rs binding generator and CLI naming, in Dafny

This project models two parts of napi-rs:

- **The function-binding code generator.** For one `#[napi]` function, it emits an `extern "C"` entry point, helper traits for callbacks and a module registration.
  - The emitted code is an abstract tree rather than tokens. It records:
    - which frame slot each parameter is read from;
    - which conversion statement binds it;
    - what the native call receives;
    - how its result is turned into a JS value;
    - where helper traits are spliced into the annotated function.
  - A small semantics of the emitted entry point (`FnExec`) states what JavaScript observes when the entry point runs. It covers:
    - the factory guard;
    - frame creation;
    - strict validation;
    - thrown and rejected errors;
    - failures of the result's conversion;
    - `this` returns.
- **The naming and argument logic of the `napi` CLI.** This covers:
  - target-triple parsing and the `platform-arch[-abi]` tag;
  - the GitHub workflow settings per triple;
  - the `cargo build` command line and `RUSTFLAGS`;
  - artifact source and destination names and paths;
  - the package-name normalisation, target selection and file list of `napi new`.

Modules:

| module | file | models |
|---|---|---|
| `Wrappers` | wrappers.dfy | `Option`, `Result` |
| `Strings` | strings.dfy | the Rust `str` operations the source uses (`split`, `join`, `trim`, `replace`, `format!("{}")` of numbers, UTF-8 length) |
| `Paths` | paths.dfy | `PathBuf::push`/`join` and `parent` on `/`-separated paths |
| `Targets` | target.dfy | crates/cli/src/utils/target.rs |
| `TargetSnapshot` | target_snapshot.dfy | `Target::new` on the offered triples |
| `Build` | build.dfy | the pure parts of crates/cli/src/commands/build/mod.rs |
| `NewProject` | new_project.dfy | the pure parts of crates/cli/src/new.rs |
| `FnIr` | fn_ir.dfy | the `NapiFn` descriptor, the Rust types the generator inspects, and the emitted-code tree |
| `FnArgs` | fn_args.dfy | `gen_arg_conversions`, `gen_ty_arg_conversion`, `gen_cb_arg_conversion` |
| `FnCodegen` | fn_codegen.dfy | `gen_fn_receiver`, `gen_fn_return`, `gen_fn_register`, trait splicing, `try_to_tokens` |
| `FnExec` | fn_exec.dfy | what a call of the generated entry point returns and throws |

Panics of the source are preconditions:

- `Target::new` on a one-field triple or an unknown cpu (`ValidTriple`);
- `gen_fn_receiver` on a by-value `self` (`fnSelf != Some(Value)`).

I/O results are parameters:

- whether `Cargo.toml` exists;
- the cargo metadata;
- the system default target;
- the inherited `RUSTFLAGS`;
- the random bytes of the temp file name;
- the prompt answers;
- the success of directory creation;
- the index of the first file write that fails, if any;
- the cargo exit code;
- for an entry-point call:
  - whether the factory guard is set;
  - whether `CallbackInfo::new` fails;
  - each conversion's outcome;
  - whether `Reference::from_value_ptr` fails to recover a `Reference<Parent>` argument;
  - the native result;
  - whether converting the result back to JavaScript fails.

## Model

| member | source | states |
|---|---|---|
| FnArgs.GenArgConversions | crates/backend/src/codegen/fn.rs:119-236 | one call argument per parameter, in order (`Env` → the env, `Reference<Parent>` → the recovered reference, any other → the local bound from its slot); the receiver recovery followed by exactly one conversion per slot-reading parameter, placed at its slot; one trait definition and one implementation per non-pure callback, the `j`-th named `FunctionCall<j>` and built from the `j`-th non-pure callback's inputs and return type |
| FnArgs.GenArgsUpTo | crates/backend/src/codegen/fn.rs:150-233 | after every prefix of the parameters, the skip counter plus the slots read equals the position, so `i - skipped_arg_count` never underflows; the lists are laid out as above for that prefix, with each non-pure callback's trait definition and implementation at its own index |
| FnArgs.EnvThenTwoInts | crates/backend/src/codegen/fn.rs:150-187 | `(env: Env, a: i32, b: i32)` passes the env first and converts `a` and `b` from slots 0 and 1 |
| FnArgs.SlotsBeforeIncrease | crates/backend/src/codegen/fn.rs:152-188 | a later slot-reading parameter reads a strictly later slot |
| FnArgs.SlotIsRead | crates/backend/src/codegen/fn.rs:152-188 | every slot below the number of slot-reading parameters is read by some parameter (slots are consecutive from 0) |
| FnArgs.SlotsDistinct | crates/backend/src/codegen/fn.rs:152-188 | no two parameters read the same slot |
| FnArgs.OwnedValuesLineUp | crates/backend/src/codegen/fn.rs:152-188 | with no receiver and only owned value parameters, parameter `k` is converted from slot `k` by value (validated iff strict) and passed as `arg<k>` |
| FnArgs.ConversionsFromParameters | crates/backend/src/codegen/fn.rs:131-233 | every conversion after the receiver recovery is the conversion some slot-reading parameter asks for; nothing else is emitted |
| FnArgs.ValidationFollowsStrict | crates/backend/src/codegen/fn.rs:245-279 | every by-value conversion validates exactly when the function is strict |
| FnArgs.PureCallbacksNeedNoTraits | crates/backend/src/codegen/fn.rs:190-231 | when all callbacks are pure, no helper trait is generated |
| FnArgs.GenTyArgConversion | crates/backend/src/codegen/fn.rs:238-280 | `&mut T` → `from_napi_mut_ref` of `T`, `&T` → `from_napi_ref` of `T`, never validated; any other type → by-value conversion, validated iff strict; all read the given slot |
| FnArgs.GenCbArgConversion | crates/backend/src/codegen/fn.rs:282-341 | a closure over the JS function in the slot, with the callback's inputs and return type, wrapped in `Function` iff the callback is not pure |
| FnArgs.ThisRecovery | crates/backend/src/codegen/fn.rs:131-148 | exactly one recovery statement iff a parent exists and the receiver is `&self`/`&mut self`; it is mutable iff the receiver is `&mut self` |
| FnArgs.TraitNamesDistinct | crates/backend/src/codegen/fn.rs:216 | the helper traits `FunctionCall<i>` of distinct indices have distinct names |
| FnArgs.EnvTypeString | crates/backend/src/codegen/fn.rs:158 | the type recognised as `Env` has the token string `Env` |
| FnCodegen.GenFnReceiver | crates/backend/src/codegen/fn.rs:343-357 | `&self`/`&mut self` methods are called on `this`, static members through `Parent::name`, free functions by bare name; the name is always the function's |
| FnCodegen.MethodCallsRecoveredThis | crates/backend/src/codegen/fn.rs:131-148 | a class method called on `this` gets `this` recovered as its first conversion, and only such a method does |
| FnCodegen.SelfReferenceString | crates/backend/src/codegen/fn.rs:363 | the token strings of `&Self` and `&mut Self` are `& Self` and `& mut Self` |
| FnCodegen.MutSelfMissedAsWritten | crates/backend/src/codegen/fn.rs:364 | the written return-self test rejects `&mut Self`; the intended one accepts it |
| FnCodegen.SelfReferencesRecognised | crates/backend/src/codegen/fn.rs:364 | the intended test accepts `&Self` and `&mut Self` and agrees with the written one on `&Self` |
| FnCodegen.ReturnShape | crates/backend/src/codegen/fn.rs:359-407 | constructors and factories pass the value on and apply `?` iff fallible; a self-returning method yields `this` (mapped when fallible) unless async and fallible; other sync fallible results are thrown in place; no return type converts unit; the rest convert the value |
| FnCodegen.MutSelfMethodAsWritten | crates/backend/src/codegen/fn.rs:359-401 | as written, a sync `&mut Self` method is converted as a value (or thrown on error); as intended it yields `this` |
| FnCodegen.ReturnShapesAgreeElsewhere | crates/backend/src/codegen/fn.rs:364 | the written and intended return shapes coincide on every return type other than the `&mut Self` spellings |
| FnCodegen.GenFnRegister | crates/backend/src/codegen/fn.rs:409-451 | no registration iff a parent exists; otherwise the JS name plus a NUL terminator, its byte length counting the terminator, the thunk `<name>_js_function`, the register and intermediate idents of the name, and the JS module |
| FnCodegen.InsertTraitsClosedForm | crates/backend/src/codegen/fn.rs:73-87 | the insert-at-front loop leaves all remaining pairs, highest index first, in front of what it started with |
| FnCodegen.PairPosition | crates/backend/src/codegen/fn.rs:73-87 | pair `k` of `n` starts at position `2(n-1-k)`, with its implementation right after its definition |
| FnCodegen.InsertTraitsLayout | crates/backend/src/codegen/fn.rs:70-88 | after splicing, every definition directly precedes its own implementation, pairs in reverse index order, all before the original statements, which are unchanged |
| FnCodegen.SpliceTraits | crates/backend/src/codegen/fn.rs:70-92 | fails iff traits are needed and the item does not parse; with no traits the item is untouched; a non-function item is untouched; a function gets the spliced layout |
| FnCodegen.NativeCallOf | crates/backend/src/codegen/fn.rs:24-42 | the call goes to the receiver with the call arguments and return shape; async iff the function is; an async infallible call is wrapped in `Ok` |
| FnCodegen.FunctionCallOf | crates/backend/src/codegen/fn.rs:44-69 | the frame is skipped iff no parameters, no self and neither constructor nor factory; the factory guard is present iff constructor; the frame has one entry per parameter and runs the conversions |
| FnCodegen.TryToTokens | crates/backend/src/codegen/fn.rs:11-115 | fails iff non-pure callbacks exist and the item does not parse; with no helper traits the item is kept; the entry point is named by the intermediate ident, carries the attributes, and its body and registration are the ones above |
| FnCodegen.DirectCallDropsNothing | crates/backend/src/codegen/fn.rs:44-49 | whenever the frame is skipped there is no conversion and no argument to lose |
| FnCodegen.NullaryFreeFunction | crates/backend/src/codegen/fn.rs:44-49 | a free nullary normal function is called directly with no arguments and registers itself |
| FnExec.RunStopsAtFirstFailure | crates/backend/src/codegen/fn.rs:57-67 | conversions run in order and the run stops exactly at the first one that does not bind |
| FnExec.RunStopsOnlyAtFailure | crates/backend/src/codegen/fn.rs:57-67 | a run stops only at a conversion that failed or found a mismatch |
| FnExec.ConstructorGuardSkipsAll | crates/backend/src/codegen/fn.rs:50-56 | a constructor called from a factory returns null before building the frame, running any conversion or calling the constructor |
| FnExec.FrameErrorIsThrown | crates/backend/src/codegen/fn.rs:57-64 | when `CallbackInfo::new` fails, its error is thrown and null returned; no conversion runs and the function is not called |
| FnExec.ValidationMismatchReturnsEarly | crates/backend/src/codegen/fn.rs:261-267 | a strict validation mismatch returns its handle without an exception; later conversions and the call are skipped |
| FnExec.NonStrictNeverReturnsEarly | crates/backend/src/codegen/fn.rs:260-270 | without strict mode no call returns a validation handle |
| FnExec.ReferenceParameterTaken | crates/backend/src/codegen/fn.rs:160-180 | a `Reference<Parent>` parameter of a method is passed as the recovered reference, not converted from a slot |
| FnExec.ThisReferencePassed | crates/backend/src/codegen/fn.rs:160-180 | the call passes the recovered reference exactly when some parameter asks for one |
| FnExec.ReferenceErrorIsThrown | crates/backend/src/codegen/fn.rs:173-175 | when `Reference::from_value_ptr` fails after the conversions bound, the function is not called; a sync call throws the error and returns null (fn.rs:103-106), an async one returns a promise rejecting with it |
| FnExec.ConversionErrorIsThrown | crates/backend/src/codegen/fn.rs:103-106 | a failing conversion's error is thrown, null is returned and the function is not called |
| FnExec.SyncErrorIsThrown | crates/backend/src/codegen/fn.rs:359-394 | for a sync fallible function with a return type that is called (its `Reference<Parent>` argument, if any, recovered), a native error always ends as a pending exception with null returned, whatever the return shape and whatever the result's conversion would have done |
| FnExec.AsyncErrorRejects | crates/backend/src/codegen/fn.rs:32-41 | for an async fallible function that is called (its `Reference<Parent>` argument, if any, recovered), a native error rejects the returned promise and nothing is thrown synchronously |
| FnExec.SelfReturnGivesThis | crates/backend/src/codegen/fn.rs:382-396 | with the corrected return-self test, a sync method returning `&Self`/`&mut Self` returns `this` on success, even when a result conversion would fail |
| FnExec.SuccessNeverThrows | crates/backend/src/codegen/fn.rs:359-407 | a sync call whose frame is built, whose conversions bind, whose `Reference<Parent>` argument (if any) is recovered, whose function succeeds and whose result converts leaves no exception pending |
| FnExec.ReturnConversionErrorIsThrown | crates/backend/src/codegen/fn.rs:359-407 | a sync call whose function succeeds but whose result fails to convert (`to_napi_value`, `construct`, `factory`) throws that error and returns null; only a method returning `this` (by the corrected return-self test) is unaffected |
| Targets.ArchFromCpuExactly | crates/cli/src/utils/target.rs:45-60 | a cpu name parses to an arch iff it is that arch's one name in the table |
| Targets.ArchNameInjective | crates/cli/src/utils/target.rs:63-79 | distinct archs display differently |
| Targets.GithubActionArch | crates/cli/src/utils/target.rs:82-88 | `x86` exactly for `x32`, `x64` for every other arch |
| Targets.PlatformFromStr | crates/cli/src/utils/target.rs:113-123 | total; unknown exactly for names outside the six known systems, kept verbatim |
| Targets.PlatformNameOfParsed | crates/cli/src/utils/target.rs:113-137 | display after parse gives the name back, except `windows` displays as `win32` |
| Targets.PlatformParseOfName | crates/cli/src/utils/target.rs:113-137 | parse after display is the identity on canonical platforms other than Windows; `win32` parses as unknown |
| Targets.NormalizeTripleInsertsOneDash | crates/cli/src/utils/target.rs:287-291 | an `androideabi` triple gets exactly one `-` before `eabi`; removing it gives the triple back |
| Targets.NewTarget | crates/cli/src/utils/target.rs:286-320 | the stored triple is the caller's; two fields give cpu and system; otherwise the third field is the system and the fourth the abi; the tag is built from these |
| Targets.SameTargetIffSameTriple | crates/cli/src/utils/target.rs:323-327 | two targets are equal iff their triples are |
| Targets.PlatformArchAbiSplitsBack | crates/cli/src/utils/target.rs:311-315 | splitting the tag on `-` gives the displayed platform, arch and abi (if any) back |
| Targets.FieldsOfTriple | crates/cli/src/utils/target.rs:293 | a triple written as `-`-free fields splits into exactly those fields |
| Targets.TagOfParts | crates/cli/src/utils/target.rs:293-315 | a triple with known fields and a known cpu is accepted and gets the tag built from those fields |
| Targets.GetWorkflowConfig | crates/cli/src/utils/target.rs:272-274 | the table entry for a listed triple, otherwise `ubuntu-latest` with no docker image and no setup |
| Targets.WorkflowTableCoversAvailableTargets | crates/cli/src/utils/target.rs:203-270 | the workflow table has an entry for exactly the offered triples |
| Targets.SetupScripts | crates/cli/src/utils/target.rs:195-197 | one script per `&&`-separated piece of the setup command, each trimmed |
| Targets.SetupScriptsTrimmed | crates/cli/src/utils/target.rs:196 | no script starts or ends with whitespace, and the pieces joined with `&&` give the command back |
| Targets.SerializeWorkflowConfig | crates/cli/src/utils/target.rs:185-200 | `host` first, then one entry each for a present docker image and setup |
| Targets.SerializeWorkflowConfigReadsBack | crates/cli/src/utils/target.rs:185-200 | reading the map back gives the host, the docker image and the split setup; absent fields are absent |
| TargetSnapshot.OfferedTargetsValid | crates/cli/src/utils/target.rs:6-20 | every offered triple is accepted by `Target::new` |
| TargetSnapshot.PartsArmAndroidEabi | crates/cli/src/utils/target.rs:287-293 | `armv7-linux-androideabi` splits as `armv7`, `linux`, `android`, `eabi` |
| TargetSnapshot.AndroidEabiTarget | crates/cli/src/utils/target.rs:286-320 | `armv7-linux-androideabi` is android/arm/`eabi` with tag `android-arm-eabi` and keeps its original triple |
| Build.ManifestPath | crates/cli/src/commands/build/mod.rs:97-98 | the manifest looked for is `Cargo.toml` pushed onto `--cwd`, or onto the current directory without it; for a directory not ending in `/` that directory is its parent and `Cargo.toml` its last component |
| Build.FindByName | crates/cli/src/commands/build/mod.rs:109-112 | the first package with that name, none iff no package has it |
| Build.FindPackage | crates/cli/src/commands/build/mod.rs:107-116 | the root package wins; otherwise the named package if any has that name; nothing without a name |
| Build.FirstCdylib | crates/cli/src/commands/build/mod.rs:135-139 | the first target with a `cdylib` crate type, none iff no target has one |
| Build.OutputDir | crates/cli/src/commands/build/mod.rs:120-130 | the first present of `--output-dir`, `--cwd`, the manifest's parent, and `./` |
| Build.OutputDirBesideManifest | crates/cli/src/commands/build/mod.rs:124-129 | with neither flag, the output directory is the one the manifest sits in |
| Build.TryFrom | crates/cli/src/commands/build/mod.rs:96-159 | fails iff the manifest is missing, the metadata cannot be read, or no package is found; otherwise the fields follow the flag-or-default rules |
| Build.SetCwd | crates/cli/src/commands/build/mod.rs:229-236 | cargo runs in `--cwd` when given, nothing else changes |
| Build.FeatureArgs | crates/cli/src/commands/build/mod.rs:278-293 | `--all-features` over `--no-default-features` over `--features f…`; nothing when no feature is named |
| Build.FeatureFlagsExclusive | crates/cli/src/commands/build/mod.rs:279-287 | at most one of the three feature flags is emitted |
| Build.RustFlags | crates/cli/src/commands/build/mod.rs:315-327 | exactly the inherited flags, then ` -C target-feature=-crt-static` iff the target has `musl` and the inherited flags lack it, then ` -C link-arg=-s` iff `--strip` and the inherited flags lack it; so the flags are unchanged iff both are already present where needed |
| Build.RustFlagsIdempotent | crates/cli/src/commands/build/mod.rs:321-327 | applying the rule to its own output changes nothing |
| Build.RustFlagsEnv | crates/cli/src/commands/build/mod.rs:315-335 | `RUSTFLAGS` is set iff the result is non-empty |
| Build.BypassArgs | crates/cli/src/commands/build/mod.rs:260-276 | `--release` if asked, then `--target-dir D` if given, then the bypassed flags verbatim |
| Build.PackageArgs | crates/cli/src/commands/build/mod.rs:295-313 | `-p P` when named, then `--bin`; empty iff neither |
| Build.CreateCommandLayout | crates/cli/src/commands/build/mod.rs:213-227 | `cargo build` with features, target, bypass and package arguments in that order, the type-def env var and `RUSTFLAGS` when set |
| Build.CheckPackage | crates/cli/src/commands/build/mod.rs:337-348 | succeeds iff `--bin` is set or a cdylib target exists |
| Build.CheckPackageOfConfigured | crates/cli/src/commands/build/mod.rs:337-348 | for a configured build, the check succeeds iff `--bin` or the package has some cdylib target |
| Build.ArtifactBaseName | crates/cli/src/commands/build/mod.rs:380-390 | the package name for binaries; the lib target name with every `-` made `_` otherwise |
| Build.SourceName | crates/cli/src/commands/build/mod.rs:392-410 | binaries get `.exe` on Windows only; libraries are `lib{n}.dylib`, `{n}.dll` or `lib{n}.so` by platform |
| Build.SourceNameReadsBack | crates/cli/src/commands/build/mod.rs:392-410 | dropping the platform affixes from the file name gives the crate name back |
| Build.DestName | crates/cli/src/commands/build/mod.rs:412-424 | binaries keep the source name; libraries are `index.node`, or `index.{tag}.node` with `--platform` |
| Build.LibrarySourceNameHasNoDash | crates/cli/src/commands/build/mod.rs:383-389 | a library artifact name contains no `-` |
| Build.PlatformDestNameNamesTarget | crates/cli/src/commands/build/mod.rs:414-424 | the platform destination name carries the target's platform, arch and abi, readable back by splitting on `-` |
| Build.CopySourceLayout | crates/cli/src/commands/build/mod.rs:356-369 | the copy source is `D/T/release/N` or `D/T/debug/N` |
| Build.TypeDefPath | crates/cli/src/commands/build/mod.rs:434-438 | `index.d.ts` in the output directory by default; a relative `--dts` lands under it; an absolute one replaces it |
| Build.JsBindingPlan | crates/cli/src/commands/build/mod.rs:448-475 | a JS binding iff `--platform` and not disabled; binary name the package's, package name the flag or the package's; `index.js` by default |
| Build.PostBuildOrder | crates/cli/src/commands/build/mod.rs:350-354 | copy first, then type definitions iff the type file exists, then the JS binding iff planned |
| Build.Run | crates/cli/src/commands/build/mod.rs:185-211 | rejected iff the package check fails; cargo failure iff the check passes and the exit code is non-zero; otherwise the post-build steps; the triple must be one `Target::new` accepts only when post-processing runs |
| Build.UpperHex | crates/cli/src/commands/build/mod.rs:487-490 | two upper-case hex digits per byte |
| Build.UpperHexReadsBack | crates/cli/src/commands/build/mod.rs:487-490 | every byte is read back from its two digits |
| Build.IntermediateTypeFile | crates/cli/src/commands/build/mod.rs:481-493 | `type_def.{HEX}.tmp` in the temp directory |
| NewProject.PackageNameToCrateName | crates/cli/src/new.rs:302-304 | no `/`, no leading `@`; length is the input's minus its leading `@`s; each remaining character kept with `/` → `-` |
| NewProject.TrimmedIsDropOfLeading | crates/cli/src/new.rs:303 | trimming leading `@`s drops exactly the leading run |
| NewProject.ScopedCrateName | crates/cli/src/new.rs:302-304 | `@scope/pkg` becomes `scope-pkg` |
| NewProject.PackageNameToBinaryName | crates/cli/src/new.rs:306-308 | the suffix after the last `/`: has no `/`, is a suffix of the input, and is the input when there is no `/` |
| NewProject.CrateNameEndsWithBinaryName | crates/cli/src/new.rs:302-308 | for a package name containing `/`, the crate name ends with the binary name (a name without `/` keeps its leading `@`s in the binary name only) |
| NewProject.PromptDefaults | crates/cli/src/new.rs:142-147 | the multi-select preselects exactly the default targets |
| NewProject.PromptPreselectsDefaults | crates/cli/src/new.rs:142-147 | the preselected entries are positions 5 to 7 of the offered list |
| NewProject.FirstNonEmpty | crates/cli/src/new.rs:135-158 | the prompt loop stops at the first non-empty selection; none iff all are empty |
| NewProject.FetchTargets | crates/cli/src/new.rs:128-161 | default targets over all targets over the first non-empty selection, in selection order; every target is offered |
| NewProject.SameFirstSelection | crates/cli/src/new.rs:152-157 | the selected targets are determined by the selections |
| NewProject.FlagOrYes | crates/cli/src/new.rs:163-189 | a feature is on iff its flag is set or the answer is `Yes` |
| NewProject.NapiVersionOfIndex | crates/cli/src/new.rs:110-122 | the chosen index maps to node-api versions 1 to 8 |
| NewProject.Settle | crates/cli/src/new.rs:61-81 | `--yes` takes the path's last component as name, the default targets and both features; otherwise flags and prompts as described; all targets offered |
| NewProject.TargetsFlagIgnored | crates/cli/src/new.rs:69-81 | the project settled does not depend on `--targets` |
| NewProject.CargoTomlOf | crates/cli/src/new.rs:204-228 | crate name from the package name; the license as settled; one `napi{v}` feature; `type-def` derive feature iff enabled; versions 2, 2, 1 |
| NewProject.NapiFeatureNamesVersion | crates/cli/src/new.rs:210 | the feature reads back as the minimum node-api version |
| NewProject.PackageJsonOf | crates/cli/src/new.rs:244-267 | name, targets and license as settled; binary name from the package name |
| NewProject.ManifestsAgree | crates/cli/src/new.rs:204-267 | `Cargo.toml` and `package.json` agree: for a scoped name the crate name ends with the declared binary name, and both carry the same license |
| NewProject.WorkflowOf | crates/cli/src/new.rs:269-299 | the binary name from the package name; per selected triple, in order, the target `Target::new` gives for it and its workflow settings |
| NewProject.LibRsPathAsWrittenIgnoresProject | crates/cli/src/new.rs:232 | as written, `lib.rs` is written to `/src/lib.rs` whatever the project path |
| NewProject.LibRsPathAsWrittenEscapes | crates/cli/src/new.rs:232 | for the project `my-addon` the written path is outside it |
| NewProject.LibRsPath | crates/cli/src/new.rs:230-234 | the corrected path is under the project and is `P/src/lib.rs` |
| NewProject.ProjectFilePaths | crates/cli/src/new.rs:191-299 | four files, five with the workflow, all under the project, with the corrected `src/lib.rs` segment |
| NewProject.LibRsIsWritten | crates/cli/src/new.rs:230-234 | the second file written is the corrected `lib.rs` path |
| NewProject.FileContentAt | crates/cli/src/new.rs:204-298 | the i-th file is, exactly, `Cargo.toml` from CargoTomlOf, `lib.rs`, `build.rs`, `package.json` from PackageJsonOf, then the workflow from WorkflowOf |
| NewProject.WriteFiles | crates/cli/src/new.rs:191-202 | all files land under the project path, `Cargo.toml` first, `lib.rs` second, a workflow iff enabled |
| NewProject.WrittenFiles | crates/cli/src/new.rs:191-298 | which file lands where, with which values: `P/Cargo.toml` rendered from CargoTomlOf, the corrected `P/src/lib.rs`, `P/build.rs`, `P/package.json` from PackageJsonOf, and, when enabled, `P/.github/workflows/CI.yml` from WorkflowOf |
| NewProject.WriteOutcome | crates/cli/src/new.rs:191-202 | the writes stop at the first that fails: an error iff some write fails, listing exactly the writes before it; otherwise every file |
| NewProject.Execute | crates/cli/src/new.rs:53-88 | fails with nothing written when the directory cannot be created, or when the first write fails; once the directory exists, the outcome is that of writing the files of a project settled from the flags and answers (SettledFrom), stopping at the first failing write, so `--yes` writes the last path component's crate with the `napi{v}` feature of `--min-node-api`; every file written is under the path; success writes four or five files, and `--yes` five with the workflow last |

## Left out

- Tokens: `quote!`/`syn` token mechanics. The emitted code is an abstract tree. Identifier derivations (`get_intermediate_ident`, `get_register_ident`, `js_mod_to_token_stream`) stay symbolic, because those functions are not part of this model.
- Trait parsing: re-parsing the generated trait items (`syn::parse2` of each definition and implementation) is taken to succeed. Only the parse of the annotated item can fail.
- Runtime behind the emitted code:
  - `CallbackInfo::new`, the conversions, `Reference::from_value_ptr` (the recovery of a `Reference<Parent>` argument), the native function and the result's conversion (`to_napi_value`, `construct`, `factory`) are not modelled; `FnExec` takes their outcomes as inputs;
  - the factory-guard atomic is an input too;
  - the `Box::leak` receiver recovery, `napi_call_function` and `napi_create_function` are not modelled;
  - the tokio executor is not modelled. `execute_tokio_future` is taken to create its promise, so a failure to create it is not modelled.
- FnExec.SelfReturnGivesThis: holds only for the corrected return-self test (see Findings). As written, a `&mut Self` method's result is converted as a value, as `FnCodegen.MutSelfMethodAsWritten` states.
- FnExec.ReturnConversionErrorIsThrown: its exception for methods returning `this` uses the corrected return-self test (see Findings). As written, a sync `&mut Self` method's result goes through `to_napi_value`, so a failing conversion is thrown with null there as well (`FnCodegen.MutSelfMethodAsWritten`).
- The `#[cfg(debug_assertions)]` function-type assertion on callback arguments is not modelled, because it depends on build configuration.
- The callback trampoline's inner conversions are not modelled. They are recorded only as the callback's input and return types.
- `FnKind` variants other than normal, constructor and factory are not modelled. The generator only tests for these, and the descriptor types are not part of this model.
- IsEnvType: recognises `Env` as the bare one-segment path `Env`. The source compares the token string with `"Env"`. `EnvTypeString` shows that the path renders as `Env`. Other spellings whose tokens render as `Env` are not matched.
- FnCodegen.GenFnReturn uses the corrected return-self test. The written one is `GenFnReturnAsWritten` (see Findings).
- NewProject.ProjectFilePaths, NewProject.WriteFiles and NewProject.Execute use the corrected `lib.rs` path (see Findings). As written, `lib.rs` is joined as `/src/lib.rs` and lands outside the project (`NewProject.LibRsPathAsWrittenEscapes`).
- Process and file-system I/O are inputs or left out:
  - the `cargo build` spawn and its exit;
  - `cargo_metadata`;
  - the `rustc -vV` probe;
  - reading `RUSTFLAGS`;
  - file copies, removals and writes;
  - the type-definition rewriting (`into_dts`);
  - template rendering (`minijinja`), modelled only as the values handed to each template;
  - interactive prompts (`dialoguer`), whose answers are inputs;
  - the random bytes of the temp-file name;
  - logging.
- `napi_engine_requirement` is not part of this model. The package.json's node requirement is not modelled.
- Command dispatch, clap parsing, `main.rs`, `commands.rs`, the logger and `crates/cli/src/build.rs` (a `todo!()`) are not modelled.

## Findings

| source | as written | input that shows it | evidently intended | confidence | as-written member | corrected member |
|---|---|---|---|---|---|---|
| crates/cli/src/new.rs:232 | `self.path.join("/src/lib.rs")`; joining an absolute path replaces the base | project path `my-addon`: `lib.rs` is written to `/src/lib.rs` | `self.path.join("src/lib.rs")`, i.e. `my-addon/src/lib.rs` | high (not executed; follows from `PathBuf::join` semantics) | NewProject.LibRsPathAsWrittenEscapes | NewProject.LibRsPath |
| crates/backend/src/codegen/fn.rs:364 | `ty_string == "&mut Self"`; the token string separates `&` and `mut` | a method returning `&mut Self` renders as `& mut Self`, so the test is false and the reference is converted as a value | compare with `"& mut Self"`, the same spacing as the `"& Self"` case beside it | medium (not executed; relies on `TokenStream`'s space-separated rendering) | FnCodegen.MutSelfMissedAsWritten | FnCodegen.SelfReferencesRecognised |

=== FILE: build.dfy ===
/** The pure decisions of `napi build`: how the command is configured from
    its arguments and the cargo metadata, which `cargo build` invocation it
    assembles, and where the built artifact, the type definitions and the
    JS binding go. Spawning cargo, the file system, cargo metadata and the
    environment are inputs. */
module Build {
  import opened Wrappers
  import opened Strings
  import opened Paths
  import opened Targets

  // ---------------------------------------------------------------------
  // Inputs
  // ---------------------------------------------------------------------

  /** `clap_cargo::Features`. */
  datatype Features = Features(allFeatures: bool, noDefaultFeatures: bool, features: seq<string>)

  /** `BuildCommandArgs`, the parsed command line. Paths are text. */
  datatype BuildArgs = BuildArgs(
    target: Option<string>,
    cwd: Option<string>,
    targetDir: Option<string>,
    outputDir: Option<string>,
    platform: bool,
    jsBinding: Option<string>,
    jsPackageName: Option<string>,
    disableJsBinding: bool,
    dts: Option<string>,
    noDtsHeader: bool,
    strip: bool,
    release: bool,
    verbose: bool,
    bin: bool,
    package: Option<string>,
    features: Features,
    zig: bool,
    zigAbiSuffix: Option<string>,
    bypassFlags: seq<string>)

  /** A cargo build target (`cargo_metadata::Target`). */
  datatype LibTarget = LibTarget(name: string, crateTypes: seq<string>)

  /** A cargo package (`cargo_metadata::Package`). */
  datatype Package = Package(name: string, manifestPath: string, targets: seq<LibTarget>)

  /** What `cargo metadata` reports: the workspace's packages, the root
      package if the manifest has one, and the target directory. */
  datatype Metadata = Metadata(packages: seq<Package>, rootPackage: Option<Package>, targetDirectory: string)

  /** The configured build (`BuildCommand`). */
  datatype BuildCommand = BuildCommand(
    args: BuildArgs,
    outputDir: string,
    targetDir: string,
    package: Package,
    libTarget: Option<LibTarget>,
    target: string,
    intermediateTypeFile: string)

  // ---------------------------------------------------------------------
  // Configuring the build (`try_from`)
  // ---------------------------------------------------------------------

  /** The manifest looked for: `Cargo.toml` under `--cwd`, else under the
      current directory. */
  function ManifestPath(args: BuildArgs, currentDir: string): (r: string)
    ensures EndsWith(r, "Cargo.toml") && StartsWith(r, args.cwd.UnwrapOr(currentDir))
    ensures var dir := args.cwd.UnwrapOr(currentDir);
            |dir| > 0 && dir[|dir| - 1] != '/' ==>
              LastPart(r, '/') == "Cargo.toml" && Parent(r) == Some(dir)
  {
    var dir := args.cwd.UnwrapOr(currentDir);
    if |dir| > 0 && dir[|dir| - 1] != '/'
    then ParentOfPush(dir, "Cargo.toml"); Push(dir, "Cargo.toml")
    else Push(dir, "Cargo.toml")
  }

  /** The first package called `name`. */
  function FindByName(packages: seq<Package>, name: string): (r: Option<Package>)
    ensures r.None? <==> forall i :: 0 <= i < |packages| ==> packages[i].name != name
    ensures r.Some? ==> exists i :: 0 <= i < |packages| && packages[i] == r.value
                                   && packages[i].name == name
                                   && forall j :: 0 <= j < i ==> packages[j].name != name
  {
    if |packages| == 0 then None
    else if packages[0].name == name then Some(packages[0])
    else
      var r := FindByName(packages[1..], name);
      assert forall i :: 1 <= i < |packages| ==> packages[i] == packages[1..][i - 1];
      r
  }

  /** The package to build: the root package, else (only when `--package`
      is given) the first package of that name. */
  function FindPackage(meta: Metadata, package: Option<string>): (r: Option<Package>)
    ensures meta.rootPackage.Some? ==> r == meta.rootPackage
    ensures meta.rootPackage.None? && package.None? ==> r.None?
    ensures meta.rootPackage.None? && package.Some? ==>
              (r.Some? <==> exists i :: 0 <= i < |meta.packages| && meta.packages[i].name == package.value)
    ensures meta.rootPackage.None? && r.Some? ==> r.value in meta.packages && r.value.name == package.value
  {
    meta.rootPackage.Or(if package.Some? then FindByName(meta.packages, package.value) else None)
  }

  /** The first target that builds a `cdylib`. */
  function FirstCdylib(targets: seq<LibTarget>): (r: Option<LibTarget>)
    ensures r.None? <==> forall i :: 0 <= i < |targets| ==> "cdylib" !in targets[i].crateTypes
    ensures r.Some? ==> exists i :: 0 <= i < |targets| && targets[i] == r.value
                                   && "cdylib" in targets[i].crateTypes
                                   && forall j :: 0 <= j < i ==> "cdylib" !in targets[j].crateTypes
  {
    if |targets| == 0 then None
    else if "cdylib" in targets[0].crateTypes then Some(targets[0])
    else
      var r := FirstCdylib(targets[1..]);
      assert forall i :: 1 <= i < |targets| ==> targets[i] == targets[1..][i - 1];
      r
  }

  /** Where artifacts go: `--output-dir`, else `--cwd`, else the directory
      of the package manifest, else `./`. */
  function OutputDir(args: BuildArgs, pkg: Package): (r: string)
    ensures args.outputDir.Some? ==> r == args.outputDir.value
    ensures args.outputDir.None? && args.cwd.Some? ==> r == args.cwd.value
    ensures args.outputDir.None? && args.cwd.None? && Parent(pkg.manifestPath).Some? ==>
              r == Parent(pkg.manifestPath).value
    ensures args.outputDir.None? && args.cwd.None? && Parent(pkg.manifestPath).None? ==> r == "./"
  {
    args.outputDir.Or(args.cwd).Or(Parent(pkg.manifestPath)).UnwrapOr("./")
  }

  /** With neither `--output-dir` nor `--cwd`, the artifacts land next to
      the manifest: pushing the manifest's file name onto the output
      directory gives the manifest path back. */
  lemma OutputDirBesideManifest(args: BuildArgs, pkg: Package)
    requires args.outputDir.None? && args.cwd.None?
    requires pkg.manifestPath != "" && pkg.manifestPath != "/"
    requires !Contains(pkg.manifestPath, "//")
    ensures Push(OutputDir(args, pkg), LastPart(pkg.manifestPath, '/')) == pkg.manifestPath
  {
    ParentThenPush(pkg.manifestPath);
  }

  /** `BuildCommand::try_from`. The file system (which paths exist), the
      current directory, the outcome of `cargo metadata` on the manifest,
      the host triple and the scratch type-definition path are inputs. */
  function TryFrom(args: BuildArgs, currentDir: string, existing: set<string>,
                   metadata: Option<Metadata>, systemTarget: string, typeFile: string)
    : (r: Result<BuildCommand, Unit>)
    ensures ManifestPath(args, currentDir) !in existing ==> r.Err?
    ensures metadata.None? ==> r.Err?
    ensures r.Ok? <==> ManifestPath(args, currentDir) in existing && metadata.Some?
                       && FindPackage(metadata.value, args.package).Some?
    ensures r.Ok? ==>
              var b := r.value;
              var pkg := FindPackage(metadata.value, args.package).value;
              && b.args == args && b.package == pkg
              && b.outputDir == OutputDir(args, pkg)
              && b.targetDir == args.targetDir.UnwrapOr(metadata.value.targetDirectory)
              && b.libTarget == FirstCdylib(pkg.targets)
              && b.target == args.target.UnwrapOr(systemTarget)
              && b.intermediateTypeFile == typeFile
  {
    if ManifestPath(args, currentDir) !in existing then Err(Unit)
    else match metadata {
      case None => Err(Unit)
      case Some(meta) =>
        match FindPackage(meta, args.package) {
          case None => Err(Unit)
          case Some(pkg) =>
            Ok(BuildCommand(
              args,
              OutputDir(args, pkg),
              args.targetDir.UnwrapOr(meta.targetDirectory),
              pkg,
              FirstCdylib(pkg.targets),
              args.target.UnwrapOr(systemTarget),
              typeFile))
        }
    }
  }

  // ---------------------------------------------------------------------
  // The cargo invocation
  // ---------------------------------------------------------------------

  /** The parts of `std::process::Command` the build sets. */
  datatype Command = Command(program: string, args: seq<string>, cwd: Option<string>, envs: seq<(string, string)>)

  function NewCommand(program: string): Command {
    Command(program, [], None, [])
  }

  function WithArgs(cmd: Command, args: seq<string>): Command {
    cmd.(args := cmd.args + args)
  }

  function WithEnv(cmd: Command, key: string, value: string): Command {
    cmd.(envs := cmd.envs + [(key, value)])
  }

  /** `set_cwd`: cargo runs in `--cwd` when given. */
  function SetCwd(b: BuildCommand, cmd: Command): (r: Command)
    ensures r.args == cmd.args && r.envs == cmd.envs && r.program == cmd.program
    ensures r.cwd == (if b.args.cwd.Some? then b.args.cwd else cmd.cwd)
  {
    if b.args.cwd.Some? then cmd.(cwd := b.args.cwd) else cmd
  }

  /** The arguments `set_features` adds. The three ways of choosing
      features exclude each other, `--all-features` first, then
      `--no-default-features`, then an explicit list. */
  function FeatureArgs(f: Features): (r: seq<string>)
    ensures f.allFeatures ==> r == ["--all-features"]
    ensures !f.allFeatures && f.noDefaultFeatures ==> r == ["--no-default-features"]
    ensures !f.allFeatures && !f.noDefaultFeatures ==>
              (r == [] <==> f.features == [])
              && (r != [] ==> r[0] == "--features" && r[1..] == f.features)
  {
    if f.allFeatures then ["--all-features"]
    else if f.noDefaultFeatures then ["--no-default-features"]
    else if |f.features| > 0 then ["--features"] + f.features
    else []
  }

  /** At most one feature-selection flag is ever passed, whatever the
      combination of options (given no feature is itself named like one). */
  lemma FeatureFlagsExclusive(f: Features)
    requires "--all-features" !in f.features && "--no-default-features" !in f.features
    requires "--features" !in f.features
    ensures var r := FeatureArgs(f);
            && !("--all-features" in r && "--no-default-features" in r)
            && !("--all-features" in r && "--features" in r)
            && !("--no-default-features" in r && "--features" in r)
  {
    var r := FeatureArgs(f);
    if !f.allFeatures && !f.noDefaultFeatures && r != [] {
      assert r == ["--features"] + f.features;
      assert "--all-features" !in r;
      assert "--no-default-features" !in r;
    }
  }

  function SetFeatures(b: BuildCommand, cmd: Command): Command {
    WithArgs(cmd, FeatureArgs(b.args.features))
  }

  /** `set_target`: the target triple is always passed explicitly. */
  function SetTarget(b: BuildCommand, cmd: Command): Command {
    WithArgs(cmd, ["--target", b.target])
  }

  /** `set_envs`: the generated type definitions are collected in the
      scratch file named by `TYPE_DEF_TMP_PATH`. */
  function SetEnvs(b: BuildCommand, cmd: Command): Command {
    WithEnv(cmd, "TYPE_DEF_TMP_PATH", b.intermediateTypeFile)
  }

  const CrtStaticMarker: string := "target-feature=-crt-static"
  const StripMarker: string := "link-arg=-s"

  /** The argument `push_str` adds for one flag. */
  function FlagArg(marker: string): string {
    " -C " + marker
  }

  /** The crt-static flag a musl target needs on top of `initial`. */
  function CrtFlag(initial: string, target: string): string {
    if Contains(target, "musl") && !Contains(initial, CrtStaticMarker) then FlagArg(CrtStaticMarker) else ""
  }

  /** The strip flag `--strip` needs on top of `initial`. */
  function StripFlag(initial: string, strip: bool): string {
    if strip && !Contains(initial, StripMarker) then FlagArg(StripMarker) else ""
  }

  /** The `RUSTFLAGS` value `set_rust_flags` computes from the inherited
      one: musl targets get `-C target-feature=-crt-static` and `--strip`
      gets `-C link-arg=-s`, each only when not already present. */
  function RustFlags(initial: string, target: string, strip: bool): (r: string)
    ensures r == initial + CrtFlag(initial, target) + StripFlag(initial, strip)
    ensures StartsWith(r, initial)
    ensures Contains(target, "musl") ==> Contains(r, CrtStaticMarker)
    ensures strip ==> Contains(r, StripMarker)
    ensures r == initial <==> (Contains(target, "musl") ==> Contains(initial, CrtStaticMarker))
                              && (strip ==> Contains(initial, StripMarker))
  {
    CrtFlagKeepsStripTest(initial);
    AppendFlagKeeps(initial, CrtStaticMarker, StripMarker);
    assert initial + "" == initial;
    var withCrt :=
      if Contains(target, "musl") && !Contains(initial, CrtStaticMarker)
      then initial + FlagArg(CrtStaticMarker)
      else initial;
    AppendFlagKeeps(withCrt, StripMarker, CrtStaticMarker);
    assert withCrt + "" == withCrt;
    if strip && !Contains(withCrt, StripMarker)
    then withCrt + FlagArg(StripMarker)
    else withCrt
  }

  /** Appending the crt-static flag neither adds nor removes the strip
      marker, so the strip test reads the inherited flags. */
  lemma CrtFlagKeepsStripTest(s: string)
    ensures Contains(s + FlagArg(CrtStaticMarker), StripMarker) <==> Contains(s, StripMarker)
  {
    ContainsAppendedNothing(s, FlagArg(CrtStaticMarker), StripMarker, ' ');
  }

  /** Appending ` -C <marker>` adds that marker and keeps every other. */
  lemma AppendFlagKeeps(s: string, marker: string, other: string)
    ensures Contains(s + FlagArg(marker), marker)
    ensures Contains(s, other) ==> Contains(s + FlagArg(marker), other)
  {
    ContainsOwnSuffix(s + " -C ", marker);
    assert s + FlagArg(marker) == s + " -C " + marker;
    if Contains(s, other) {
      ContainsGrows(s, FlagArg(marker), other);
    }
  }

  /** Applying the flag rules to their own result changes nothing. */
  lemma RustFlagsIdempotent(initial: string, target: string, strip: bool)
    ensures RustFlags(RustFlags(initial, target, strip), target, strip) == RustFlags(initial, target, strip)
  {
  }

  /** `set_rust_flags`: the variable is set (to the computed flags) unless
      the result is empty. An unset or unreadable `RUSTFLAGS` counts as
      empty. */
  function RustFlagsEnv(inherited: Option<string>, target: string, strip: bool): (r: Option<string>)
    ensures r.None? <==> inherited.UnwrapOr("") == "" && !Contains(target, "musl") && !strip
    ensures r.Some? ==> r.value == RustFlags(inherited.UnwrapOr(""), target, strip)
  {
    var flags := RustFlags(inherited.UnwrapOr(""), target, strip);
    if flags != "" then Some(flags) else None
  }

  function SetRustFlags(b: BuildCommand, inherited: Option<string>, cmd: Command): Command {
    match RustFlagsEnv(inherited, b.target, b.args.strip)
    case Some(flags) => WithEnv(cmd, "RUSTFLAGS", flags)
    case None => cmd
  }

  /** The arguments `set_bypass_args` adds: `--release` if asked, then
      `--target-dir D` if given, then the bypassed flags verbatim. */
  function BypassArgs(args: BuildArgs): (r: seq<string>)
    ensures |r| == (if args.release then 1 else 0) + (if args.targetDir.Some? then 2 else 0) + |args.bypassFlags|
    ensures args.release <==> |r| > |args.bypassFlags| && r[0] == "--release"
    ensures var k := if args.release then 1 else 0;
            args.targetDir.Some? ==> r[k..k + 2] == ["--target-dir", args.targetDir.value]
    ensures r[|r| - |args.bypassFlags|..] == args.bypassFlags
  {
    (if args.release then ["--release"] else [])
    + (if args.targetDir.Some? then ["--target-dir", args.targetDir.value] else [])
    + args.bypassFlags
  }

  function SetBypassArgs(b: BuildCommand, cmd: Command): Command {
    WithArgs(cmd, BypassArgs(b.args))
  }

  /** The arguments `set_package` adds: `-p P` when a package is named,
      then `--bin` when building a binary. */
  function PackageArgs(args: BuildArgs): (r: seq<string>)
    ensures |r| == (if args.package.Some? then 2 else 0) + (if args.bin then 1 else 0)
    ensures args.package.Some? ==> r[..2] == ["-p", args.package.value]
    ensures args.bin ==> r[|r| - 1] == "--bin"
    ensures r == [] <==> args.package.None? && !args.bin
  {
    (if args.package.Some? then ["-p", args.package.value] else [])
    + (if args.bin then ["--bin"] else [])
  }

  function SetPackage(b: BuildCommand, cmd: Command): Command {
    WithArgs(cmd, PackageArgs(b.args))
  }

  /** `create_command`: `cargo build` configured by the setters in their
      order (cwd, features, target, envs, rust flags, bypass, package). */
  function CreateCommand(b: BuildCommand, inheritedRustFlags: Option<string>): Command {
    var cmd := WithArgs(NewCommand("cargo"), ["build"]);
    SetPackage(b, SetBypassArgs(b, SetRustFlags(b, inheritedRustFlags,
      SetEnvs(b, SetTarget(b, SetFeatures(b, SetCwd(b, cmd)))))))
  }

  /** The full `cargo build` command line and environment: the argument
      groups in setter order, the type-definition variable first among the
      variables, `RUSTFLAGS` only when non-empty. */
  lemma CreateCommandLayout(b: BuildCommand, inheritedRustFlags: Option<string>)
    ensures var cmd := CreateCommand(b, inheritedRustFlags);
            && cmd.program == "cargo"
            && cmd.cwd == b.args.cwd
            && cmd.args == ["build"] + FeatureArgs(b.args.features) + ["--target", b.target]
                           + BypassArgs(b.args) + PackageArgs(b.args)
            && cmd.envs == [("TYPE_DEF_TMP_PATH", b.intermediateTypeFile)]
                           + (match RustFlagsEnv(inheritedRustFlags, b.target, b.args.strip)
                              case Some(flags) => [("RUSTFLAGS", flags)]
                              case None => [])
  {
    var c0 := WithArgs(NewCommand("cargo"), ["build"]);
    var c1 := SetCwd(b, c0);
    var c2 := SetFeatures(b, c1);
    var c3 := SetTarget(b, c2);
    var c4 := SetEnvs(b, c3);
    var c5 := SetRustFlags(b, inheritedRustFlags, c4);
    var c6 := SetBypassArgs(b, c5);
    var c7 := SetPackage(b, c6);
    assert c7 == CreateCommand(b, inheritedRustFlags);
    assert c1.args == ["build"] && c1.envs == [] && c1.cwd == b.args.cwd;
    assert c4.args == ["build"] + FeatureArgs(b.args.features) + ["--target", b.target];
    assert c4.envs == [("TYPE_DEF_TMP_PATH", b.intermediateTypeFile)];
    assert c5.args == c4.args && c5.cwd == c4.cwd;
    assert c7.args == c5.args + BypassArgs(b.args) + PackageArgs(b.args);
    assert c7.envs == c5.envs && c7.cwd == b.args.cwd;
  }

  /** `check_package`: a binary build always proceeds; a library build
      needs a `cdylib` target. */
  function CheckPackage(b: BuildCommand): (r: Result<Unit, Unit>)
    ensures r.Ok? <==> b.args.bin || b.libTarget.Some?
  {
    if b.args.bin then Ok(Unit)
    else if b.libTarget.None? then Err(Unit)
    else Ok(Unit)
  }

  /** For a configured build, the check passes exactly when building a
      binary or when some target of the chosen package is a `cdylib`. */
  lemma CheckPackageOfConfigured(args: BuildArgs, currentDir: string, existing: set<string>,
                                 metadata: Option<Metadata>, systemTarget: string, typeFile: string)
    requires TryFrom(args, currentDir, existing, metadata, systemTarget, typeFile).Ok?
    ensures var b := TryFrom(args, currentDir, existing, metadata, systemTarget, typeFile).value;
            CheckPackage(b).Ok? <==>
              args.bin || exists i :: 0 <= i < |b.package.targets| && "cdylib" in b.package.targets[i].crateTypes
  {
  }

  // ---------------------------------------------------------------------
  // After a successful build
  // ---------------------------------------------------------------------

  /** The artifact's base name: the package name for a binary, the lib
      target name with `-` turned into `_` (as rustc names the file) for a
      library. */
  function ArtifactBaseName(b: BuildCommand): (name: string)
    requires b.args.bin || b.libTarget.Some?
    ensures b.args.bin ==> name == b.package.name
    ensures !b.args.bin ==> |name| == |b.libTarget.value.name| && '-' !in name
    ensures !b.args.bin ==> forall i :: 0 <= i < |name| ==>
              name[i] == (if b.libTarget.value.name[i] == '-' then '_' else b.libTarget.value.name[i])
  {
    if b.args.bin then b.package.name else ReplaceChar(b.libTarget.value.name, '-', '_')
  }

  /** The file cargo produces for `name` (`get_artifact_names`): a binary
      is `N`, or `N.exe` on Windows; a library is `libN.dylib` on Darwin,
      `N.dll` on Windows and `libN.so` elsewhere. */
  function SourceName(name: string, bin: bool, platform: NodePlatform): (r: string)
    ensures bin ==> (r == name <==> platform != Windows)
    ensures bin && platform == Windows ==> r == name + ".exe"
    ensures !bin && platform == Darwin ==> r == "lib" + name + ".dylib"
    ensures !bin && platform == Windows ==> r == name + ".dll"
    ensures !bin && platform != Darwin && platform != Windows ==> r == "lib" + name + ".so"
  {
    if bin then
      if platform == Windows then name + ".exe" else name
    else
      match platform
      case Darwin => "lib" + name + ".dylib"
      case Windows => name + ".dll"
      case _ => "lib" + name + ".so"
  }

  /** The prefix and suffix `SourceName` puts around the name. */
  function SourceAffixes(bin: bool, platform: NodePlatform): (string, string) {
    if bin then (if platform == Windows then ("", ".exe") else ("", ""))
    else if platform == Darwin then ("lib", ".dylib")
    else if platform == Windows then ("", ".dll")
    else ("lib", ".so")
  }

  /** The crate name can be read back from the file name by dropping the
      platform's affixes, so distinct crates produce distinct files. */
  lemma SourceNameReadsBack(name: string, bin: bool, platform: NodePlatform)
    ensures var (pre, post) := SourceAffixes(bin, platform);
            var r := SourceName(name, bin, platform);
            && |r| == |pre| + |name| + |post|
            && r[|pre|..|r| - |post|] == name
  {
    var (pre, post) := SourceAffixes(bin, platform);
    var r := SourceName(name, bin, platform);
    assert r == pre + name + post;
  }

  /** The name the artifact is copied to: a binary keeps its file name; a
      library becomes `index.node`, or `index.<platform-arch-abi>.node`
      with `--platform`. */
  function DestName(src: string, bin: bool, platformFlag: bool, tag: string): (r: string)
    ensures bin ==> r == src
    ensures !bin ==> StartsWith(r, "index") && EndsWith(r, ".node")
    ensures !bin ==> (r == "index.node" <==> !platformFlag)
    ensures !bin && platformFlag ==> |r| == |tag| + 11 && r[5..|r| - 5] == "." + tag
  {
    if bin then src
    else
      var r := "index" + (if platformFlag then "." + tag else "") + ".node";
      assert r[..5] == "index";
      r
  }

  /** `get_artifact_names`, for the configured build and its triple. */
  function ArtifactNames(b: BuildCommand): (r: (string, string))
    requires ValidTriple(b.target)
    requires b.args.bin || b.libTarget.Some?
  {
    var target := NewTarget(b.target);
    var src := SourceName(ArtifactBaseName(b), b.args.bin, target.platform);
    (src, DestName(src, b.args.bin, b.args.platform, target.platformArchAbi))
  }

  /** A library's file name carries no `-`: the crate name's are replaced
      and the affixes have none. */
  lemma LibrarySourceNameHasNoDash(b: BuildCommand)
    requires ValidTriple(b.target)
    requires b.libTarget.Some? && !b.args.bin
    ensures '-' !in ArtifactNames(b).0
  {
    var name := ArtifactBaseName(b);
    var platform := NewTarget(b.target).platform;
    var (pre, post) := SourceAffixes(false, platform);
    var r := ArtifactNames(b).0;
    assert r == pre + name + post;
    assert '-' !in pre && '-' !in post;
  }

  /** With `--platform`, the middle of a library's destination name splits
      on `-` into the displayed platform, the displayed arch and the abi,
      so each triple's artifact can be told apart. */
  lemma PlatformDestNameNamesTarget(b: BuildCommand)
    requires ValidTriple(b.target) && b.libTarget.Some? && !b.args.bin && b.args.platform
    ensures var t := NewTarget(b.target);
            var dest := ArtifactNames(b).1;
            && StartsWith(dest, "index.") && EndsWith(dest, ".node")
            && Split(dest[6..|dest| - 5], '-')
                 == [PlatformName(t.platform), ArchName(t.arch)] + (if t.abi.Some? then [t.abi.value] else [])
  {
    var t := NewTarget(b.target);
    PlatformDestTag(ArtifactNames(b).0, t.platformArchAbi);
    PlatformArchAbiSplitsBack(b.target);
  }

  /** With `--platform`, a library's destination name holds the tag between
      `index.` and `.node`. */
  lemma PlatformDestTag(src: string, tag: string)
    ensures var r := DestName(src, false, true, tag);
            StartsWith(r, "index.") && EndsWith(r, ".node") && r[6..|r| - 5] == tag
  {
    var r := DestName(src, false, true, tag);
    assert r == "index." + tag + ".node";
    assert r[..6] == "index.";
    assert r[6..|r| - 5] == tag;
  }

  /** `copy_output`'s source: `target_dir/<target>/<profile>/<file>`. */
  function CopySource(b: BuildCommand, srcName: string): string {
    Push(Push(Push(b.targetDir, b.target), if b.args.release then "release" else "debug"), srcName)
  }

  /** The copy source is laid out as `D/T/release/N` or `D/T/debug/N`, for
      a target directory `D` not ending in `/`, a valid triple `T` without
      `/` and a file name that is not an absolute path. */
  lemma CopySourceLayout(b: BuildCommand, srcName: string)
    requires ValidTriple(b.target) && '/' !in b.target
    requires !IsAbsolute(srcName)
    requires b.targetDir != "" && b.targetDir[|b.targetDir| - 1] != '/'
    ensures CopySource(b, srcName)
              == b.targetDir + "/" + b.target + "/" + (if b.args.release then "release" else "debug") + "/" + srcName
  {
    var profile := if b.args.release then "release" else "debug";
    var t := b.target;
    ValidTripleNonEmpty(t);
    assert t[0] in t && t[|t| - 1] in t;
    PushJoinsWithSlash(b.targetDir, t);
    var d1 := Push(b.targetDir, t);
    PushJoinsWithSlash(d1, profile);
    var d2 := Push(d1, profile);
    assert d2[|d2| - 1] != '/';
    PushJoinsWithSlash(d2, srcName);
  }

  /** A triple `Target::new` accepts has a `-`, so it is not empty. */
  lemma ValidTripleNonEmpty(t: string)
    requires ValidTriple(t)
    ensures |t| > 0
  {
  }

  /** `process_type_def`'s destination: `--dts` under the output directory,
      `index.d.ts` by default. */
  function TypeDefPath(b: BuildCommand): (r: string)
    ensures b.args.dts.None? && b.outputDir != "" && b.outputDir[|b.outputDir| - 1] != '/' ==>
              r == b.outputDir + "/index.d.ts"
    ensures b.args.dts.Some? && !IsAbsolute(b.args.dts.value) ==>
              StartsWith(r, b.outputDir) && EndsWith(r, b.args.dts.value)
    ensures b.args.dts.Some? && IsAbsolute(b.args.dts.value) ==> r == b.args.dts.value
  {
    Push(b.outputDir, b.args.dts.UnwrapOr("index.d.ts"))
  }

  /** What `write_js_binding` writes: the file, the binary name and the
      npm package name the template is rendered with. */
  datatype JsBinding = JsBinding(path: string, binaryName: string, packageName: string)

  /** `write_js_binding`: only with `--platform` and without `--no-js`;
      `index.js` under the output directory by default; the package name
      defaults to the crate's. */
  function JsBindingPlan(b: BuildCommand): (r: Option<JsBinding>)
    ensures r.Some? <==> b.args.platform && !b.args.disableJsBinding
    ensures r.Some? ==> r.value.binaryName == b.package.name
    ensures r.Some? && b.args.jsPackageName.None? ==> r.value.packageName == b.package.name
    ensures r.Some? && b.args.jsPackageName.Some? ==> r.value.packageName == b.args.jsPackageName.value
    ensures r.Some? && b.args.jsBinding.None? ==> EndsWith(r.value.path, "index.js")
  {
    if !b.args.platform || b.args.disableJsBinding then None
    else Some(JsBinding(
      Push(b.outputDir, b.args.jsBinding.UnwrapOr("index.js")),
      b.package.name,
      b.args.jsPackageName.UnwrapOr(b.package.name)))
  }

  /** The steps of `post_build`, in order. */
  datatype Action =
    | CopyArtifact(src: string, dest: string)
    | WriteTypeDefs(dest: string, header: bool)
    | WriteJsBinding(binding: JsBinding)

  /** `copy_output`: the built file to its destination under the output
      directory. */
  function CopyOutput(b: BuildCommand): Action
    requires ValidTriple(b.target)
    requires b.args.bin || b.libTarget.Some?
  {
    var (srcName, destName) := ArtifactNames(b);
    CopyArtifact(CopySource(b, srcName), Push(b.outputDir, destName))
  }

  /** `post_build`: copy the artifact, then write the type definitions when
      the scratch file exists, then the JS binding when enabled. */
  function PostBuild(b: BuildCommand, typeFileExists: bool): seq<Action>
    requires ValidTriple(b.target)
    requires b.args.bin || b.libTarget.Some?
  {
    [CopyOutput(b)]
    + (if typeFileExists then [WriteTypeDefs(TypeDefPath(b), !b.args.noDtsHeader)] else [])
    + (if JsBindingPlan(b).Some? then [WriteJsBinding(JsBindingPlan(b).value)] else [])
  }

  /** The copy always comes first; the type definitions are written iff the
      scratch file exists, the binding iff it is enabled, and the binding
      last. */
  lemma PostBuildOrder(b: BuildCommand, typeFileExists: bool)
    requires ValidTriple(b.target)
    requires b.args.bin || b.libTarget.Some?
    ensures var r := PostBuild(b, typeFileExists);
            && |r| == 1 + (if typeFileExists then 1 else 0) + (if JsBindingPlan(b).Some? then 1 else 0)
            && r[0] == CopyOutput(b)
            && (typeFileExists <==> |r| >= 2 && r[1].WriteTypeDefs?)
            && (typeFileExists ==> |r| >= 2 && r[1] == WriteTypeDefs(TypeDefPath(b), !b.args.noDtsHeader))
            && (JsBindingPlan(b).Some? <==> r[|r| - 1].WriteJsBinding?)
            && (JsBindingPlan(b).Some? ==> r[|r| - 1] == WriteJsBinding(JsBindingPlan(b).value))
  {
    var copy := CopyOutput(b);
    var defs := if typeFileExists then [WriteTypeDefs(TypeDefPath(b), !b.args.noDtsHeader)] else [];
    var js := if JsBindingPlan(b).Some? then [WriteJsBinding(JsBindingPlan(b).value)] else [];
    assert copy.CopyArtifact?;
    PhasesInOrder(copy, defs, js);
  }

  /** A copy, then at most one type-definition write, then at most one
      binding write: each phase sits at its own place. */
  lemma PhasesInOrder(copy: Action, defs: seq<Action>, js: seq<Action>)
    requires copy.CopyArtifact? && |defs| <= 1 && |js| <= 1
    requires forall i :: 0 <= i < |defs| ==> defs[i].WriteTypeDefs?
    requires forall i :: 0 <= i < |js| ==> js[i].WriteJsBinding?
    ensures var r := [copy] + defs + js;
            && |r| == 1 + |defs| + |js|
            && r[0] == copy
            && (|defs| == 1 <==> |r| >= 2 && r[1].WriteTypeDefs?)
            && (|defs| == 1 ==> r[1] == defs[0])
            && (|js| == 1 <==> r[|r| - 1].WriteJsBinding?)
            && (|js| == 1 ==> r[|r| - 1] == js[0])
  {
  }

  /** How `run` ends. */
  datatype RunOutcome =
    | PackageRejected
    | CargoFailed(cmd: Command, code: int)
    | Built(cmd: Command, actions: seq<Action>)

  /** `run`: the package check, then `cargo build`, whose exit code is an
      input; post-processing only after a successful build. */
  function Run(b: BuildCommand, inheritedRustFlags: Option<string>, exitCode: int, typeFileExists: bool)
    : (r: RunOutcome)
    requires CheckPackage(b).Ok? && exitCode == 0 ==> ValidTriple(b.target)
    ensures r.PackageRejected? <==> CheckPackage(b).Err?
    ensures r.CargoFailed? <==> CheckPackage(b).Ok? && exitCode != 0
    ensures !r.PackageRejected? ==> r.cmd == CreateCommand(b, inheritedRustFlags)
    ensures r.Built? ==> r.actions == PostBuild(b, typeFileExists)
  {
    if CheckPackage(b).Err? then PackageRejected
    else
      var cmd := CreateCommand(b, inheritedRustFlags);
      if exitCode != 0 then CargoFailed(cmd, exitCode)
      else Built(cmd, PostBuild(b, typeFileExists))
  }

  // ---------------------------------------------------------------------
  // The scratch type-definition file
  // ---------------------------------------------------------------------

  /** Upper-case hexadecimal digit. */
  function HexDigit(d: nat): (ch: char)
    requires d < 16
    ensures '0' <= ch <= '9' || 'A' <= ch <= 'F'
  {
    if d < 10 then (48 + d) as char else (55 + d) as char
  }

  /** `{:02X}` of every byte, concatenated. */
  function UpperHex(bytes: seq<nat>): (r: string)
    requires forall i :: 0 <= i < |bytes| ==> bytes[i] < 256
    ensures |r| == 2 * |bytes|
    ensures forall i :: 0 <= i < |r| ==> '0' <= r[i] <= '9' || 'A' <= r[i] <= 'F'
  {
    if |bytes| == 0 then ""
    else [HexDigit(bytes[0] / 16), HexDigit(bytes[0] % 16)] + UpperHex(bytes[1..])
  }

  function HexValue(ch: char): (d: nat)
    requires '0' <= ch <= '9' || 'A' <= ch <= 'F'
    ensures d < 16
  {
    if ch <= '9' then ch as int - 48 else ch as int - 55
  }

  /** Reading the hex text back gives the bytes: the name is a faithful
      rendering of the random data. */
  lemma {:induction false} UpperHexReadsBack(bytes: seq<nat>)
    requires forall i :: 0 <= i < |bytes| ==> bytes[i] < 256
    ensures var r := UpperHex(bytes);
            forall i :: 0 <= i < |bytes| ==> HexValue(r[2 * i]) * 16 + HexValue(r[2 * i + 1]) == bytes[i]
  {
    if |bytes| > 0 {
      UpperHexReadsBack(bytes[1..]);
      var r := UpperHex(bytes);
      var rest := UpperHex(bytes[1..]);
      assert r == [HexDigit(bytes[0] / 16), HexDigit(bytes[0] % 16)] + rest;
      forall i | 1 <= i < |bytes|
        ensures HexValue(r[2 * i]) * 16 + HexValue(r[2 * i + 1]) == bytes[i]
      {
        assert r[2 * i] == rest[2 * (i - 1)] && r[2 * i + 1] == rest[2 * (i - 1) + 1];
        assert bytes[i] == bytes[1..][i - 1];
      }
    }
  }

  /** `get_intermediate_type_file`: `type_def.<32 hex digits>.tmp` in the
      temporary directory; the sixteen random bytes are an input. */
  function IntermediateTypeFile(tempDir: string, bytes: seq<nat>): (r: string)
    requires |bytes| == 16
    requires forall i :: 0 <= i < |bytes| ==> bytes[i] < 256
    ensures EndsWith(r, "type_def." + UpperHex(bytes) + ".tmp")
    ensures |tempDir| > 0 && tempDir[|tempDir| - 1] != '/' ==> r == tempDir + "/type_def." + UpperHex(bytes) + ".tmp"
  {
    Push(tempDir, "type_def." + UpperHex(bytes) + ".tmp")
  }
}

=== FILE: fn_args.dfy ===
/** `gen_arg_conversions` and the per-parameter conversions
    (crates/backend/src/codegen/fn.rs:119-341): which frame slot each
    parameter is read from, which conversion statement binds it, what the
    underlying call receives, and the helper traits synthesised for
    callbacks that are not `pure_fn`. */
module FnArgs {
  import opened Wrappers
  import opened Strings
  import opened FnIr

  // ---------------------------------------------------------------------
  // Parameters that read no frame slot
  // ---------------------------------------------------------------------

  /** The type is written `Env`, so that its token string is exactly
      that: the bare one-segment path. */
  predicate IsEnvType(ty: Ty) {
    ty == SimplePath("Env")
  }

  /** The bare path `Env` is the type whose token string is `Env`. */
  lemma EnvTypeString(ty: Ty)
    requires IsEnvType(ty)
    ensures TypeString(ty) == "Env"
  {
    assert Tokens(ty) == ["Env"];
  }

  /** With a parent class `P`, a parameter typed `Reference<P, ..>`: the
      first segment is `Reference` whose first generic argument is a path
      starting with `P`. */
  predicate IsParentReference(parent: Option<string>, ty: Ty) {
    && parent.Some?
    && FirstSegment(ty).Some?
    && var seg := FirstSegment(ty).value;
       && seg.ident == "Reference"
       && seg.arguments.AngleBracketed?
       && |seg.arguments.args| > 0
       && seg.arguments.args[0].TypeArg?
       && FirstSegment(seg.arguments.args[0].ty).Some?
       && FirstSegment(seg.arguments.args[0].ty).value.ident == parent.value
  }

  /** `Env` and `Reference<Parent>` parameters take no frame slot. */
  predicate SkipsSlot(f: NapiFn, a: NapiFnArg) {
    a.PatType? && (IsEnvType(a.ty) || IsParentReference(f.parent, a.ty))
  }

  /** Number of slot-reading parameters among the first `n`. */
  function SlotsBefore(f: NapiFn, n: nat): (c: nat)
    requires n <= |f.args|
    ensures c <= n
  {
    if n == 0 then 0
    else SlotsBefore(f, n - 1) + (if SkipsSlot(f, f.args[n - 1]) then 0 else 1)
  }

  /** The frame slot parameter `k` reads when it reads one: the number of
      slot-reading parameters before it. */
  function Slot(f: NapiFn, k: nat): nat
    requires k < |f.args|
  {
    SlotsBefore(f, k)
  }

  /** A callback that is wrapped in `Function<T>` and so needs a helper trait. */
  predicate NonPureCallback(a: NapiFnArg) {
    a.Callback? && !a.cb.pureFn
  }

  /** Number of callbacks that need a helper trait among the first `n`. */
  function NonPureBefore(f: NapiFn, n: nat): (c: nat)
    requires n <= |f.args|
    ensures c <= n
  {
    if n == 0 then 0
    else NonPureBefore(f, n - 1) + (if NonPureCallback(f.args[n - 1]) then 1 else 0)
  }

  /** The index of the helper trait parameter `k` gets when it is a
      non-pure callback: the number of non-pure callbacks before it. */
  function TraitIndex(f: NapiFn, k: nat): nat
    requires k < |f.args|
  {
    NonPureBefore(f, k)
  }

  /** A later non-pure callback gets a later trait index. */
  lemma {:induction false} NonPureBeforeIncrease(f: NapiFn, k: nat, m: nat)
    requires k < m <= |f.args|
    requires NonPureCallback(f.args[k])
    ensures NonPureBefore(f, k) < NonPureBefore(f, m)
    decreases m
  {
    if m > k + 1 {
      NonPureBeforeIncrease(f, k, m - 1);
    }
  }

  /** A later slot-reading parameter reads a later slot. */
  lemma {:induction false} SlotsBeforeIncrease(f: NapiFn, k: nat, m: nat)
    requires k < m <= |f.args|
    requires !SkipsSlot(f, f.args[k])
    ensures SlotsBefore(f, k) < SlotsBefore(f, m)
    decreases m
  {
    if m > k + 1 {
      SlotsBeforeIncrease(f, k, m - 1);
    }
  }

  /** The slot counts never fall as more parameters are seen. */
  lemma {:induction false} SlotsBeforeMonotone(f: NapiFn, k: nat, m: nat)
    requires k <= m <= |f.args|
    ensures SlotsBefore(f, k) <= SlotsBefore(f, m)
    decreases m
  {
    if m > k {
      SlotsBeforeMonotone(f, k, m - 1);
    }
  }

  // ---------------------------------------------------------------------
  // Conversion statements
  // ---------------------------------------------------------------------

  /** `gen_ty_arg_conversion`: `&mut T` and `&T` borrow from the slot and
      are never validated; any other type is converted by value, after a
      validation that may return early when the function is strict. */
  function GenTyArgConversion(f: NapiFn, slot: nat, ty: Ty): (c: Conversion)
    ensures c.FromMutRef? <==> ty.TRef? && ty.mutable
    ensures c.FromRef? <==> ty.TRef? && !ty.mutable
    ensures c.FromValue? <==> !ty.TRef?
    ensures c.FromValue? ==> c.validate == f.strict && c.ty == ty
    ensures !c.FromValue? ==> c.elem == ty.elem
    ensures !c.RecoverThis? && !c.FromCallback? && c.slot == slot
  {
    match ty
    case TRef(_, mutable, elem) => if mutable then FromMutRef(slot, elem) else FromRef(slot, elem)
    case _ => FromValue(slot, ty, f.strict)
  }

  /** `gen_cb_arg_conversion`: a closure over the JS function in the slot
      that converts the callback's inputs out and its result back; wrapped
      in `Function { inner }` unless the callback is pure. */
  function GenCbArgConversion(slot: nat, cb: CallbackArg): (c: Conversion)
    ensures c.FromCallback? && c.slot == slot && c.closure.slot == slot
    ensures c.closure.inputs == cb.args && c.closure.ret == cb.ret
    ensures c.wrapped <==> !cb.pureFn
  {
    FromCallback(slot, Trampoline(slot, cb.args, cb.ret), !cb.pureFn)
  }

  /** The statement recovering `this` from the frame: only for a method of
      a class taking `&self` or `&mut self`. */
  function ThisRecovery(f: NapiFn): (r: seq<Conversion>)
    ensures |r| <= 1
    ensures |r| == 1 <==> f.parent.Some? && (f.fnSelf == Some(Ref) || f.fnSelf == Some(MutRef))
    ensures |r| == 1 ==> r[0] == RecoverThis(f.parent.value, f.fnSelf == Some(MutRef))
  {
    if f.parent.Some? && f.fnSelf == Some(Ref) then [RecoverThis(f.parent.value, false)]
    else if f.parent.Some? && f.fnSelf == Some(MutRef) then [RecoverThis(f.parent.value, true)]
    else []
  }

  // ---------------------------------------------------------------------
  // Helper traits for callbacks
  // ---------------------------------------------------------------------

  /** `FunctionCall<i>`. */
  function TraitName(i: nat): string {
    "FunctionCall" + NatToString(i)
  }

  /** Helper traits are named apart. */
  lemma TraitNamesDistinct(i: nat, j: nat)
    requires i != j
    ensures TraitName(i) != TraitName(j)
  {
    if TraitName(i) == TraitName(j) {
      assert NatToString(i) == TraitName(i)[12..];
      assert NatToString(j) == TraitName(j)[12..];
      NatToStringInjective(i, j);
    }
  }

  function CallbackTraitDef(cb: CallbackArg, i: nat): TraitDef {
    TraitDef(TraitName(i), cb.args, cb.rawRet)
  }

  function CallbackTraitImpl(cb: CallbackArg, i: nat): TraitImpl {
    TraitImpl(TraitName(i), cb.genericName, cb.args, cb.rawRet)
  }

  // ---------------------------------------------------------------------
  // The walk over the parameters
  // ---------------------------------------------------------------------

  /** The four lists `gen_arg_conversions` returns. */
  datatype ArgPlan = ArgPlan(
    conversions: seq<Conversion>,
    callArgs: seq<CallArg>,
    traitDefs: seq<TraitDef>,
    traitImpls: seq<TraitImpl>)

  /** The lists so far together with the walk's two counters,
      `skipped_arg_count` and `trait_name_count`. */
  datatype ArgState = ArgState(plan: ArgPlan, skipped: nat, traitCount: nat)

  /** One step of the walk, for the parameter at position `i`: it reads
      slot `i - skipped`. */
  function Step(f: NapiFn, s: ArgState, i: nat, a: NapiFnArg): ArgState
    requires s.skipped <= i
  {
    var slot := i - s.skipped;
    var p := s.plan;
    match a
    case PatType(ty) =>
      if IsEnvType(ty) then
        ArgState(p.(callArgs := p.callArgs + [EnvArg]), s.skipped + 1, s.traitCount)
      else if IsParentReference(f.parent, ty) then
        ArgState(p.(callArgs := p.callArgs + [ThisReference]), s.skipped + 1, s.traitCount)
      else
        ArgState(p.(conversions := p.conversions + [GenTyArgConversion(f, slot, ty)],
                    callArgs := p.callArgs + [Local(slot)]), s.skipped, s.traitCount)
    case Callback(cb) =>
      var p1 := p.(conversions := p.conversions + [GenCbArgConversion(slot, cb)],
                   callArgs := p.callArgs + [Local(slot)]);
      if cb.pureFn then ArgState(p1, s.skipped, s.traitCount)
      else
        ArgState(p1.(traitDefs := p1.traitDefs + [CallbackTraitDef(cb, s.traitCount)],
                     traitImpls := p1.traitImpls + [CallbackTraitImpl(cb, s.traitCount)]),
                 s.skipped, s.traitCount + 1)
  }

  /** The call argument parameter `k` becomes. */
  function ExpectedCallArg(f: NapiFn, k: nat): CallArg
    requires k < |f.args|
  {
    var a := f.args[k];
    if a.PatType? && IsEnvType(a.ty) then EnvArg
    else if a.PatType? && IsParentReference(f.parent, a.ty) then ThisReference
    else Local(Slot(f, k))
  }

  /** The conversion a slot-reading parameter `k` gets. */
  function ExpectedConversion(f: NapiFn, k: nat): Conversion
    requires k < |f.args|
  {
    match f.args[k]
    case PatType(ty) => GenTyArgConversion(f, Slot(f, k), ty)
    case Callback(cb) => GenCbArgConversion(Slot(f, k), cb)
  }

  /** What holds of the walk's state after the first `n` parameters. The
      skip counter never exceeds the position, so `i - skipped` never
      underflows; parameter `k` reads slot "number of earlier
      slot-reading parameters"; the conversions follow the receiver
      recovery in parameter order; and the trait lists grow together,
      named by consecutive index. */
  predicate Counted(f: NapiFn, n: nat, s: ArgState)
    requires n <= |f.args|
  {
    && s.skipped + SlotsBefore(f, n) == n
    && |s.plan.callArgs| == n
    && |s.plan.conversions| == |ThisRecovery(f)| + SlotsBefore(f, n)
    && s.plan.conversions[..|ThisRecovery(f)|] == ThisRecovery(f)
    && s.traitCount == |s.plan.traitDefs| == |s.plan.traitImpls| == NonPureBefore(f, n)
  }

  /** Parameter `k` is passed as `Env`, as the recovered `this`, or as
      the local bound from its slot. */
  predicate CallArgsPlaced(f: NapiFn, n: nat, callArgs: seq<CallArg>)
    requires n <= |f.args| && |callArgs| == n
  {
    forall k :: 0 <= k < n ==> callArgs[k] == ExpectedCallArg(f, k)
  }

  /** After the receiver recovery, the conversion of every slot-reading
      parameter sits at the position of its slot. */
  predicate ConversionsPlaced(f: NapiFn, n: nat, conversions: seq<Conversion>)
    requires n <= |f.args| && |conversions| == |ThisRecovery(f)| + SlotsBefore(f, n)
  {
    forall k {:trigger Slot(f, k)} :: 0 <= k < n && !SkipsSlot(f, f.args[k]) ==>
      Slot(f, k) < SlotsBefore(f, n)
      && conversions[|ThisRecovery(f)| + Slot(f, k)] == ExpectedConversion(f, k)
  }

  /** The `j`-th definition and implementation belong to `FunctionCall<j>`. */
  predicate TraitsNamed(defs: seq<TraitDef>, impls: seq<TraitImpl>)
    requires |defs| == |impls|
  {
    forall j :: 0 <= j < |defs| ==> defs[j].name == TraitName(j) && impls[j].traitName == TraitName(j)
  }

  /** Every non-pure callback among the first `n` parameters owns the
      definition and implementation at its trait index, built from its own
      argument types, raw return type and generic name. */
  predicate TraitsPlaced(f: NapiFn, n: nat, defs: seq<TraitDef>, impls: seq<TraitImpl>)
    requires n <= |f.args| && |defs| == |impls| == NonPureBefore(f, n)
  {
    forall k {:trigger TraitIndex(f, k)} :: 0 <= k < n && NonPureCallback(f.args[k]) ==>
      TraitIndex(f, k) < NonPureBefore(f, n)
      && defs[TraitIndex(f, k)] == CallbackTraitDef(f.args[k].cb, TraitIndex(f, k))
      && impls[TraitIndex(f, k)] == CallbackTraitImpl(f.args[k].cb, TraitIndex(f, k))
  }

  predicate WalkInvariant(f: NapiFn, n: nat, s: ArgState)
    requires n <= |f.args|
  {
    && Counted(f, n, s)
    && CallArgsPlaced(f, n, s.plan.callArgs)
    && ConversionsPlaced(f, n, s.plan.conversions)
    && TraitsNamed(s.plan.traitDefs, s.plan.traitImpls)
    && TraitsPlaced(f, n, s.plan.traitDefs, s.plan.traitImpls)
  }

  lemma StepCounted(f: NapiFn, n: nat, s: ArgState)
    requires 0 < n <= |f.args| && Counted(f, n - 1, s)
    ensures s.skipped <= n - 1
    ensures Counted(f, n, Step(f, s, n - 1, f.args[n - 1]))
  {
    var r := Step(f, s, n - 1, f.args[n - 1]);
    assert r.plan.conversions[..|ThisRecovery(f)|] == s.plan.conversions[..|ThisRecovery(f)|];
  }

  lemma StepCallArgs(f: NapiFn, n: nat, s: ArgState)
    requires 0 < n <= |f.args| && Counted(f, n - 1, s) && CallArgsPlaced(f, n - 1, s.plan.callArgs)
    ensures Counted(f, n, Step(f, s, n - 1, f.args[n - 1]))
    ensures CallArgsPlaced(f, n, Step(f, s, n - 1, f.args[n - 1]).plan.callArgs)
  {
    StepCounted(f, n, s);
  }

  /** The conversions a step adds: none for a parameter that skips its
      slot, otherwise the parameter's own conversion. */
  lemma StepConversionList(f: NapiFn, n: nat, s: ArgState)
    requires 0 < n <= |f.args| && Counted(f, n - 1, s)
    ensures s.skipped <= n - 1
    ensures var r := Step(f, s, n - 1, f.args[n - 1]);
            if SkipsSlot(f, f.args[n - 1]) then r.plan.conversions == s.plan.conversions
            else r.plan.conversions == s.plan.conversions + [ExpectedConversion(f, n - 1)]
  {
  }

  /** Appending the conversion of parameter `n - 1` (when it reads a
      slot) keeps every earlier conversion at its place. */
  lemma ConversionsExtend(f: NapiFn, n: nat, base: nat, before: seq<Conversion>, after: seq<Conversion>)
    requires 0 < n <= |f.args|
    requires base == |ThisRecovery(f)|
    requires |before| == base + SlotsBefore(f, n - 1) && ConversionsPlaced(f, n - 1, before)
    requires if SkipsSlot(f, f.args[n - 1]) then after == before
             else after == before + [ExpectedConversion(f, n - 1)]
    ensures |after| == base + SlotsBefore(f, n)
    ensures ConversionsPlaced(f, n, after)
  {
    var last := f.args[n - 1];
    assert SlotsBefore(f, n) == SlotsBefore(f, n - 1) + (if SkipsSlot(f, last) then 0 else 1);
    assert after[..|before|] == before;
    forall k | 0 <= k < n && !SkipsSlot(f, f.args[k])
      ensures Slot(f, k) < SlotsBefore(f, n)
      ensures after[base + Slot(f, k)] == ExpectedConversion(f, k)
    {
      SlotsBeforeIncrease(f, k, n);
      var at := base + Slot(f, k);
      if k < n - 1 {
        assert before[at] == ExpectedConversion(f, k);
        PrefixIndex(before, after, at);
      } else {
        assert at == |before|;
      }
    }
  }

  lemma PrefixIndex<T>(a: seq<T>, b: seq<T>, i: nat)
    requires i < |a| <= |b| && b[..|a|] == a
    ensures b[i] == a[i]
  {
    assert b[..|a|][i] == b[i];
  }

  lemma StepConversions(f: NapiFn, n: nat, s: ArgState)
    requires 0 < n <= |f.args| && Counted(f, n - 1, s) && ConversionsPlaced(f, n - 1, s.plan.conversions)
    ensures Counted(f, n, Step(f, s, n - 1, f.args[n - 1]))
    ensures ConversionsPlaced(f, n, Step(f, s, n - 1, f.args[n - 1]).plan.conversions)
  {
    StepCounted(f, n, s);
    StepConversionList(f, n, s);
    var r := Step(f, s, n - 1, f.args[n - 1]);
    ConversionsExtend(f, n, |ThisRecovery(f)|, s.plan.conversions, r.plan.conversions);
  }

  lemma StepTraits(f: NapiFn, n: nat, s: ArgState)
    requires 0 < n <= |f.args| && Counted(f, n - 1, s) && TraitsNamed(s.plan.traitDefs, s.plan.traitImpls)
    ensures Counted(f, n, Step(f, s, n - 1, f.args[n - 1]))
    ensures TraitsNamed(Step(f, s, n - 1, f.args[n - 1]).plan.traitDefs, Step(f, s, n - 1, f.args[n - 1]).plan.traitImpls)
  {
    StepCounted(f, n, s);
  }

  /** A step appends the helper trait of a non-pure callback and keeps
      every earlier trait at its index. */
  lemma StepTraitsPlaced(f: NapiFn, n: nat, s: ArgState)
    requires 0 < n <= |f.args| && Counted(f, n - 1, s)
    requires TraitsPlaced(f, n - 1, s.plan.traitDefs, s.plan.traitImpls)
    ensures Counted(f, n, Step(f, s, n - 1, f.args[n - 1]))
    ensures TraitsPlaced(f, n, Step(f, s, n - 1, f.args[n - 1]).plan.traitDefs,
                         Step(f, s, n - 1, f.args[n - 1]).plan.traitImpls)
  {
    StepCounted(f, n, s);
    var r := Step(f, s, n - 1, f.args[n - 1]);
    var defs, impls := s.plan.traitDefs, s.plan.traitImpls;
    if NonPureCallback(f.args[n - 1]) {
      assert r.plan.traitDefs == defs + [CallbackTraitDef(f.args[n - 1].cb, |defs|)];
      assert r.plan.traitImpls == impls + [CallbackTraitImpl(f.args[n - 1].cb, |defs|)];
    } else {
      assert r.plan.traitDefs == defs && r.plan.traitImpls == impls;
    }
    forall k | 0 <= k < n && NonPureCallback(f.args[k])
      ensures TraitIndex(f, k) < NonPureBefore(f, n)
      ensures r.plan.traitDefs[TraitIndex(f, k)] == CallbackTraitDef(f.args[k].cb, TraitIndex(f, k))
      ensures r.plan.traitImpls[TraitIndex(f, k)] == CallbackTraitImpl(f.args[k].cb, TraitIndex(f, k))
    {
      NonPureBeforeIncrease(f, k, n);
      if k < n - 1 {
        assert defs[TraitIndex(f, k)] == CallbackTraitDef(f.args[k].cb, TraitIndex(f, k));
      }
    }
  }

  /** The state after the first `n` parameters. */
  function GenArgsUpTo(f: NapiFn, n: nat): (r: ArgState)
    requires n <= |f.args|
    ensures WalkInvariant(f, n, r)
  {
    if n == 0 then ArgState(ArgPlan(ThisRecovery(f), [], [], []), 0, 0)
    else
      var s := GenArgsUpTo(f, n - 1);
      StepCounted(f, n, s);
      StepCallArgs(f, n, s);
      StepConversions(f, n, s);
      StepTraits(f, n, s);
      StepTraitsPlaced(f, n, s);
      Step(f, s, n - 1, f.args[n - 1])
  }

  /** `gen_arg_conversions`: one call argument per parameter, in order;
      one conversion per slot-reading parameter after the receiver
      recovery, in order; as many trait definitions as implementations,
      one per non-pure callback, named `FunctionCall0`, `FunctionCall1`, …,
      each built from its own callback. */
  function GenArgConversions(f: NapiFn): (r: ArgPlan)
    ensures |r.callArgs| == |f.args| && CallArgsPlaced(f, |f.args|, r.callArgs)
    ensures |r.conversions| == |ThisRecovery(f)| + SlotsBefore(f, |f.args|)
    ensures r.conversions[..|ThisRecovery(f)|] == ThisRecovery(f)
    ensures ConversionsPlaced(f, |f.args|, r.conversions)
    ensures |r.traitDefs| == |r.traitImpls| == NonPureBefore(f, |f.args|)
    ensures TraitsNamed(r.traitDefs, r.traitImpls)
    ensures TraitsPlaced(f, |f.args|, r.traitDefs, r.traitImpls)
  {
    GenArgsUpTo(f, |f.args|).plan
  }

  // ---------------------------------------------------------------------
  // Properties of the slot assignment
  // ---------------------------------------------------------------------

  /** `(env: Env, a: i32, b: i32)` passes the environment first and reads
      `a` and `b` from slots 0 and 1, not 1 and 2. */
  lemma EnvThenTwoInts(f: NapiFn)
    requires f.args == [PatType(SimplePath("Env")), PatType(SimplePath("i32")), PatType(SimplePath("i32"))]
    ensures GenArgConversions(f).callArgs == [EnvArg, Local(0), Local(1)]
    ensures GenArgConversions(f).conversions ==
              ThisRecovery(f) + [FromValue(0, SimplePath("i32"), f.strict), FromValue(1, SimplePath("i32"), f.strict)]
  {
    var r := GenArgConversions(f);
    assert SkipsSlot(f, f.args[0]);
    assert !SkipsSlot(f, f.args[1]) && !SkipsSlot(f, f.args[2]);
    assert Slot(f, 1) == 0 && Slot(f, 2) == 1;
    assert r.callArgs[0] == ExpectedCallArg(f, 0);
    assert r.callArgs[1] == ExpectedCallArg(f, 1);
    assert r.callArgs[2] == ExpectedCallArg(f, 2);
    var base := |ThisRecovery(f)|;
    assert r.conversions[base] == ExpectedConversion(f, 1);
    assert r.conversions[base + 1] == ExpectedConversion(f, 2);
    assert r.conversions == r.conversions[..base] + [r.conversions[base], r.conversions[base + 1]];
  }

  /** Every slot below the number of slot-reading parameters is read by
      some parameter. */
  lemma {:induction false} SlotIsRead(f: NapiFn, n: nat, slot: nat)
    requires n <= |f.args| && slot < SlotsBefore(f, n)
    ensures exists k :: 0 <= k < n && !SkipsSlot(f, f.args[k]) && Slot(f, k) == slot
    decreases n
  {
    if slot < SlotsBefore(f, n - 1) {
      SlotIsRead(f, n - 1, slot);
    } else {
      assert !SkipsSlot(f, f.args[n - 1]) && Slot(f, n - 1) == slot;
    }
  }

  /** No two parameters read the same slot. */
  lemma SlotsDistinct(f: NapiFn, k: nat, m: nat)
    requires k < |f.args| && m < |f.args| && k != m
    requires !SkipsSlot(f, f.args[k]) && !SkipsSlot(f, f.args[m])
    ensures Slot(f, k) != Slot(f, m)
  {
    if k < m { SlotsBeforeIncrease(f, k, m); } else { SlotsBeforeIncrease(f, m, k); }
  }

  /** Parameters that are all plain owned values. */
  predicate AllOwnedValues(f: NapiFn) {
    forall k :: 0 <= k < |f.args| ==>
      && f.args[k].PatType?
      && !IsEnvType(f.args[k].ty)
      && !IsParentReference(f.parent, f.args[k].ty)
      && !f.args[k].ty.TRef?
  }

  lemma {:induction false} NoSkipsSlotIsPosition(f: NapiFn, n: nat)
    requires n <= |f.args| && AllOwnedValues(f)
    ensures SlotsBefore(f, n) == n
    decreases n
  {
    if n > 0 {
      NoSkipsSlotIsPosition(f, n - 1);
    }
  }

  /** With only owned value parameters and no receiver, conversions and
      call arguments line up one to one with the parameters: parameter `k`
      is converted from slot `k` and passed as `arg<k>`. */
  lemma OwnedValuesLineUp(f: NapiFn)
    requires f.fnSelf.None? && AllOwnedValues(f)
    ensures |GenArgConversions(f).conversions| == |GenArgConversions(f).callArgs| == |f.args|
    ensures forall k :: 0 <= k < |f.args| ==>
              GenArgConversions(f).callArgs[k] == Local(k)
              && GenArgConversions(f).conversions[k] == FromValue(k, f.args[k].ty, f.strict)
  {
    var r := GenArgConversions(f);
    NoSkipsSlotIsPosition(f, |f.args|);
    forall k | 0 <= k < |f.args|
      ensures r.callArgs[k] == Local(k) && r.conversions[k] == FromValue(k, f.args[k].ty, f.strict)
    {
      NoSkipsSlotIsPosition(f, k);
      assert r.callArgs[k] == ExpectedCallArg(f, k);
      assert r.conversions[Slot(f, k)] == ExpectedConversion(f, k);
    }
  }

  /** Every conversion after the receiver recovery is the one some
      slot-reading parameter asks for: the walk adds nothing else. */
  lemma ConversionsFromParameters(f: NapiFn, i: nat)
    requires |ThisRecovery(f)| <= i < |GenArgConversions(f).conversions|
    ensures exists k :: 0 <= k < |f.args| && !SkipsSlot(f, f.args[k])
                        && GenArgConversions(f).conversions[i] == ExpectedConversion(f, k)
  {
    var r := GenArgConversions(f);
    var base := |ThisRecovery(f)|;
    SlotIsRead(f, |f.args|, i - base);
    var k :| 0 <= k < |f.args| && !SkipsSlot(f, f.args[k]) && Slot(f, k) == i - base;
    assert r.conversions[base + Slot(f, k)] == ExpectedConversion(f, k);
  }

  /** An owned parameter is validated before conversion exactly when the
      function is strict; borrowed parameters and callbacks never are. */
  lemma ValidationFollowsStrict(f: NapiFn, i: nat)
    requires i < |GenArgConversions(f).conversions|
    ensures GenArgConversions(f).conversions[i].FromValue? ==> GenArgConversions(f).conversions[i].validate == f.strict
  {
    var r := GenArgConversions(f);
    var base := |ThisRecovery(f)|;
    if i < base {
      assert r.conversions[i] == r.conversions[..base][i];
    } else {
      ConversionsFromParameters(f, i);
    }
  }

  lemma {:induction false} AllPureNoNonPure(f: NapiFn, n: nat)
    requires n <= |f.args|
    requires forall k :: 0 <= k < |f.args| && f.args[k].Callback? ==> f.args[k].cb.pureFn
    ensures NonPureBefore(f, n) == 0
    decreases n
  {
    if n > 0 {
      AllPureNoNonPure(f, n - 1);
    }
  }

  /** When every callback parameter is pure, no helper trait is made. */
  lemma PureCallbacksNeedNoTraits(f: NapiFn)
    requires forall k :: 0 <= k < |f.args| && f.args[k].Callback? ==> f.args[k].cb.pureFn
    ensures GenArgConversions(f).traitDefs == [] && GenArgConversions(f).traitImpls == []
  {
    AllPureNoNonPure(f, |f.args|);
  }
}

=== FILE: fn_codegen.dfy ===
/** The rest of the function-binding generator
    (crates/backend/src/codegen/fn.rs:11-115, 343-451): the call target,
    the return assembly, the module registration, the splicing of helper
    traits into the annotated function, and `try_to_tokens`, which puts
    them together. */
module FnCodegen {
  import opened Wrappers
  import opened Strings
  import opened FnIr
  import opened FnArgs

  // ---------------------------------------------------------------------
  // The call target
  // ---------------------------------------------------------------------

  /** `gen_fn_receiver`. A by-value `self` is rejected by the attribute
      parser before generation, and the generator would panic on it. */
  function GenFnReceiver(f: NapiFn): (r: Receiver)
    requires f.fnSelf != Some(Value)
    ensures r.name == f.name
    ensures r.ThisMethod? <==> f.fnSelf.Some?
    ensures r.ClassPath? <==> f.fnSelf.None? && f.parent.Some?
    ensures r.ClassPath? ==> r.owner == f.parent.value
    ensures r.Bare? <==> f.fnSelf.None? && f.parent.None?
  {
    match f.fnSelf
    case Some(_) => ThisMethod(f.name)
    case None =>
      match f.parent
      case Some(owner) => ClassPath(owner, f.name)
      case None => Bare(f.name)
  }

  /** A method of a class called on `this` finds `this` recovered by the
      first conversion, and only such a method gets that conversion. */
  lemma MethodCallsRecoveredThis(f: NapiFn)
    requires f.fnSelf != Some(Value)
    ensures GenFnReceiver(f).ThisMethod? && f.parent.Some?
            <==> |GenArgConversions(f).conversions| > 0 && GenArgConversions(f).conversions[0].RecoverThis?
  {
    var r := GenArgConversions(f);
    var base := |ThisRecovery(f)|;
    if f.fnSelf.Some? {
      assert f.fnSelf.value.Ref? || f.fnSelf.value.MutRef?;
    }
    if base == 1 {
      assert r.conversions[0] == r.conversions[..base][0];
    } else if |r.conversions| > 0 {
      ConversionsFromParameters(f, 0);
      var k :| 0 <= k < |f.args| && !SkipsSlot(f, f.args[k]) && r.conversions[0] == ExpectedConversion(f, k);
      assert !r.conversions[0].RecoverThis?;
    }
  }

  // ---------------------------------------------------------------------
  // The return assembly
  // ---------------------------------------------------------------------

  /** The return-self test as the generator writes it: the type's token
      string is `& Self` or `&mut Self`. */
  predicate IsReturnSelfAsWritten(ty: Ty) {
    TypeString(ty) == "& Self" || TypeString(ty) == "&mut Self"
  }

  /** The return-self test as intended: both spellings in the token
      string's own format, where `&` and `mut` are separate tokens. */
  predicate IsReturnSelf(ty: Ty) {
    TypeString(ty) == "& Self" || TypeString(ty) == "& mut Self"
  }

  /** The token string of `&Self` and `&mut Self`. */
  lemma SelfReferenceString(mutable: bool)
    ensures TypeString(TRef(None, mutable, SimplePath("Self")))
            == if mutable then "& mut Self" else "& Self"
  {
    var ty := TRef(None, mutable, SimplePath("Self"));
    assert Tokens(SimplePath("Self")) == ["Self"];
    if mutable {
      assert Tokens(ty) == ["&", "mut", "Self"];
    } else {
      assert Tokens(ty) == ["&", "Self"];
    }
  }

  /** As written, a method returning `&mut Self` is not recognised: its
      token string is `& mut Self`, so it is converted like any value. */
  lemma MutSelfMissedAsWritten()
    ensures !IsReturnSelfAsWritten(TRef(None, true, SimplePath("Self")))
    ensures IsReturnSelf(TRef(None, true, SimplePath("Self")))
  {
    SelfReferenceString(true);
  }

  /** The intended test recognises both `&Self` and `&mut Self`, and agrees
      with the written one on `&Self`. */
  lemma SelfReferencesRecognised(mutable: bool)
    ensures IsReturnSelf(TRef(None, mutable, SimplePath("Self")))
    ensures !mutable ==> IsReturnSelfAsWritten(TRef(None, mutable, SimplePath("Self")))
  {
    SelfReferenceString(mutable);
  }

  /** The choice `gen_fn_return` makes, given the outcome of its
      return-self test: constructors and factories hand the value to
      `cb.construct` / `cb.factory`, applying `?` exactly when the function
      is fallible; a method returning `self` by reference yields `this`
      (through `map` when fallible); other synchronous fallible results
      are thrown into the environment in place; everything else is
      converted directly, and no return type converts unit. */
  function ReturnShape(f: NapiFn, returnsSelf: bool): (r: RetShape)
    ensures r.ConvertUnit? <==> f.ret.None?
    ensures r.Construct? <==> f.ret.Some? && f.kind.Constructor?
    ensures r.FactoryCall? <==> f.ret.Some? && f.kind.Factory?
    ensures (r.Construct? || r.FactoryCall?) ==> r.jsName == f.jsName && (r.unwrap <==> f.isRetResult)
    ensures r.MapThis? || r.OkThis? <==>
              f.ret.Some? && f.kind.Normal? && returnsSelf && !(f.isRetResult && f.isAsync)
    ensures r.MapThis? ==> f.isRetResult
    ensures r.OkThis? ==> !f.isRetResult
    ensures r.ThrowOnErr? <==>
              f.ret.Some? && f.kind.Normal? && f.isRetResult && !f.isAsync && !returnsSelf
    ensures r.ConvertValue? ==> f.ret == Some(r.ty) && (f.isAsync || !f.isRetResult)
  {
    match f.ret
    case None => ConvertUnit
    case Some(ty) =>
      if f.kind.Constructor? then Construct(f.jsName, f.isRetResult)
      else if f.kind.Factory? then FactoryCall(f.jsName, f.isRetResult)
      else if f.isRetResult then
        if f.isAsync then ConvertValue(ty)
        else if returnsSelf then MapThis
        else ThrowOnErr
      else if returnsSelf then OkThis
      else ConvertValue(ty)
  }

  /** `gen_fn_return` as written. */
  function GenFnReturnAsWritten(f: NapiFn): RetShape {
    ReturnShape(f, f.ret.Some? && IsReturnSelfAsWritten(f.ret.value))
  }

  /** `gen_fn_return` with the intended return-self test; the rest of the
      model uses this one. */
  function GenFnReturn(f: NapiFn): RetShape {
    ReturnShape(f, f.ret.Some? && IsReturnSelf(f.ret.value))
  }

  /** A synchronous method returning `&mut Self`: as written, its result is
      converted as a value (or thrown on error); as intended, the method
      yields `this`. */
  lemma MutSelfMethodAsWritten(f: NapiFn)
    requires f.ret == Some(TRef(None, true, SimplePath("Self"))) && f.kind.Normal? && !f.isAsync
    ensures GenFnReturnAsWritten(f) == if f.isRetResult then ThrowOnErr else ConvertValue(f.ret.value)
    ensures GenFnReturn(f) == if f.isRetResult then MapThis else OkThis
  {
    MutSelfMissedAsWritten();
  }

  /** The two tests disagree only on the token strings `& mut Self` and
      `&mut Self`: for every other return type the shapes coincide. */
  lemma ReturnShapesAgreeElsewhere(f: NapiFn)
    requires f.ret.None? || (TypeString(f.ret.value) != "& mut Self" && TypeString(f.ret.value) != "&mut Self")
    ensures GenFnReturnAsWritten(f) == GenFnReturn(f)
  {
  }

  // ---------------------------------------------------------------------
  // Registration
  // ---------------------------------------------------------------------

  lemma {:induction false} Utf8LenAppend(a: string, b: string)
    ensures Utf8Len(a + b) == Utf8Len(a) + Utf8Len(b)
    decreases |a|
  {
    if |a| > 0 {
      assert (a + b)[0] == a[0];
      assert (a + b)[1..] == a[1..] + b;
      Utf8LenAppend(a[1..], b);
      assert Utf8Len(a + b) == Utf8Width(a[0]) + Utf8Len(a[1..] + b);
    } else {
      assert a + b == b;
    }
  }

  /** `gen_fn_register`: nothing for a class member; for a free function,
      a thunk `<name>_js_function` creating the JS function from the
      NUL-terminated JS name, whose length in bytes counts the terminator,
      and a load-time constructor registering it in its JS module. */
  function GenFnRegister(f: NapiFn): (r: Registration)
    ensures r.NoRegistration? <==> f.parent.Some?
    ensures r.Register? ==>
              && |r.jsName| == |f.jsName| + 1
              && r.jsName[..|f.jsName|] == f.jsName
              && r.jsName[|f.jsName|] == '\0'
              && r.nameLen == Utf8Len(f.jsName) + 1
              && r.cbName == f.name + "_js_function"
              && r.registerIdent == RegisterOf(f.name)
              && r.intermediate == IntermediateOf(f.name)
              && r.jsMod == f.jsMod
  {
    if f.parent.Some? then NoRegistration
    else
      var jsName := f.jsName + "\0";
      Utf8LenAppend(f.jsName, "\0");
      Register(f.name + "_js_function", jsName, Utf8Len(jsName), RegisterOf(f.name),
               IntermediateOf(f.name), f.jsMod)
  }

  // ---------------------------------------------------------------------
  // Splicing the helper traits into the annotated function
  // ---------------------------------------------------------------------

  /** The loop of `try_to_tokens` from pair `index` on: it inserts the
      implementation at the front, then the definition in front of it. */
  function InsertTraits(stmts: seq<Stmt>, defs: seq<TraitDef>, impls: seq<TraitImpl>, index: nat): seq<Stmt>
    requires |defs| == |impls| && index <= |defs|
    decreases |defs| - index
  {
    if index == |defs| then stmts
    else
      var withImpl := [TraitImplItem(impls[index])] + stmts;
      InsertTraits([TraitDefItem(defs[index])] + withImpl, defs, impls, index + 1)
  }

  /** The pairs `lo .. hi - 1`, each definition followed by its
      implementation, highest index first. */
  function PairsBetween(defs: seq<TraitDef>, impls: seq<TraitImpl>, lo: nat, hi: nat): (r: seq<Stmt>)
    requires |defs| == |impls| && lo <= hi <= |defs|
    ensures |r| == 2 * (hi - lo)
    decreases hi - lo
  {
    if lo == hi then []
    else PairsBetween(defs, impls, lo + 1, hi) + [TraitDefItem(defs[lo]), TraitImplItem(impls[lo])]
  }

  /** The loop leaves the remaining pairs in front of what it started with. */
  lemma {:induction false} InsertTraitsClosedForm(stmts: seq<Stmt>, defs: seq<TraitDef>, impls: seq<TraitImpl>, index: nat)
    requires |defs| == |impls| && index <= |defs|
    ensures InsertTraits(stmts, defs, impls, index) == PairsBetween(defs, impls, index, |defs|) + stmts
    decreases |defs| - index
  {
    if index < |defs| {
      var pair := [TraitDefItem(defs[index]), TraitImplItem(impls[index])];
      assert [TraitDefItem(defs[index])] + ([TraitImplItem(impls[index])] + stmts) == pair + stmts;
      InsertTraitsClosedForm(pair + stmts, defs, impls, index + 1);
      assert PairsBetween(defs, impls, index + 1, |defs|) + (pair + stmts)
          == (PairsBetween(defs, impls, index + 1, |defs|) + pair) + stmts;
    }
  }

  /** Pair `k` sits at position `2 * (hi - 1 - k)`, its implementation
      right after its definition. */
  lemma {:induction false} PairPosition(defs: seq<TraitDef>, impls: seq<TraitImpl>, lo: nat, hi: nat, k: nat)
    requires |defs| == |impls| && lo <= k < hi <= |defs|
    ensures PairsBetween(defs, impls, lo, hi)[2 * (hi - 1 - k)] == TraitDefItem(defs[k])
    ensures PairsBetween(defs, impls, lo, hi)[2 * (hi - 1 - k) + 1] == TraitImplItem(impls[k])
    decreases hi - lo
  {
    if k > lo {
      PairPosition(defs, impls, lo + 1, hi, k);
    }
  }

  /** The layout the splice produces: all pairs, highest index first, each
      definition followed by its own implementation, then the original
      statements unchanged. */
  predicate SplicedLayout(stmts: seq<Stmt>, defs: seq<TraitDef>, impls: seq<TraitImpl>, out: seq<Stmt>)
    requires |defs| == |impls|
  {
    && |out| == 2 * |defs| + |stmts|
    && out[2 * |defs|..] == stmts
    && forall k :: 0 <= k < |defs| ==>
         out[2 * (|defs| - 1 - k)] == TraitDefItem(defs[k])
         && out[2 * (|defs| - 1 - k) + 1] == TraitImplItem(impls[k])
  }

  lemma InsertTraitsLayout(stmts: seq<Stmt>, defs: seq<TraitDef>, impls: seq<TraitImpl>)
    requires |defs| == |impls|
    ensures SplicedLayout(stmts, defs, impls, InsertTraits(stmts, defs, impls, 0))
  {
    var out := InsertTraits(stmts, defs, impls, 0);
    InsertTraitsClosedForm(stmts, defs, impls, 0);
    forall k | 0 <= k < |defs|
      ensures out[2 * (|defs| - 1 - k)] == TraitDefItem(defs[k])
      ensures out[2 * (|defs| - 1 - k) + 1] == TraitImplItem(impls[k])
    {
      PairPosition(defs, impls, 0, |defs|, k);
    }
  }

  /** The item with the helper traits spliced in. With no traits the item
      is passed through untouched, even when it does not parse; otherwise
      it must parse as an item, and only a function item is rewritten. */
  function SpliceTraits(item: Item, defs: seq<TraitDef>, impls: seq<TraitImpl>): (r: Result<Item, string>)
    requires |defs| == |impls|
    ensures r.Err? <==> |defs| > 0 && item.Unparseable?
    ensures |defs| == 0 ==> r == Ok(item)
    ensures r.Ok? && !item.FnItem? ==> r.value == item
    ensures r.Ok? && item.FnItem? ==>
              r.value.FnItem? && SplicedLayout(item.stmts, defs, impls, r.value.stmts)
  {
    if |defs| == 0 then Ok(item)
    else
      match item
      case Unparseable => Err("expected an item")
      case OtherItem => Ok(item)
      case FnItem(stmts) =>
        InsertTraitsLayout(stmts, defs, impls);
        Ok(FnItem(InsertTraits(stmts, defs, impls, 0)))
  }

  // ---------------------------------------------------------------------
  // try_to_tokens
  // ---------------------------------------------------------------------

  /** The call and its return assembly; an async infallible call is
      wrapped in `Ok`, so the executor always receives a `Result`. */
  function NativeCallOf(f: NapiFn, callArgs: seq<CallArg>): (c: NativeCall)
    requires f.fnSelf != Some(Value)
    ensures c.receiver == GenFnReceiver(f) && c.args == callArgs && c.ret == GenFnReturn(f)
    ensures c.AsyncCall? <==> f.isAsync
    ensures c.AsyncCall? ==> (c.wrapOk <==> !f.isRetResult)
  {
    if !f.isAsync then SyncCall(GenFnReceiver(f), callArgs, GenFnReturn(f))
    else AsyncCall(GenFnReceiver(f), callArgs, !f.isRetResult, GenFnReturn(f))
  }

  /** The entry point's body. The frame is skipped only for a free
      function of no parameters that is neither constructor nor factory;
      a constructor checks the factory guard before any conversion. */
  function FunctionCallOf(f: NapiFn, plan: ArgPlan): (b: FunctionCall)
    requires f.fnSelf != Some(Value)
    ensures b.DirectCall? <==> |f.args| == 0 && f.fnSelf.None? && f.kind.Normal?
    ensures b.FrameCall? ==>
              (b.factoryGuard <==> f.kind.Constructor?)
              && b.argsLen == |f.args|
              && b.conversions == plan.conversions
    ensures b.call == NativeCallOf(f, plan.callArgs)
  {
    var call := NativeCallOf(f, plan.callArgs);
    if |f.args| == 0 && f.fnSelf.None? && !f.kind.Constructor? && !f.kind.Factory? then DirectCall(call)
    else FrameCall(f.kind.Constructor?, |f.args|, plan.conversions, call)
  }

  /** `try_to_tokens`: the annotated item (with helper traits spliced in),
      the `extern "C"` entry point named after the function, and the
      registration. It fails only when helper traits are needed and the
      item does not parse. */
  function TryToTokens(f: NapiFn, item: Item): (r: Result<Emitted, string>)
    requires f.fnSelf != Some(Value)
    ensures r.Err? <==> NonPureBefore(f, |f.args|) > 0 && item.Unparseable?
    ensures NonPureBefore(f, |f.args|) == 0 ==> r.Ok? && r.value.item == item
    ensures r.Ok? ==>
              && r.value.entry.ident == IntermediateOf(f.name)
              && r.value.entry.attrs == f.attrs
              && r.value.entry.body == FunctionCallOf(f, GenArgConversions(f))
              && r.value.register == GenFnRegister(f)
  {
    var plan := GenArgConversions(f);
    match SpliceTraits(item, plan.traitDefs, plan.traitImpls)
    case Err(e) => Err(e)
    case Ok(newItem) =>
      Ok(Emitted(newItem, EntryPoint(IntermediateOf(f.name), f.attrs, FunctionCallOf(f, plan)), GenFnRegister(f)))
  }

  /** The frame-less shortcut loses nothing: such a function has no
      conversion to run and passes no argument. */
  lemma DirectCallDropsNothing(f: NapiFn, item: Item)
    requires f.fnSelf != Some(Value)
    requires TryToTokens(f, item).Ok? && TryToTokens(f, item).value.entry.body.DirectCall?
    ensures GenArgConversions(f).conversions == [] && GenArgConversions(f).callArgs == []
  {
  }

  /** A free function of no parameters runs as a direct call, passing no
      arguments, and registers itself. */
  lemma NullaryFreeFunction(f: NapiFn, item: Item)
    requires f.args == [] && f.fnSelf.None? && f.parent.None? && f.kind.Normal?
    ensures TryToTokens(f, item).Ok?
    ensures TryToTokens(f, item).value.entry.body.DirectCall?
    ensures TryToTokens(f, item).value.entry.body.call.args == []
    ensures TryToTokens(f, item).value.register.Register?
  {
  }
}

=== FILE: fn_exec.dfy ===
/** What a call into the generated entry point does, observed from
    JavaScript: which value handle it returns and which exception it
    leaves pending. The runtime pieces the emitted code calls into (frame
    creation, the conversions' own checks, the recovery of a `Reference`
    to the receiver, the native function, the conversion of the result
    back to JavaScript) are not modelled; their outcomes are inputs. */
module FnExec {
  import opened Wrappers
  import opened FnIr
  import opened FnArgs
  import opened FnCodegen

  /** A value handle the entry point hands back to JavaScript. `Early` is
      the non-null result of a strict validation (a rejected promise or
      error value), returned instead of calling the function. */
  datatype Handle =
    | NullHandle
    | ThisHandle
    | Converted(value: int)
    | Instance(value: int)
    | UnitHandle
    | Early(value: int)
    | Promise(settled: Result<Handle, string>)

  /** The JS-visible result: the handle returned and the exception left
      pending in the environment, if any. */
  datatype Outcome = Outcome(returned: Handle, thrown: Option<string>)

  /** What one conversion statement does with its frame slot: binds its
      local, fails with an error through `?`, or (strict validation only)
      finds a mismatch and returns the validation's handle. */
  datatype ConvOutcome = Bound | Raised(msg: string) | Invalid(handle: int)

  /** What the native function returns: a value, or (fallible functions
      only) an error. */
  datatype NativeResult = Returned(value: int) | Failed(msg: string)

  /** How the conversions ran: all bound, or stopped at index `at`. */
  datatype ConvRun = AllBound | StoppedEarly(at: nat, handle: int) | RaisedAt(at: nat, msg: string)

  /** Only a conversion that validates can report a mismatch. */
  predicate Admissible(conversions: seq<Conversion>, outcomes: seq<ConvOutcome>) {
    && |outcomes| == |conversions|
    && forall j :: 0 <= j < |outcomes| && outcomes[j].Invalid? ==>
         conversions[j].FromValue? && conversions[j].validate
  }

  /** The conversions from index `i` on, in order, stopping at the first
      that does not bind. */
  function RunConversions(outcomes: seq<ConvOutcome>, i: nat): ConvRun
    requires i <= |outcomes|
    decreases |outcomes| - i
  {
    if i == |outcomes| then AllBound
    else
      match outcomes[i]
      case Bound => RunConversions(outcomes, i + 1)
      case Raised(msg) => RaisedAt(i, msg)
      case Invalid(h) => StoppedEarly(i, h)
  }

  /** Conversions run in order: the run stops exactly at the first
      conversion that does not bind, and binds everything otherwise. */
  lemma {:induction false} RunStopsAtFirstFailure(outcomes: seq<ConvOutcome>, i: nat, stop: nat)
    requires i <= stop <= |outcomes|
    requires forall j :: i <= j < stop ==> outcomes[j].Bound?
    requires stop < |outcomes| ==> !outcomes[stop].Bound?
    ensures stop == |outcomes| ==> RunConversions(outcomes, i) == AllBound
    ensures stop < |outcomes| && outcomes[stop].Raised? ==>
              RunConversions(outcomes, i) == RaisedAt(stop, outcomes[stop].msg)
    ensures stop < |outcomes| && outcomes[stop].Invalid? ==>
              RunConversions(outcomes, i) == StoppedEarly(stop, outcomes[stop].handle)
    decreases stop - i
  {
    if i < stop {
      RunStopsAtFirstFailure(outcomes, i + 1, stop);
    }
  }

  /** A stop happens at a conversion whose outcome says so. */
  lemma {:induction false} RunStopsOnlyAtFailure(outcomes: seq<ConvOutcome>, i: nat)
    requires i <= |outcomes|
    ensures RunConversions(outcomes, i).StoppedEarly? ==>
              var r := RunConversions(outcomes, i);
              i <= r.at < |outcomes| && outcomes[r.at] == Invalid(r.handle)
    ensures RunConversions(outcomes, i).RaisedAt? ==>
              var r := RunConversions(outcomes, i);
              i <= r.at < |outcomes| && outcomes[r.at] == Raised(r.msg)
    decreases |outcomes| - i
  {
    if i < |outcomes| && outcomes[i].Bound? {
      RunStopsOnlyAtFailure(outcomes, i + 1);
    }
  }

  /** What the runtime outside the emitted code does on this call: whether
      the factory guard is set, whether `CallbackInfo::new` fails to build
      the frame (and with which error), whether
      `Reference::from_value_ptr` fails to recover the receiver as a
      `Reference<Parent>` argument, and whether converting the result
      back to a JS value (`to_napi_value`, `construct` or `factory`) fails. */
  datatype Runtime = Runtime(guardSet: bool, frameError: Option<string>, referenceError: Option<string>,
                             returnError: Option<string>)

  /** The value of the return expression: the handle (or the error `?`
      propagates), and the exception thrown in place by `throw_into`. */
  datatype Assembled = Assembled(value: Result<Handle, string>, thrown: Option<string>)

  /** The final conversion of a successful result: the handle, unless the
      conversion itself fails. */
  function Convert(h: Handle, returnError: Option<string>): Result<Handle, string> {
    match returnError
    case None => Ok(h)
    case Some(e) => Err(e)
  }

  /** The return expression evaluated with `_ret` bound to the native
      result, given the outcome of the result's conversion. Returning
      `this` involves no conversion. */
  function AssembleReturn(shape: RetShape, res: NativeResult, returnError: Option<string>): Assembled {
    match shape
    case Construct(_, _) =>
      if res.Failed? then Assembled(Err(res.msg), None)
      else Assembled(Convert(Instance(res.value), returnError), None)
    case FactoryCall(_, _) =>
      if res.Failed? then Assembled(Err(res.msg), None)
      else Assembled(Convert(Instance(res.value), returnError), None)
    case ConvertValue(_) =>
      if res.Failed? then Assembled(Err(res.msg), None)
      else Assembled(Convert(Converted(res.value), returnError), None)
    case MapThis =>
      if res.Failed? then Assembled(Err(res.msg), None) else Assembled(Ok(ThisHandle), None)
    case ThrowOnErr =>
      if res.Failed? then Assembled(Ok(NullHandle), Some(res.msg))
      else Assembled(Convert(Converted(res.value), returnError), None)
    case OkThis => Assembled(Ok(ThisHandle), None)
    case ConvertUnit => Assembled(Convert(UnitHandle, returnError), None)
  }

  /** The entry point's `unwrap_or_else`: an error is thrown and null is
      returned. */
  function Finish(r: Result<Handle, string>, thrown: Option<string>): Outcome {
    match r
    case Ok(h) => Outcome(h, thrown)
    case Err(msg) => Outcome(NullHandle, Some(msg))
  }

  /** The call: synchronous calls assemble the return in place; async
      calls return a promise that rejects with the native error or
      settles with the assembled value. */
  function CallOutcome(call: NativeCall, res: NativeResult, returnError: Option<string>): Outcome {
    match call
    case SyncCall(_, _, shape) =>
      var a := AssembleReturn(shape, res, returnError);
      Finish(a.value, a.thrown)
    case AsyncCall(_, _, _, shape) =>
      if res.Failed? then Outcome(Promise(Err(res.msg)), None)
      else Outcome(Promise(AssembleReturn(shape, res, returnError).value), None)
  }

  /** One call of the entry point: what JavaScript observes, how many
      conversions ran, and whether the native function was reached. */
  datatype Run = Run(outcome: Outcome, conversionsRun: nat, called: bool)

  /** An error raised while the call's arguments are evaluated: a
      synchronous call propagates it to `unwrap_or_else`, which throws it
      and returns null; an async call evaluates its arguments inside the
      future, whose promise rejects with it. */
  function Rejected(call: NativeCall, e: string): Outcome {
    if call.SyncCall? then Outcome(NullHandle, Some(e)) else Outcome(Promise(Err(e)), None)
  }

  /** Evaluating the call's arguments, then calling: a `Reference<Parent>`
      argument is recovered with `?` first, and when that fails the
      function is not called. `ran` conversions preceded the call. */
  function Invoke(call: NativeCall, rt: Runtime, res: NativeResult, ran: nat): Run {
    if rt.referenceError.Some? && ThisReference in call.args
    then Run(Rejected(call, rt.referenceError.value), ran, false)
    else Run(CallOutcome(call, res, rt.returnError), ran, true)
  }

  /** The entry point's body, given the runtime's behaviour, the outcome
      of each conversion and the native result. The factory guard is
      read before the frame is built; a frame that cannot be built
      throws its error. */
  function RunBody(body: FunctionCall, rt: Runtime, outcomes: seq<ConvOutcome>, res: NativeResult): Run
    requires body.FrameCall? ==> |outcomes| == |body.conversions|
  {
    match body
    case DirectCall(call) => Invoke(call, rt, res, 0)
    case FrameCall(guard, _, conversions, call) =>
      if guard && rt.guardSet then Run(Outcome(NullHandle, None), 0, false)
      else if rt.frameError.Some? then Run(Outcome(NullHandle, rt.frameError), 0, false)
      else
        match RunConversions(outcomes, 0)
        case AllBound => Invoke(call, rt, res, |conversions|)
        case StoppedEarly(at, h) => Run(Outcome(Early(h), None), at + 1, false)
        case RaisedAt(at, msg) => Run(Outcome(NullHandle, Some(msg)), at + 1, false)
  }

  /** The entry point generated for `f`. */
  function EntryBody(f: NapiFn): FunctionCall
    requires f.fnSelf != Some(Value)
  {
    FunctionCallOf(f, GenArgConversions(f))
  }

  /** The outcomes a frame needs: one per conversion for a frame call. */
  predicate FitsBody(body: FunctionCall, outcomes: seq<ConvOutcome>) {
    body.FrameCall? ==> Admissible(body.conversions, outcomes)
  }

  /** Some parameter is a `Reference<Parent>` to the receiver, passed as
      the recovered reference rather than converted from a slot. */
  predicate TakesThisReference(f: NapiFn) {
    exists k :: 0 <= k < |f.args| && ExpectedCallArg(f, k) == ThisReference
  }

  /** A `Reference<Parent>` parameter of a method is such a parameter: it
      is not the environment, so it is recovered rather than converted. */
  lemma ReferenceParameterTaken(f: NapiFn, k: nat)
    requires k < |f.args| && f.args[k].PatType? && IsParentReference(f.parent, f.args[k].ty)
    ensures TakesThisReference(f)
  {
    assert !IsEnvType(f.args[k].ty);
    assert ExpectedCallArg(f, k) == ThisReference;
  }

  /** The call passes a recovered reference exactly when some parameter
      asks for one. */
  lemma ThisReferencePassed(f: NapiFn)
    requires f.fnSelf != Some(Value)
    ensures ThisReference in EntryBody(f).call.args <==> TakesThisReference(f)
  {
    var args := EntryBody(f).call.args;
    assert args == GenArgConversions(f).callArgs;
    if ThisReference in args {
      var k :| 0 <= k < |args| && args[k] == ThisReference;
      assert ExpectedCallArg(f, k) == ThisReference;
    }
    if TakesThisReference(f) {
      var k :| 0 <= k < |f.args| && ExpectedCallArg(f, k) == ThisReference;
      assert args[k] == ThisReference;
    }
  }

  /** The receiver's reference, if the call passes one, is recovered. */
  predicate RecoversReference(f: NapiFn, rt: Runtime) {
    rt.referenceError.None? || !TakesThisReference(f)
  }

  /** The entry point gets as far as its conversions: the factory guard
      does not stop it and its frame is built. */
  predicate ReachesConversions(f: NapiFn, rt: Runtime) {
    !(f.kind.Constructor? && rt.guardSet) && rt.frameError.None?
  }

  // ---------------------------------------------------------------------
  // Behaviour of the generated entry points
  // ---------------------------------------------------------------------

  /** A constructor invoked on behalf of a class factory returns null at
      once: no frame is built, no conversion runs and the constructor body
      is not reached. */
  lemma ConstructorGuardSkipsAll(f: NapiFn, rt: Runtime, outcomes: seq<ConvOutcome>, res: NativeResult)
    requires f.fnSelf != Some(Value) && f.kind.Constructor? && rt.guardSet
    requires FitsBody(EntryBody(f), outcomes)
    ensures RunBody(EntryBody(f), rt, outcomes, res) == Run(Outcome(NullHandle, None), 0, false)
  {
  }

  /** A frame that cannot be built throws its error and returns null; no
      conversion runs and the function is not called. */
  lemma FrameErrorIsThrown(f: NapiFn, rt: Runtime, outcomes: seq<ConvOutcome>, res: NativeResult)
    requires f.fnSelf != Some(Value) && EntryBody(f).FrameCall?
    requires FitsBody(EntryBody(f), outcomes)
    requires !(f.kind.Constructor? && rt.guardSet) && rt.frameError.Some?
    ensures RunBody(EntryBody(f), rt, outcomes, res) == Run(Outcome(NullHandle, rt.frameError), 0, false)
  {
  }

  /** A strict validation mismatch at conversion `i`, after all earlier
      conversions bound, returns the validation's handle without an
      exception; the later conversions and the call do not run. */
  lemma ValidationMismatchReturnsEarly(f: NapiFn, rt: Runtime, outcomes: seq<ConvOutcome>, res: NativeResult, i: nat)
    requires f.fnSelf != Some(Value)
    requires FitsBody(EntryBody(f), outcomes) && EntryBody(f).FrameCall?
    requires ReachesConversions(f, rt)
    requires i < |outcomes| && outcomes[i].Invalid?
    requires forall j :: 0 <= j < i ==> outcomes[j].Bound?
    ensures RunBody(EntryBody(f), rt, outcomes, res)
            == Run(Outcome(Early(outcomes[i].handle), None), i + 1, false)
  {
    RunStopsAtFirstFailure(outcomes, 0, i);
  }

  /** Without strict mode nothing validates, so no call returns early:
      either every conversion binds and the function is called, or an
      error is thrown. */
  lemma NonStrictNeverReturnsEarly(f: NapiFn, rt: Runtime, outcomes: seq<ConvOutcome>, res: NativeResult)
    requires f.fnSelf != Some(Value) && !f.strict
    requires FitsBody(EntryBody(f), outcomes)
    ensures !RunBody(EntryBody(f), rt, outcomes, res).outcome.returned.Early?
  {
    var body := EntryBody(f);
    if body.FrameCall? && !(body.factoryGuard && rt.guardSet) && rt.frameError.None? {
      RunStopsOnlyAtFailure(outcomes, 0);
      var run := RunConversions(outcomes, 0);
      if run.StoppedEarly? {
        ValidationFollowsStrict(f, run.at);
        assert false;
      }
    }
  }

  /** A synchronous fallible function with a return type: whatever return
      shape is chosen, a native error becomes a pending JS exception and
      the entry point returns null, whatever the result's conversion
      would have done. */
  lemma SyncErrorIsThrown(f: NapiFn, rt: Runtime, outcomes: seq<ConvOutcome>, msg: string)
    requires f.fnSelf != Some(Value) && !f.isAsync && f.isRetResult && f.ret.Some?
    requires FitsBody(EntryBody(f), outcomes) && forall j :: 0 <= j < |outcomes| ==> outcomes[j].Bound?
    requires ReachesConversions(f, rt)
    requires RecoversReference(f, rt)
    ensures RunBody(EntryBody(f), rt, outcomes, Failed(msg)).outcome == Outcome(NullHandle, Some(msg))
    ensures RunBody(EntryBody(f), rt, outcomes, Failed(msg)).called
  {
    ThisReferencePassed(f);
    RunStopsAtFirstFailure(outcomes, 0, |outcomes|);
  }

  /** An async fallible function hands its native error to the returned
      promise, which rejects with it; nothing is thrown synchronously. */
  lemma AsyncErrorRejects(f: NapiFn, rt: Runtime, outcomes: seq<ConvOutcome>, msg: string)
    requires f.fnSelf != Some(Value) && f.isAsync && f.isRetResult
    requires FitsBody(EntryBody(f), outcomes) && forall j :: 0 <= j < |outcomes| ==> outcomes[j].Bound?
    requires ReachesConversions(f, rt)
    requires RecoversReference(f, rt)
    ensures RunBody(EntryBody(f), rt, outcomes, Failed(msg)).outcome == Outcome(Promise(Err(msg)), None)
  {
    ThisReferencePassed(f);
    RunStopsAtFirstFailure(outcomes, 0, |outcomes|);
  }

  /** A synchronous method returning `&Self` or `&mut Self` hands back
      `this` when it succeeds; no conversion of the result is involved, so
      the conversion outcome does not matter. */
  lemma SelfReturnGivesThis(f: NapiFn, rt: Runtime, outcomes: seq<ConvOutcome>, v: int)
    requires f.fnSelf != Some(Value) && !f.isAsync && f.kind.Normal?
    requires f.ret.Some? && IsReturnSelf(f.ret.value)
    requires FitsBody(EntryBody(f), outcomes) && forall j :: 0 <= j < |outcomes| ==> outcomes[j].Bound?
    requires rt.frameError.None?
    requires RecoversReference(f, rt)
    ensures RunBody(EntryBody(f), rt, outcomes, Returned(v)).outcome == Outcome(ThisHandle, None)
  {
    ThisReferencePassed(f);
    RunStopsAtFirstFailure(outcomes, 0, |outcomes|);
  }

  /** A synchronous call whose frame is built, whose conversions all bind,
      whose native function succeeds and whose result converts never
      leaves an exception pending. */
  lemma SuccessNeverThrows(f: NapiFn, rt: Runtime, outcomes: seq<ConvOutcome>, v: int)
    requires f.fnSelf != Some(Value) && !f.isAsync
    requires FitsBody(EntryBody(f), outcomes) && forall j :: 0 <= j < |outcomes| ==> outcomes[j].Bound?
    requires rt.frameError.None? && rt.returnError.None?
    requires RecoversReference(f, rt)
    ensures RunBody(EntryBody(f), rt, outcomes, Returned(v)).outcome.thrown.None?
  {
    ThisReferencePassed(f);
    RunStopsAtFirstFailure(outcomes, 0, |outcomes|);
  }

  /** A synchronous call that reaches its function and succeeds, but whose
      result fails to convert (`to_napi_value`, `construct` or `factory`),
      throws the conversion's error and returns null; only a method
      returning `this` is immune. */
  lemma ReturnConversionErrorIsThrown(f: NapiFn, rt: Runtime, outcomes: seq<ConvOutcome>, v: int)
    requires f.fnSelf != Some(Value) && !f.isAsync
    requires FitsBody(EntryBody(f), outcomes) && forall j :: 0 <= j < |outcomes| ==> outcomes[j].Bound?
    requires ReachesConversions(f, rt) && rt.returnError.Some?
    requires RecoversReference(f, rt)
    ensures var o := RunBody(EntryBody(f), rt, outcomes, Returned(v)).outcome;
            if f.kind.Normal? && f.ret.Some? && IsReturnSelf(f.ret.value)
            then o == Outcome(ThisHandle, None)
            else o == Outcome(NullHandle, rt.returnError)
  {
    ThisReferencePassed(f);
    RunStopsAtFirstFailure(outcomes, 0, |outcomes|);
  }

  /** A conversion error stops the run at that conversion: its error is
      thrown, null is returned, and the function is not called. */
  lemma ConversionErrorIsThrown(f: NapiFn, rt: Runtime, outcomes: seq<ConvOutcome>, res: NativeResult, i: nat)
    requires f.fnSelf != Some(Value)
    requires FitsBody(EntryBody(f), outcomes) && EntryBody(f).FrameCall?
    requires ReachesConversions(f, rt)
    requires i < |outcomes| && outcomes[i].Raised?
    requires forall j :: 0 <= j < i ==> outcomes[j].Bound?
    ensures RunBody(EntryBody(f), rt, outcomes, res)
            == Run(Outcome(NullHandle, Some(outcomes[i].msg)), i + 1, false)
  {
    RunStopsAtFirstFailure(outcomes, 0, i);
  }

  /** A `Reference<Parent>` argument that cannot be recovered stops the
      call after every conversion bound: a synchronous call throws the
      error and returns null, an async one returns a promise rejecting
      with it, and the function is not called either way. */
  lemma ReferenceErrorIsThrown(f: NapiFn, rt: Runtime, outcomes: seq<ConvOutcome>, res: NativeResult)
    requires f.fnSelf != Some(Value)
    requires FitsBody(EntryBody(f), outcomes) && forall j :: 0 <= j < |outcomes| ==> outcomes[j].Bound?
    requires ReachesConversions(f, rt)
    requires TakesThisReference(f) && rt.referenceError.Some?
    ensures var run := RunBody(EntryBody(f), rt, outcomes, res);
            && !run.called
            && run.outcome == (if f.isAsync then Outcome(Promise(Err(rt.referenceError.value)), None)
                               else Outcome(NullHandle, rt.referenceError))
  {
    ThisReferencePassed(f);
    RunStopsAtFirstFailure(outcomes, 0, |outcomes|);
  }
}

=== FILE: fn_ir.dfy ===
/** The descriptor of one `#[napi]` function and the abstract form of the
    code generated for it (crates/backend/src/codegen/fn.rs). Rust types
    keep just the structure the generator inspects; emitted code is a tree
    of the statements, call arguments and items the generator chooses
    between, not tokens. */
module FnIr {
  import opened Wrappers
  import opened Strings

  // ---------------------------------------------------------------------
  // Rust types, as far as the generator looks into them
  // ---------------------------------------------------------------------

  /** A `syn::Type`: a path such as `Reference<Parent>`, a reference
      `&'a mut T`, or any other form kept as its token list. */
  datatype Ty =
    | TPath(leadingColon: bool, segments: seq<PathSegment>)
    | TRef(lifetime: Option<string>, mutable: bool, elem: Ty)
    | TOther(tokens: seq<string>)

  /** One path segment with its generic arguments. */
  datatype PathSegment = PathSegment(ident: string, arguments: PathArguments)

  datatype PathArguments =
    | NoArguments
    | AngleBracketed(args: seq<GenericArgument>)
    | Parenthesized(inputs: seq<Ty>, output: Option<Ty>)

  datatype GenericArgument = TypeArg(ty: Ty) | LifetimeArg(name: string)

  /** A single-segment path type without generic arguments, such as `Self`. */
  function SimplePath(ident: string): Ty {
    TPath(false, [PathSegment(ident, NoArguments)])
  }

  /** The tokens of a type as `TokenStream::to_string` separates them. */
  function Tokens(ty: Ty): seq<string>
    decreases ty, 2
  {
    match ty
    case TPath(leadingColon, segments) =>
      (if leadingColon then ["::"] else []) + SegmentsTokens(ty, segments)
    case TRef(lifetime, mutable, elem) =>
      ["&"] + (if lifetime.Some? then ["'" + lifetime.value] else [])
      + (if mutable then ["mut"] else []) + Tokens(elem)
    case TOther(tokens) => tokens
  }

  function SegmentsTokens(ty: Ty, segments: seq<PathSegment>): seq<string>
    requires forall i :: 0 <= i < |segments| ==> segments[i] < ty
    decreases ty, 1, |segments|
  {
    if |segments| == 0 then []
    else
      var first := SegmentTokens(ty, segments[0]);
      if |segments| == 1 then first
      else first + ["::"] + SegmentsTokens(ty, segments[1..])
  }

  function SegmentTokens(ty: Ty, segment: PathSegment): seq<string>
    requires segment < ty
    decreases ty, 0
  {
    [segment.ident] + match segment.arguments
      case NoArguments => []
      case AngleBracketed(args) => ["<"] + GenericArgsTokens(ty, args) + [">"]
      case Parenthesized(inputs, output) =>
        ["("] + TysTokens(ty, inputs) + [")"]
        + (if output.Some? then ["->"] + Tokens(output.value) else [])
  }

  function GenericArgsTokens(ty: Ty, args: seq<GenericArgument>): seq<string>
    requires forall i :: 0 <= i < |args| ==> args[i] < ty
    decreases ty, 0, |args|
  {
    if |args| == 0 then []
    else
      var first := match args[0]
        case TypeArg(t) => Tokens(t)
        case LifetimeArg(name) => ["'" + name];
      if |args| == 1 then first else first + [","] + GenericArgsTokens(ty, args[1..])
  }

  function TysTokens(ty: Ty, tys: seq<Ty>): seq<string>
    requires forall i :: 0 <= i < |tys| ==> tys[i] < ty
    decreases ty, 0, |tys|
  {
    if |tys| == 0 then []
    else if |tys| == 1 then Tokens(tys[0])
    else Tokens(tys[0]) + [","] + TysTokens(ty, tys[1..])
  }

  /** `ty.to_token_stream().to_string()`: the tokens separated by spaces. */
  function TypeString(ty: Ty): string {
    JoinWith(Tokens(ty), " ")
  }

  /** The path of a `Reference<...>`-style type: its first segment. */
  function FirstSegment(ty: Ty): Option<PathSegment> {
    if ty.TPath? && |ty.segments| > 0 then Some(ty.segments[0]) else None
  }

  // ---------------------------------------------------------------------
  // The descriptor
  // ---------------------------------------------------------------------

  datatype FnKind = Normal | Constructor | Factory

  datatype FnSelf = Value | Ref | MutRef

  /** A closure parameter: its argument types, its converted return type,
      the raw return type used in the synthesised trait, and whether it is
      used directly (`pure_fn`) or wrapped in `Function<T>`. */
  datatype CallbackArg = CallbackArg(
    pureFn: bool,
    args: seq<Ty>,
    ret: Option<Ty>,
    rawRet: Option<Ty>,
    genericName: string)

  datatype NapiFnArg = PatType(ty: Ty) | Callback(cb: CallbackArg)

  datatype NapiFn = NapiFn(
    name: string,
    jsName: string,
    jsMod: Option<string>,
    kind: FnKind,
    fnSelf: Option<FnSelf>,
    parent: Option<string>,
    args: seq<NapiFnArg>,
    ret: Option<Ty>,
    isRetResult: bool,
    isAsync: bool,
    strict: bool,
    attrs: seq<string>)

  // ---------------------------------------------------------------------
  // The emitted code
  // ---------------------------------------------------------------------

  /** Identifiers the generator derives from the function name; the
      derivations live outside this file, so they stay symbolic. */
  datatype Ident =
    | Plain(text: string)
    | IntermediateOf(fnName: string)
    | RegisterOf(fnName: string)

  /** The closure handed to a callback parameter: it converts each input
      outward, calls the JS function found in frame slot `slot`, and
      converts the result back (or yields unit). */
  datatype Trampoline = Trampoline(slot: nat, inputs: seq<Ty>, ret: Option<Ty>)

  /** A statement that binds `arg<slot>` (or `this`) before the call. */
  datatype Conversion =
    | RecoverThis(parent: string, mutable: bool)
    | FromMutRef(slot: nat, elem: Ty)
    | FromRef(slot: nat, elem: Ty)
    | FromValue(slot: nat, ty: Ty, validate: bool)
    | FromCallback(slot: nat, closure: Trampoline, wrapped: bool)

  /** An argument of the underlying call. */
  datatype CallArg =
    | EnvArg
    | ThisReference
    | Local(slot: nat)

  /** `trait FunctionCall<i> { fn call(&self, args...) -> ret; }` */
  datatype TraitDef = TraitDef(name: string, params: seq<Ty>, ret: Option<Ty>)

  /** `impl<T: Fn(args...) -> ret> FunctionCall<i> for Function<T>`,
      forwarding every argument to the wrapped closure. */
  datatype TraitImpl = TraitImpl(traitName: string, genericName: string, params: seq<Ty>, ret: Option<Ty>)

  /** What the underlying function is called through. */
  datatype Receiver =
    | ThisMethod(name: string)
    | ClassPath(owner: string, name: string)
    | Bare(name: string)

  /** How the value `_ret` of the call becomes the JS result. */
  datatype RetShape =
    | Construct(jsName: string, unwrap: bool)
    | FactoryCall(jsName: string, unwrap: bool)
    | ConvertValue(ty: Ty)
    | MapThis
    | ThrowOnErr
    | OkThis
    | ConvertUnit

  /** The call and its return assembly; an async call is run on the
      executor, wrapped in `Ok` when the function itself is infallible. */
  datatype NativeCall =
    | SyncCall(receiver: Receiver, args: seq<CallArg>, ret: RetShape)
    | AsyncCall(receiver: Receiver, args: seq<CallArg>, wrapOk: bool, ret: RetShape)

  /** The body of the entry point: the call alone, or the conversions run
      inside `CallbackInfo::<argsLen>::new(..).and_then(..)`, behind the
      factory guard for constructors. */
  datatype FunctionCall =
    | DirectCall(call: NativeCall)
    | FrameCall(factoryGuard: bool, argsLen: nat, conversions: seq<Conversion>, call: NativeCall)

  /** The `extern "C"` entry point. */
  datatype EntryPoint = EntryPoint(ident: Ident, attrs: seq<string>, body: FunctionCall)

  /** The module-load registration of a free function. */
  datatype Registration =
    | NoRegistration
    | Register(cbName: string, jsName: string, nameLen: nat, registerIdent: Ident,
               intermediate: Ident, jsMod: Option<string>)

  /** A statement of the annotated function's own body, or an item the
      generator puts in front of them. */
  datatype Stmt =
    | Original(index: nat)
    | TraitDefItem(def: TraitDef)
    | TraitImplItem(impl: TraitImpl)

  /** The annotated item as `syn::parse2::<syn::Item>` sees it. */
  datatype Item =
    | FnItem(stmts: seq<Stmt>)
    | OtherItem
    | Unparseable

  /** The generated output: the (possibly rewritten) item, the entry
      point and the registration. */
  datatype Emitted = Emitted(item: Item, entry: EntryPoint, register: Registration)
}

=== FILE: new_project.dfy ===
/** `napi new`: how the project settings are settled from the flags, the
    `--yes` preset or the answers to the prompts, and which files are
    written with which template values (crates/cli/src/new.rs). Directory
    creation and the prompts are inputs; templates are not rendered, the
    values handed to them are. */
module NewProject {
  import opened Wrappers
  import opened Strings
  import opened Paths
  import opened Targets
  import opened TargetSnapshot

  // ---------------------------------------------------------------------
  // npm package names
  // ---------------------------------------------------------------------

  /** Number of leading `c` characters of `s`. */
  function LeadingCount(s: string, c: char): (n: nat)
    ensures n <= |s|
    ensures forall i :: 0 <= i < n ==> s[i] == c
    ensures n < |s| ==> s[n] != c
  {
    if |s| > 0 && s[0] == c then 1 + LeadingCount(s[1..], c) else 0
  }

  /** `package_name_to_crate_name`: the leading `@`s of a scoped name go
      and every `/` becomes `-`, so `@scope/pkg` gives `scope-pkg`. */
  function PackageNameToCrateName(name: string): (r: string)
    ensures '/' !in r
    ensures |r| > 0 ==> r[0] != '@'
    ensures |r| == |name| - LeadingCount(name, '@')
    ensures forall i :: 0 <= i < |r| ==>
              var ch := name[LeadingCount(name, '@') + i];
              r[i] == (if ch == '/' then '-' else ch)
  {
    var trimmed := TrimStartMatches(name, '@');
    TrimmedIsDropOfLeading(name, '@');
    var r := ReplaceChar(trimmed, '/', '-');
    assert forall i :: 0 <= i < |r| ==> r[i] != '/';
    r
  }

  /** `TrimStartMatches` drops exactly the leading run. */
  lemma {:induction false} TrimmedIsDropOfLeading(s: string, c: char)
    ensures TrimStartMatches(s, c) == s[LeadingCount(s, c)..]
  {
    if |s| > 0 && s[0] == c {
      TrimmedIsDropOfLeading(s[1..], c);
      assert s[1..][LeadingCount(s[1..], c)..] == s[LeadingCount(s, c)..];
    }
  }

  /** A scoped package `@scope/pkg` (scope and package free of `/`, scope
      not starting with `@`) becomes the crate `scope-pkg`. */
  lemma ScopedCrateName(scope: string, pkg: string)
    requires '/' !in scope && '/' !in pkg
    requires |scope| > 0 && scope[0] != '@'
    ensures PackageNameToCrateName("@" + scope + "/" + pkg) == scope + "-" + pkg
  {
    var name := "@" + scope + "/" + pkg;
    assert LeadingCount(name, '@') == 1 by {
      assert name[1..] == scope + "/" + pkg;
      assert LeadingCount(name[1..], '@') == 0;
    }
    var r := PackageNameToCrateName(name);
    assert DashedFrom(name, 1, r);
    DashedScoped(scope, pkg, r);
  }

  /** Past the `@`, the dashed scoped name is `scope-pkg`. */
  lemma DashedScoped(scope: string, pkg: string, r: string)
    requires '/' !in scope && '/' !in pkg
    requires DashedFrom("@" + scope + "/" + pkg, 1, r)
    ensures r == scope + "-" + pkg
  {
    var name := "@" + scope + "/" + pkg;
    var want := scope + "-" + pkg;
    forall i | 0 <= i < |r|
      ensures r[i] == want[i]
    {
      if i < |scope| {
        assert name[1 + i] == scope[i];
        assert scope[i] in scope;
      } else if i == |scope| {
        assert name[1 + i] == '/';
      } else {
        assert name[1 + i] == pkg[i - |scope| - 1];
        assert pkg[i - |scope| - 1] in pkg;
      }
    }
  }

  /** `package_name_to_binary_name`: the part after the last `/`. */
  function PackageNameToBinaryName(name: string): (r: string)
    ensures '/' !in r
    ensures EndsWith(name, r)
    ensures r == name || name[|name| - |r| - 1] == '/'
    ensures '/' !in name ==> r == name
  {
    LastPartIsMaximalSuffix(name, '/');
    LastPart(name, '/')
  }

  lemma SuffixIndex(s: string, t: string, i: nat)
    requires EndsWith(s, t) && i < |t|
    ensures s[|s| - |t| + i] == t[i]
  {
    assert s[|s| - |t|..][i] == t[i];
  }

  /** `c` is `name` from index `l` on, with each `/` turned into `-`. */
  predicate DashedFrom(name: string, l: nat, c: string) {
    && l + |c| == |name|
    && forall i :: 0 <= i < |c| ==>
         c[i] == (if name[l + i] == '/' then '-' else name[l + i])
  }

  /** A character other than `/` at or past `l` keeps its place in the
      dashed text, counted from the end. */
  lemma DashedKeepsSuffixChar(name: string, l: nat, c: string, n: nat, i: nat)
    requires DashedFrom(name, l, c)
    requires i < n && l + n <= |name| && name[|name| - n + i] != '/'
    ensures n <= |c| && c[|c| - n + i] == name[|name| - n + i]
  {
    var p := |c| - n + i;
    assert l + p == |name| - n + i;
    assert c[p] == (if name[l + p] == '/' then '-' else name[l + p]);
  }

  /** A `/`-free suffix lying at or past `l` ends the dashed text
      unchanged. The suffix is given character by character. */
  lemma DashedKeepsSuffix(name: string, l: nat, c: string, b: string)
    requires DashedFrom(name, l, c)
    requires l + |b| <= |name| && forall i :: 0 <= i < |b| ==> name[|name| - |b| + i] == b[i]
    requires '/' !in b
    ensures EndsWith(c, b)
  {
    forall i | 0 <= i < |b|
      ensures c[|c| - |b| + i] == b[i]
    {
      assert b[i] != '/' by { assert b[i] in b; }
      DashedKeepsSuffixChar(name, l, c, |b|, i);
    }
    EndsWithByIndex(c, b);
  }

  /** For a name with a `/`, the binary name follows a `/` that lies past
      the leading `@`s. */
  lemma BinaryNameFollowsSlash(name: string)
    requires '/' in name
    ensures var b := PackageNameToBinaryName(name);
            |b| < |name| && LeadingCount(name, '@') <= |name| - |b| - 1
  {
    var b := PackageNameToBinaryName(name);
    assert b != name;
    var j := |name| - |b| - 1;
    assert name[j] == '/';
    assert name[j] != '@';
  }

  /** For a name with a `/`, the crate name ends with the binary name: the
      two names agree on the package part of a scoped name. */
  lemma CrateNameEndsWithBinaryName(name: string)
    requires '/' in name
    ensures EndsWith(PackageNameToCrateName(name), PackageNameToBinaryName(name))
  {
    var b := PackageNameToBinaryName(name);
    var c := PackageNameToCrateName(name);
    BinaryNameFollowsSlash(name);
    forall i | 0 <= i < |b|
      ensures name[|name| - |b| + i] == b[i]
    {
      SuffixIndex(name, b, i);
    }
    assert DashedFrom(name, LeadingCount(name, '@'), c);
    DashedKeepsSuffix(name, LeadingCount(name, '@'), c, b);
  }

  // ---------------------------------------------------------------------
  // Settling the project settings
  // ---------------------------------------------------------------------

  /** `NewCommand`, the parsed command line. */
  datatype NewArgs = NewArgs(
    path: string,
    name: Option<string>,
    minNodeApi: nat,
    license: string,
    targets: Option<seq<string>>,
    enableDefaultTargets: bool,
    enableAllTargets: bool,
    enableTypeDef: bool,
    enableGithubActions: bool,
    yes: bool)

  /** What the user answers at each prompt: the package name, the license,
      the index picked among the eight node-api versions, the successive
      target multi-selections (indices into the offered triples), and the
      indices picked for the two yes/no questions (0 is "Yes"). */
  datatype Answers = Answers(
    name: string,
    license: string,
    napiVersionIndex: nat,
    targetSelections: seq<seq<nat>>,
    typeDefIndex: nat,
    githubActionsIndex: nat)

  /** The settled project. */
  datatype Project = Project(
    path: string,
    name: string,
    minNodeApi: nat,
    license: string,
    targets: seq<string>,
    typeDef: bool,
    githubActions: bool)

  /** The check marks the target prompt starts with: an offered triple is
      pre-selected iff it is a default one. */
  function PromptDefaults(): (r: seq<bool>)
    ensures |r| == |AvailableTargets|
    ensures forall i :: 0 <= i < |r| ==> (r[i] <==> AvailableTargets[i] in DefaultTargets)
  {
    seq(|AvailableTargets|, i requires 0 <= i < |AvailableTargets| => AvailableTargets[i] in DefaultTargets)
  }

  /** The default triples are the offered ones at positions 5 to 7, so the
      prompt pre-selects exactly those three positions. */
  lemma PromptPreselectsDefaults()
    ensures DefaultTargets == AvailableTargets[5..8]
    ensures forall i :: 0 <= i < |AvailableTargets| ==> (PromptDefaults()[i] <==> 5 <= i < 8)
  {
    assert DefaultTargets == AvailableTargets[5..8];
    forall i | 0 <= i < |AvailableTargets|
      ensures PromptDefaults()[i] <==> 5 <= i < 8
    {
      if !(5 <= i < 8) {
        assert AvailableTargets[i] != AvailableTargets[5];
        assert AvailableTargets[i] != AvailableTargets[6];
        assert AvailableTargets[i] != AvailableTargets[7];
      }
    }
  }

  /** Every selection picks offered triples. */
  predicate SelectionsInRange(selections: seq<seq<nat>>) {
    forall k, i :: 0 <= k < |selections| && 0 <= i < |selections[k]| ==> selections[k][i] < |AvailableTargets|
  }

  /** The user eventually selects something. */
  predicate SomeSelection(selections: seq<seq<nat>>) {
    exists k :: 0 <= k < |selections| && |selections[k]| > 0
  }

  /** `fetch_targets`: the default triples with `--enable-default-targets`,
      otherwise every offered triple with `--enable-all-targets`, otherwise
      the first non-empty multi-selection, in selection order. */
  method FetchTargets(enableDefault: bool, enableAll: bool, selections: seq<seq<nat>>)
    returns (targets: seq<string>)
    requires SelectionsInRange(selections)
    requires !enableDefault && !enableAll ==> SomeSelection(selections)
    ensures enableDefault ==> targets == DefaultTargets
    ensures !enableDefault && enableAll ==> targets == AvailableTargets
    ensures !enableDefault && !enableAll ==> FromFirstSelection(targets, selections)
    ensures forall i :: 0 <= i < |targets| ==> targets[i] in AvailableTargets
  {
    if enableDefault {
      PromptPreselectsDefaults();
      return DefaultTargets;
    }
    if enableAll {
      return AvailableTargets;
    }
    var k := 0;
    while |selections[k]| == 0
      invariant 0 <= k < |selections|
      invariant forall j :: 0 <= j < k ==> |selections[j]| == 0
      invariant exists m :: k <= m < |selections| && |selections[m]| > 0
      decreases |selections| - k
    {
      k := k + 1;
    }
    var first := FirstNonEmpty(selections);
    assert first == Some(k);
    var picked := selections[k];
    targets := [];
    var i := 0;
    while i < |picked|
      invariant 0 <= i <= |picked|
      invariant |targets| == i
      invariant forall n :: 0 <= n < i ==> targets[n] == AvailableTargets[picked[n]]
    {
      targets := targets + [AvailableTargets[picked[i]]];
      i := i + 1;
    }
  }

  /** The yes/no prompts: a set flag wins, otherwise "Yes" (index 0). */
  function FlagOrYes(flag: bool, answer: nat): (r: bool)
    ensures r <==> flag || answer == 0
  {
    flag || answer == 0
  }

  /** `fetch_napi_version`: the picked index among `napi1` … `napi8`,
      plus one. */
  function NapiVersionOfIndex(index: nat): (v: nat)
    requires index < 8
    ensures 1 <= v <= 8
    ensures index == v - 1
  {
    index + 1
  }

  /** The position of the first non-empty selection, if any. */
  function FirstNonEmpty(selections: seq<seq<nat>>): (k: Option<nat>)
    ensures k.None? <==> forall j :: 0 <= j < |selections| ==> |selections[j]| == 0
    ensures k.Some? ==> k.value < |selections| && |selections[k.value]| > 0
                        && forall j :: 0 <= j < k.value ==> |selections[j]| == 0
  {
    if |selections| == 0 then None
    else if |selections[0]| > 0 then Some(0)
    else match FirstNonEmpty(selections[1..]) {
      case None => None
      case Some(k) => Some(k + 1)
    }
  }

  /** The targets read off the first non-empty selection, in its order. */
  predicate FromFirstSelection(targets: seq<string>, selections: seq<seq<nat>>) {
    && FirstNonEmpty(selections).Some?
    && var picked := selections[FirstNonEmpty(selections).value];
       && |targets| == |picked|
       && forall i :: 0 <= i < |targets| ==> picked[i] < |AvailableTargets| && targets[i] == AvailableTargets[picked[i]]
  }

  /** How `execute` settles the project before `write_files`: with `--yes`
      the name is the last component of the path, the targets the
      defaults, and both features are on, while the license and node-api
      version keep their flag values; otherwise the name flag wins over the
      prompt, and license, version, targets and features come from the
      prompts. */
  predicate SettledFrom(args: NewArgs, answers: Answers, p: Project)
    requires |Components(args.path)| > 0
  {
    && p.path == args.path
    && (args.yes ==>
          && p.name == LastComponent(args.path)
          && p.targets == DefaultTargets
          && p.typeDef && p.githubActions
          && p.license == args.license && p.minNodeApi == args.minNodeApi)
    && (!args.yes ==>
          && p.name == args.name.UnwrapOr(answers.name)
          && p.license == answers.license
          && p.minNodeApi == answers.napiVersionIndex + 1
          && (p.typeDef <==> args.enableTypeDef || answers.typeDefIndex == 0)
          && (p.githubActions <==> args.enableGithubActions || answers.githubActionsIndex == 0)
          && (args.enableDefaultTargets ==> p.targets == DefaultTargets)
          && (!args.enableDefaultTargets && args.enableAllTargets ==> p.targets == AvailableTargets)
          && (!args.enableDefaultTargets && !args.enableAllTargets ==>
                FromFirstSelection(p.targets, answers.targetSelections)))
  }

  /** `execute` up to `write_files`. */
  method Settle(args: NewArgs, answers: Answers) returns (p: Project)
    requires |Components(args.path)| > 0
    requires answers.napiVersionIndex < 8
    requires SelectionsInRange(answers.targetSelections)
    requires !args.yes && !args.enableDefaultTargets && !args.enableAllTargets ==>
               SomeSelection(answers.targetSelections)
    ensures SettledFrom(args, answers, p)
    ensures forall i :: 0 <= i < |p.targets| ==> p.targets[i] in AvailableTargets
  {
    var defaultName := LastComponent(args.path);
    if args.yes {
      PromptPreselectsDefaults();
      p := Project(args.path, defaultName, args.minNodeApi, args.license, DefaultTargets, true, true);
    } else {
      var targets := FetchTargets(args.enableDefaultTargets, args.enableAllTargets, answers.targetSelections);
      p := Project(
        args.path,
        args.name.UnwrapOr(answers.name),
        NapiVersionOfIndex(answers.napiVersionIndex),
        answers.license,
        targets,
        FlagOrYes(args.enableTypeDef, answers.typeDefIndex),
        FlagOrYes(args.enableGithubActions, answers.githubActionsIndex));
    }
  }

  /** The settled project is determined by the command line and the
      answers, and the `--targets` flag plays no part in it: two command
      lines that differ only in that flag settle to the same project. */
  lemma TargetsFlagIgnored(args: NewArgs, answers: Answers, other: Option<seq<string>>, p: Project, q: Project)
    requires |Components(args.path)| > 0
    requires SettledFrom(args, answers, p)
    requires SettledFrom(args.(targets := other), answers, q)
    ensures p == q
  {
    if !args.yes && !args.enableDefaultTargets && !args.enableAllTargets {
      SameFirstSelection(p.targets, q.targets, answers.targetSelections);
    }
  }

  /** Two lists read off the same first non-empty selection are equal. */
  lemma SameFirstSelection(a: seq<string>, b: seq<string>, selections: seq<seq<nat>>)
    requires FromFirstSelection(a, selections) && FromFirstSelection(b, selections)
    ensures a == b
  {
    var picked := selections[FirstNonEmpty(selections).value];
    assert forall i :: 0 <= i < |a| ==> a[i] == AvailableTargets[picked[i]] == b[i];
  }

  // ---------------------------------------------------------------------
  // The files written
  // ---------------------------------------------------------------------

  /** Values the `Cargo.toml` template is rendered with. */
  datatype CargoToml = CargoToml(
    name: string, license: string,
    napiVersion: nat, napiDeriveVersion: nat, napiBuildVersion: nat,
    features: seq<string>, deriveFeatures: seq<string>)

  /** `write_cargo_toml`: the crate name, the `napi<N>` feature for the
      minimum node-api version, and `type-def` for the derive crate when
      type definitions are on. */
  function CargoTomlOf(p: Project): (c: CargoToml)
    ensures c.name == PackageNameToCrateName(p.name) && c.license == p.license
    ensures |c.features| == 1 && StartsWith(c.features[0], "napi")
    ensures c.deriveFeatures == [] || c.deriveFeatures == ["type-def"]
    ensures "type-def" in c.deriveFeatures <==> p.typeDef
    ensures (c.napiVersion, c.napiDeriveVersion, c.napiBuildVersion) == (2, 2, 1)
  {
    CargoToml(
      PackageNameToCrateName(p.name), p.license, 2, 2, 1,
      ["napi" + NatToString(p.minNodeApi)],
      if p.typeDef then ["type-def"] else [])
  }

  /** The napi feature names the project's version exactly: its digits
      read back to the version. */
  lemma NapiFeatureNamesVersion(p: Project)
    ensures var f := CargoTomlOf(p).features[0];
            |f| > 4 && AllDigits(f[4..]) && ParseNat(f[4..]) == p.minNodeApi
  {
    var f := CargoTomlOf(p).features[0];
    assert f[4..] == NatToString(p.minNodeApi);
    ParseNatToString(p.minNodeApi);
  }

  /** Values the `package.json` template is rendered with; the engine
      requirement is derived from `nodeApi` outside this model. */
  datatype PackageJson = PackageJson(name: string, binaryName: string, targets: seq<string>, license: string, nodeApi: nat)

  function PackageJsonOf(p: Project): (j: PackageJson)
    ensures j.name == p.name && j.targets == p.targets && j.license == p.license
    ensures j.binaryName == PackageNameToBinaryName(p.name)
  {
    PackageJson(p.name, PackageNameToBinaryName(p.name), p.targets, p.license, p.minNodeApi)
  }

  /** The two manifests agree: for a scoped package name, the crate named
      in `Cargo.toml` ends with the binary name `package.json` declares,
      and both are rendered from the same project. */
  lemma ManifestsAgree(p: Project)
    requires '/' in p.name
    ensures EndsWith(CargoTomlOf(p).name, PackageJsonOf(p).binaryName)
    ensures PackageJsonOf(p).license == CargoTomlOf(p).license
  {
    CrateNameEndsWithBinaryName(p.name);
  }

  /** Values the workflow template is rendered with: per target its
      parsed form and its CI settings. */
  datatype Workflow = Workflow(binaryName: string, targets: seq<(Target, WorkflowConfig)>)

  /** `write_github_workflow`'s values, for offered triples. */
  function WorkflowOf(p: Project): (w: Workflow)
    requires forall i :: 0 <= i < |p.targets| ==> p.targets[i] in AvailableTargets
    ensures w.binaryName == PackageNameToBinaryName(p.name)
    ensures |w.targets| == |p.targets|
    ensures forall i :: 0 <= i < |p.targets| ==>
              ValidTriple(p.targets[i])
              && w.targets[i].0 == NewTarget(p.targets[i])
              && w.targets[i].0.triple == p.targets[i]
              && w.targets[i].1 == GetWorkflowConfig(p.targets[i])
  {
    forall i | 0 <= i < |p.targets|
      ensures ValidTriple(p.targets[i])
    {
      OfferedTargetsValid(p.targets[i]);
    }
    Workflow(
      PackageNameToBinaryName(p.name),
      seq(|p.targets|, i requires 0 <= i < |p.targets| =>
        (NewTarget(p.targets[i]), GetWorkflowConfig(p.targets[i]))))
  }

  /** Where `write_lib_files` puts `lib.rs`, as written: joining the
      absolute `/src/lib.rs` discards the project path. */
  function LibRsPathAsWritten(projectPath: string): string {
    Push(projectPath, "/src/lib.rs")
  }

  /** The path the write lands on does not depend on the project at all. */
  lemma LibRsPathAsWrittenIgnoresProject(projectPath: string)
    ensures LibRsPathAsWritten(projectPath) == "/src/lib.rs"
  {
  }

  /** A concrete project whose `lib.rs` lands outside it. */
  lemma LibRsPathAsWrittenEscapes()
    ensures !StartsWith(LibRsPathAsWritten("my-addon"), "my-addon")
  {
    assert LibRsPathAsWritten("my-addon")[0] == '/';
  }

  /** `lib.rs` under the project's `src` directory. */
  function LibRsPath(projectPath: string): (r: string)
    ensures StartsWith(r, projectPath) && EndsWith(r, "lib.rs")
    ensures |projectPath| > 0 && projectPath[|projectPath| - 1] != '/' ==>
              r == projectPath + "/src/lib.rs"
  {
    Push(Push(projectPath, "src"), "lib.rs")
  }

  /** A prefix of a prefix is a prefix. */
  lemma StartsWithTrans(s: string, t: string, u: string)
    requires StartsWith(s, t) && StartsWith(t, u)
    ensures StartsWith(s, u)
  {
    assert s[..|u|] == s[..|t|][..|u|];
  }

  /** A path pushed below `base` in two steps stays below it. */
  lemma PushTwiceBelow(base: string, dir: string, file: string)
    requires !IsAbsolute(dir) && !IsAbsolute(file)
    ensures StartsWith(Push(Push(base, dir), file), base)
  {
    StartsWithTrans(Push(Push(base, dir), file), Push(base, dir), base);
  }

  /** `base.join(s0).join(s1)…`: the segments pushed one after another. */
  function JoinAll(base: string, segs: seq<string>): string
    decreases |segs|
  {
    if |segs| == 0 then base else JoinAll(Push(base, segs[0]), segs[1..])
  }

  /** Relative segments only ever extend the base. */
  lemma {:induction false} JoinAllBelow(base: string, segs: seq<string>)
    requires forall i :: 0 <= i < |segs| ==> !IsAbsolute(segs[i])
    ensures StartsWith(JoinAll(base, segs), base)
    decreases |segs|
  {
    if |segs| > 0 {
      var next := Push(base, segs[0]);
      JoinAllBelow(next, segs[1..]);
      StartsWithTrans(JoinAll(base, segs), next, base);
    }
  }

  /** The segments `write_files` joins onto the project path, in writing
      order: `Cargo.toml`, `src/lib.rs`, `build.rs`, `package.json`, then
      the CI workflow when enabled. */
  function ProjectFileSegments(githubActions: bool): (r: seq<seq<string>>)
    ensures |r| == (if githubActions then 5 else 4)
    ensures forall i, j :: 0 <= i < |r| && 0 <= j < |r[i]| ==> !IsAbsolute(r[i][j])
  {
    var base := [["Cargo.toml"], ["src", "lib.rs"], ["build.rs"], ["package.json"]];
    if githubActions then base + [[".github/workflows", "CI.yml"]] else base
  }

  /** Where `write_files` puts each file; every one lies inside the
      project directory. */
  function ProjectFilePaths(path: string, githubActions: bool): (r: seq<string>)
    ensures |r| == (if githubActions then 5 else 4)
    ensures forall i :: 0 <= i < |r| ==> StartsWith(r[i], path)
  {
    var segs := ProjectFileSegments(githubActions);
    forall i | 0 <= i < |segs|
      ensures StartsWith(JoinAll(path, segs[i]), path)
    {
      JoinAllBelow(path, segs[i]);
    }
    seq(|segs|, i requires 0 <= i < |segs| => JoinAll(path, segs[i]))
  }

  /** The corrected `lib.rs` path is the second file written. */
  lemma LibRsIsWritten(path: string)
    ensures ProjectFilePaths(path, false)[1] == LibRsPath(path)
  {
    assert ProjectFileSegments(false)[1] == ["src", "lib.rs"];
    assert JoinAll(path, ["src", "lib.rs"]) == JoinAll(Push(path, "src"), ["lib.rs"]);
  }

  /** The single-segment files, and the workflow, are pushed straight
      onto the project path. */
  lemma SinglePathsPushed(path: string, githubActions: bool)
    ensures ProjectFilePaths(path, githubActions)[0] == Push(path, "Cargo.toml")
    ensures ProjectFilePaths(path, githubActions)[2] == Push(path, "build.rs")
    ensures ProjectFilePaths(path, githubActions)[3] == Push(path, "package.json")
    ensures githubActions ==>
              ProjectFilePaths(path, githubActions)[4] == Push(Push(path, ".github/workflows"), "CI.yml")
  {
    var segs := ProjectFileSegments(githubActions);
    assert segs[0] == ["Cargo.toml"] && segs[2] == ["build.rs"] && segs[3] == ["package.json"];
    assert JoinAll(path, ["Cargo.toml"]) == Push(path, "Cargo.toml");
    assert JoinAll(path, ["build.rs"]) == Push(path, "build.rs");
    assert JoinAll(path, ["package.json"]) == Push(path, "package.json");
    if githubActions {
      assert segs[4] == [".github/workflows", "CI.yml"];
      assert JoinAll(path, [".github/workflows", "CI.yml"])
          == JoinAll(Push(path, ".github/workflows"), ["CI.yml"]);
    }
  }

  /** What a written file is rendered from. */
  datatype FileContent =
    | CargoTomlFile(cargo: CargoToml)
    | LibRsFile
    | BuildRsFile
    | PackageJsonFile(package: PackageJson)
    | WorkflowFile(workflow: Workflow)

  /** A file `new` writes: where, and from what. */
  datatype FileWrite = FileWrite(path: string, content: FileContent)

  /** The content of the `i`-th file `write_files` writes: `Cargo.toml`,
      `lib.rs`, `build.rs` and `package.json`, then the workflow, each
      rendered from the project. */
  function FileContentAt(p: Project, i: nat): (c: FileContent)
    requires i < 5
    requires forall k :: 0 <= k < |p.targets| ==> p.targets[k] in AvailableTargets
    ensures i == 0 <==> c.CargoTomlFile?
    ensures i == 1 <==> c.LibRsFile?
    ensures i == 2 <==> c.BuildRsFile?
    ensures i == 3 <==> c.PackageJsonFile?
    ensures i == 4 <==> c.WorkflowFile?
    ensures i == 0 ==> c == CargoTomlFile(CargoTomlOf(p))
    ensures i == 1 ==> c == LibRsFile
    ensures i == 2 ==> c == BuildRsFile
    ensures i == 3 ==> c == PackageJsonFile(PackageJsonOf(p))
    ensures i == 4 ==> c == WorkflowFile(WorkflowOf(p))
  {
    if i == 0 then CargoTomlFile(CargoTomlOf(p))
    else if i == 1 then LibRsFile
    else if i == 2 then BuildRsFile
    else if i == 3 then PackageJsonFile(PackageJsonOf(p))
    else WorkflowFile(WorkflowOf(p))
  }

  /** `write_files`: each file at its place, rendered from the project;
      the workflow only when GitHub Actions are enabled. */
  function WriteFiles(p: Project): (r: seq<FileWrite>)
    requires forall i :: 0 <= i < |p.targets| ==> p.targets[i] in AvailableTargets
    ensures |r| == (if p.githubActions then 5 else 4)
    ensures forall i :: 0 <= i < |r| ==> StartsWith(r[i].path, p.path)
    ensures r[0].content.CargoTomlFile? && r[1].content.LibRsFile?
    ensures (exists i :: 0 <= i < |r| && r[i].content.WorkflowFile?) <==> p.githubActions
  {
    var paths := ProjectFilePaths(p.path, p.githubActions);
    var r := seq(|paths|, i requires 0 <= i < |paths| => FileWrite(paths[i], FileContentAt(p, i)));
    assert p.githubActions ==> r[4].content.WorkflowFile?;
    r
  }

  /** Which file `write_files` writes where: `Cargo.toml`, `build.rs` and
      `package.json` directly in the project, `lib.rs` under `src`, and the
      workflow as `.github/workflows/CI.yml` when enabled, each rendered
      from the project. */
  lemma WrittenFiles(p: Project)
    requires forall i :: 0 <= i < |p.targets| ==> p.targets[i] in AvailableTargets
    ensures var r := WriteFiles(p);
            && r[0] == FileWrite(Push(p.path, "Cargo.toml"), CargoTomlFile(CargoTomlOf(p)))
            && r[1] == FileWrite(LibRsPath(p.path), LibRsFile)
            && r[2] == FileWrite(Push(p.path, "build.rs"), BuildRsFile)
            && r[3] == FileWrite(Push(p.path, "package.json"), PackageJsonFile(PackageJsonOf(p)))
            && (p.githubActions ==>
                  r[4] == FileWrite(Push(Push(p.path, ".github/workflows"), "CI.yml"), WorkflowFile(WorkflowOf(p))))
  {
    var paths := ProjectFilePaths(p.path, p.githubActions);
    var r := WriteFiles(p);
    assert forall i :: 0 <= i < |r| ==> r[i] == FileWrite(paths[i], FileContentAt(p, i));
    SinglePathsPushed(p.path, p.githubActions);
    LibRsIsWritten(p.path);
    assert paths[1] == ProjectFilePaths(p.path, false)[1];
  }

  /** `write_files`' chain of `?`: the writes run in order and stop at the
      first that fails, whose index is an input. The result lists the
      writes that completed. */
  function WriteOutcome(files: seq<FileWrite>, failingWrite: Option<nat>): (r: Result<seq<FileWrite>, seq<FileWrite>>)
    ensures r.Err? <==> failingWrite.Some? && failingWrite.value < |files|
    ensures r.Ok? ==> r.value == files
    ensures r.Err? ==> |r.error| == failingWrite.value
                       && forall i :: 0 <= i < |r.error| ==> r.error[i] == files[i]
  {
    if failingWrite.Some? && failingWrite.value < |files|
    then Err(files[..failingWrite.value])
    else Ok(files)
  }

  /** What any write sequence's outcome keeps: the writes that completed
      are a prefix of it, so they lie wherever it does. */
  lemma OutcomeBelow(files: seq<FileWrite>, failingWrite: Option<nat>, path: string)
    requires forall i :: 0 <= i < |files| ==> StartsWith(files[i].path, path)
    ensures var r := WriteOutcome(files, failingWrite);
            var written := if r.Ok? then r.value else r.error;
            forall i :: 0 <= i < |written| ==> StartsWith(written[i].path, path)
  {
  }

  /** The outcome is that of writing the files of some project settled
      from these arguments and answers. */
  ghost predicate WritesSomeSettled(args: NewArgs, answers: Answers, failingWrite: Option<nat>,
                                    r: Result<seq<FileWrite>, seq<FileWrite>>)
    requires |Components(args.path)| > 0
  {
    exists p :: && SettledFrom(args, answers, p)
                && (forall i :: 0 <= i < |p.targets| ==> p.targets[i] in AvailableTargets)
                && r == WriteOutcome(WriteFiles(p), failingWrite)
  }

  /** A settled project whose files were written witnesses
      WritesSomeSettled. */
  lemma WritesSettledProject(args: NewArgs, answers: Answers, p: Project, failingWrite: Option<nat>,
                             r: Result<seq<FileWrite>, seq<FileWrite>>)
    requires |Components(args.path)| > 0
    requires SettledFrom(args, answers, p)
    requires forall i :: 0 <= i < |p.targets| ==> p.targets[i] in AvailableTargets
    requires r == WriteOutcome(WriteFiles(p), failingWrite)
    ensures WritesSomeSettled(args, answers, failingWrite, r)
  {
  }

  /** `execute`: the directory must be creatable, then the project is
      settled and its files are written in order. Whether the directory
      could be created and which write (if any) is the first to fail are
      inputs. The result lists the writes that completed: all of them, or
      those before the failing one (`write_files` stops at its first error). */
  method Execute(args: NewArgs, dirCreated: bool, answers: Answers, failingWrite: Option<nat>)
    returns (r: Result<seq<FileWrite>, seq<FileWrite>>)
    requires |Components(args.path)| > 0
    requires answers.napiVersionIndex < 8
    requires SelectionsInRange(answers.targetSelections)
    requires !args.yes && !args.enableDefaultTargets && !args.enableAllTargets ==>
               SomeSelection(answers.targetSelections)
    ensures !dirCreated ==> r == Err([])
    ensures dirCreated && failingWrite.Some? && failingWrite.value < 4 ==> r.Err?
    ensures dirCreated && r.Err? ==> failingWrite.Some? && |r.error| == failingWrite.value
    ensures r.Ok? ==> dirCreated && (failingWrite.None? || failingWrite.value >= |r.value|)
    ensures r.Ok? ==> 4 <= |r.value| <= 5
    ensures var written := if r.Ok? then r.value else r.error;
            forall i :: 0 <= i < |written| ==> StartsWith(written[i].path, args.path)
    ensures r.Ok? && args.yes ==> |r.value| == 5 && r.value[4].content.WorkflowFile?
    ensures dirCreated ==> WritesSomeSettled(args, answers, failingWrite, r)
  {
    if !dirCreated {
      return Err([]);
    }
    var p := Settle(args, answers);
    var files := WriteFiles(p);
    assert args.yes ==> p.githubActions;
    r := WriteOutcome(files, failingWrite);
    OutcomeBelow(files, failingWrite, args.path);
    WritesSettledProject(args, answers, p, failingWrite, r);
  }
}

=== FILE: paths.dfy ===
/** Unix path arithmetic with the semantics of Rust's `PathBuf::push`,
    `Path::join`, `Path::iter` and `Path::parent`, on paths held as text. */
module Paths {
  import opened Wrappers
  import opened Strings

  /** A path is absolute on Unix when it starts at the root. */
  predicate IsAbsolute(p: string) {
    |p| > 0 && p[0] == '/'
  }

  /** `PathBuf::push` (and `Path::join`): an absolute `p` replaces the base;
      otherwise `p` is appended after a `/` unless the base is empty or
      already ends with one. */
  function Push(base: string, p: string): (r: string)
    ensures IsAbsolute(p) ==> r == p
    ensures !IsAbsolute(p) ==> StartsWith(r, base) && EndsWith(r, p)
    ensures !IsAbsolute(p) && |base| > 0 ==> |r| > |p| && r[|r| - |p| - 1] == '/'
    ensures !IsAbsolute(p) && |base| == 0 ==> r == p
  {
    if IsAbsolute(p) then p
    else if |base| == 0 || base[|base| - 1] == '/' then base + p
    else base + "/" + p
  }

  /** The non-empty segments other than `.`, in order. */
  function NormalSegments(segs: seq<string>): (r: seq<string>)
    ensures forall i :: 0 <= i < |r| ==> r[i] != "" && r[i] != "." && r[i] in segs
  {
    if |segs| == 0 then []
    else (if segs[0] == "" || segs[0] == "." then [] else [segs[0]]) + NormalSegments(segs[1..])
  }

  /** `Path::iter`: the root as `/`, a leading `.` of a relative path, then
      the normal segments; repeated and trailing separators and inner `.`
      segments vanish. */
  function Components(p: string): (r: seq<string>)
    ensures forall i :: 0 <= i < |r| ==> r[i] != ""
    ensures forall i :: 0 <= i < |r| ==> r[i] == "/" || '/' !in r[i]
    ensures IsAbsolute(p) <==> |r| > 0 && r[0] == "/"
  {
    var segs := Split(p, '/');
    if IsAbsolute(p) then ["/"] + NormalSegments(segs)
    else if segs[0] == "." then ["."] + NormalSegments(segs[1..])
    else NormalSegments(segs)
  }

  /** `path.iter().last().unwrap()`: the path's last component; the source
      unwraps it, so a path with no component (the empty one) is excluded. */
  function LastComponent(p: string): (r: string)
    requires |Components(p)| > 0
    ensures r != ""
    ensures r == "/" || '/' !in r
    ensures r == "/" ==> IsAbsolute(p)
  {
    var cs := Components(p);
    cs[|cs| - 1]
  }

  /** A name with no separator and other than `.` is its own last component. */
  lemma LastComponentOfPlainName(p: string)
    requires p != "" && p != "." && '/' !in p
    ensures |Components(p)| > 0 && LastComponent(p) == p
  {
    assert CountChar(p, '/') == 0 by { CountCharAbsent(p, '/'); }
    var segs := Split(p, '/');
    JoinSplit(p, '/');
    assert segs == [p];
    assert NormalSegments(segs) == [p] + NormalSegments([]);
  }

  lemma {:induction false} CountCharAbsent(s: string, c: char)
    requires c !in s
    ensures CountChar(s, c) == 0
  {
    if |s| > 0 {
      assert c !in s[1..];
      CountCharAbsent(s[1..], c);
    }
  }

  /** `Path::parent` for the normalised paths cargo reports: the text before
      the last separator (the root itself when that separator is the first
      character); none for the empty path and the root. */
  function Parent(p: string): (r: Option<string>)
    ensures r.None? <==> p == "" || p == "/"
    ensures r.Some? ==> StartsWith(p, r.value) && |r.value| < |p|
  {
    if p == "" || p == "/" then None
    else
      var name := LastPart(p, '/');
      LastPartIsMaximalSuffix(p, '/');
      if name == p then Some("")
      else
        var k := |p| - |name| - 1;
        if k == 0 then Some("/") else Some(p[..k])
  }

  /** Without `//` in `p`, a separator is never preceded by another. */
  lemma SeparatorNotDoubled(p: string, k: nat)
    requires !Contains(p, "//")
    requires 0 < k < |p| && p[k] == '/'
    ensures p[k - 1] != '/'
  {
    assert !OccursAt(p, "//", k - 1);
    assert p[k - 1..k + 1] == [p[k - 1], '/'];
  }

  /** Pushing the file name back onto the parent gives the path again, for
      a path without repeated separators. */
  lemma ParentThenPush(p: string)
    requires Parent(p).Some?
    requires !Contains(p, "//")
    ensures Push(Parent(p).value, LastPart(p, '/')) == p
  {
    var name := LastPart(p, '/');
    LastPartIsMaximalSuffix(p, '/');
    var parent := Parent(p).value;
    assert !IsAbsolute(name) by {
      if |name| > 0 { assert name[0] in name; }
    }
    if name == p {
      assert parent == "";
      assert Push(parent, name) == name;
    } else {
      var k := |p| - |name| - 1;
      assert p == p[..k] + "/" + name;
      if k == 0 {
        assert parent == "/";
        assert Push(parent, name) == "/" + name;
      } else {
        assert parent == p[..k];
        SeparatorNotDoubled(p, k);
        assert parent[|parent| - 1] != '/';
        assert Push(parent, name) == parent + "/" + name;
      }
    }
  }

  /** Pushing a relative path onto a base that does not end in `/` puts
      exactly one `/` between them. */
  lemma PushJoinsWithSlash(base: string, p: string)
    requires |base| > 0 && base[|base| - 1] != '/' && !IsAbsolute(p)
    ensures Push(base, p) == base + "/" + p
    ensures |p| > 0 ==> Push(base, p)[|Push(base, p)| - 1] == p[|p| - 1]
  {
  }

  /** A file name pushed onto a directory is the last component of the
      result, and the directory is its parent. */
  lemma ParentOfPush(dir: string, name: string)
    requires |dir| > 0 && dir[|dir| - 1] != '/'
    requires name != "" && '/' !in name
    ensures LastPart(Push(dir, name), '/') == name
    ensures Parent(Push(dir, name)) == Some(dir)
  {
    var r := Push(dir, name);
    assert !IsAbsolute(name) by { assert name[0] in name; }
    assert r == dir + "/" + name;
    var last := LastPart(r, '/');
    LastPartIsMaximalSuffix(r, '/');
    assert |last| == |name|;
    assert last == r[|r| - |name|..] == name;
    assert r[..|dir|] == dir;
  }
}

=== FILE: strings.dfy ===
/** The Rust `str` operations the CLI relies on (`contains`, `split`,
    `trim`, `replace`, `trim_start_matches`, decimal formatting, UTF-8
    length), over `string` = `seq<char>`. */
module Strings {

  /** `p` occurs in `s` starting at position `i`. */
  predicate OccursAt(s: string, p: string, i: nat) {
    i + |p| <= |s| && s[i..i + |p|] == p
  }

  /** Rust's `str::contains` with a string pattern. */
  predicate Contains(s: string, p: string) {
    exists i: nat | i <= |s| :: OccursAt(s, p, i)
  }

  /** Rust's `str::starts_with`. */
  predicate StartsWith(s: string, p: string) {
    |p| <= |s| && s[..|p|] == p
  }

  /** Rust's `str::ends_with`. */
  predicate EndsWith(s: string, p: string) {
    |p| <= |s| && s[|s| - |p|..] == p
  }

  lemma ContainsOwnSuffix(s: string, p: string)
    ensures Contains(s + p, p)
  {
    assert (s + p)[|s|..|s| + |p|] == p;
    assert OccursAt(s + p, p, |s|);
  }

  /** A text ends with `t` when its last `|t|` characters are those of `t`. */
  lemma EndsWithByIndex(s: string, t: string)
    requires |t| <= |s|
    requires forall i :: 0 <= i < |t| ==> s[|s| - |t| + i] == t[i]
    ensures EndsWith(s, t)
  {
    assert forall i :: 0 <= i < |t| ==> s[|s| - |t|..][i] == t[i];
  }

  /** Appending text never removes an occurrence. */
  lemma ContainsGrows(s: string, t: string, p: string)
    requires Contains(s, p)
    ensures Contains(s + t, p)
  {
    var i: nat :| i <= |s| && OccursAt(s, p, i);
    assert (s + t)[i..i + |p|] == s[i..i + |p|];
    assert OccursAt(s + t, p, i);
  }

  /** Each character of an occurrence is the text's character there. */
  lemma OccurrenceChar(s: string, p: string, i: nat, q: nat)
    requires OccursAt(s, p, i) && q < |p|
    ensures p[q] == s[i + q]
  {
    assert s[i..i + |p|][q] == s[i + q];
  }

  /** Appending text that starts with `sep` and does not contain the
      pattern's first character creates no new occurrence of a pattern
      free of `sep`. */
  lemma ContainsAppendedNothing(s: string, t: string, p: string, sep: char)
    requires |t| > 0 && t[0] == sep && sep !in p
    requires |p| > 0 && p[0] !in t
    ensures Contains(s + t, p) <==> Contains(s, p)
  {
    if Contains(s, p) {
      ContainsGrows(s, t, p);
    }
    if Contains(s + t, p) {
      var i: nat :| i <= |s + t| && OccursAt(s + t, p, i);
      if i + |p| <= |s| {
        assert (s + t)[i..i + |p|] == s[i..i + |p|];
        assert OccursAt(s, p, i);
      } else if i < |s| {
        OccurrenceChar(s + t, p, i, |s| - i);
      } else {
        OccurrenceChar(s + t, p, i, 0);
      }
    }
  }

  /** Number of occurrences of the character `c` in `s`. */
  function CountChar(s: string, c: char): nat {
    if |s| == 0 then 0 else (if s[0] == c then 1 else 0) + CountChar(s[1..], c)
  }

  /** Rust's `str::split` with a `char` pattern: the maximal runs between
      the occurrences of `c`, so there is always at least one part. */
  function Split(s: string, c: char): (parts: seq<string>)
    ensures |parts| == CountChar(s, c) + 1
    ensures forall i :: 0 <= i < |parts| ==> c !in parts[i]
  {
    if |s| == 0 then [""]
    else
      var rest := Split(s[1..], c);
      if s[0] == c then [""] + rest
      else [[s[0]] + rest[0]] + rest[1..]
  }

  /** The parts glued back together with `c` between neighbours. */
  function Join(parts: seq<string>, c: char): string
    requires |parts| >= 1
  {
    if |parts| == 1 then parts[0] else parts[0] + [c] + Join(parts[1..], c)
  }

  /** `Join` undoes `Split`: splitting loses nothing. */
  lemma {:induction false} JoinSplit(s: string, c: char)
    ensures Join(Split(s, c), c) == s
  {
    if |s| > 0 {
      JoinSplit(s[1..], c);
      var rest := Split(s[1..], c);
      if s[0] == c {
        assert ([""] + rest)[1..] == rest;
      } else {
        var parts := [[s[0]] + rest[0]] + rest[1..];
        if |rest| > 1 {
          assert parts[1..] == rest[1..];
          assert Join(rest, c) == rest[0] + [c] + Join(rest[1..], c);
        }
      }
    }
  }

  /** Joining a list with one more part at the end adds `c` and that part. */
  lemma {:induction false} JoinSnoc(parts: seq<string>, q: string, c: char)
    requires |parts| >= 1
    ensures Join(parts + [q], c) == Join(parts, c) + [c] + q
  {
    if |parts| > 1 {
      assert (parts + [q])[1..] == parts[1..] + [q];
      JoinSnoc(parts[1..], q, c);
    }
  }

  /** The last part of `Split(s, c)`, as `split(c).last().unwrap()`. */
  function LastPart(s: string, c: char): string {
    var parts := Split(s, c);
    parts[|parts| - 1]
  }

  /** The last part is the longest suffix of `s` free of `c`: it is a suffix,
      has no `c`, and is either all of `s` or preceded by `c`. */
  lemma LastPartIsMaximalSuffix(s: string, c: char)
    ensures EndsWith(s, LastPart(s, c))
    ensures c !in LastPart(s, c)
    ensures LastPart(s, c) == s || s[|s| - |LastPart(s, c)| - 1] == c
    ensures c !in s ==> LastPart(s, c) == s
  {
    var parts := Split(s, c);
    var r := parts[|parts| - 1];
    JoinSplit(s, c);
    if |parts| > 1 {
      var init := parts[..|parts| - 1];
      assert parts == init + [r];
      JoinSnoc(init, r, c);
      var j := Join(init, c);
      assert s == j + [c] + r;
      assert s[|s| - |r| - 1] == c;
      assert s[|s| - |r|..] == r;
    }
  }

  /** Rust's `str::replace` of one character by another. */
  function ReplaceChar(s: string, from: char, to: char): (r: string)
    ensures |r| == |s|
    ensures forall i :: 0 <= i < |s| ==> r[i] == (if s[i] == from then to else s[i])
  {
    if |s| == 0 then "" else [if s[0] == from then to else s[0]] + ReplaceChar(s[1..], from, to)
  }

  /** Rust's `str::trim_start_matches` with a `char` pattern. */
  function TrimStartMatches(s: string, c: char): (r: string)
    ensures EndsWith(s, r)
    ensures |r| > 0 ==> r[0] != c
    ensures forall i :: 0 <= i < |s| - |r| ==> s[i] == c
  {
    if |s| > 0 && s[0] == c then TrimStartMatches(s[1..], c) else s
  }

  /** Rust's `char::is_whitespace`: the Unicode `White_Space` property. */
  predicate IsWhitespace(ch: char) {
    || '\t' <= ch <= '\r'
    || ch == ' '
    || ch == '\U{0085}'
    || ch == '\U{00A0}'
    || ch == '\U{1680}'
    || '\U{2000}' <= ch <= '\U{200A}'
    || ch == '\U{2028}'
    || ch == '\U{2029}'
    || ch == '\U{202F}'
    || ch == '\U{205F}'
    || ch == '\U{3000}'
  }

  /** Rust's `str::trim_start`. */
  function TrimStart(s: string): (r: string)
    ensures EndsWith(s, r)
    ensures |r| > 0 ==> !IsWhitespace(r[0])
    ensures forall i :: 0 <= i < |s| - |r| ==> IsWhitespace(s[i])
  {
    if |s| > 0 && IsWhitespace(s[0]) then
      var r := TrimStart(s[1..]);
      DropFirstKeepsSuffix(s, r);
      r
    else s
  }

  /** A suffix of `s[1..]` is a suffix of `s`. */
  lemma DropFirstKeepsSuffix(s: string, r: string)
    requires |s| > 0 && EndsWith(s[1..], r)
    ensures EndsWith(s, r)
  {
    assert s[|s| - |r|..] == s[1..][|s| - 1 - |r|..];
  }

  /** Rust's `str::trim_end`. */
  function TrimEnd(s: string): (r: string)
    ensures StartsWith(s, r)
    ensures |r| > 0 ==> !IsWhitespace(r[|r| - 1])
    ensures forall i :: |r| <= i < |s| ==> IsWhitespace(s[i])
  {
    if |s| > 0 && IsWhitespace(s[|s| - 1]) then TrimEnd(s[..|s| - 1]) else s
  }

  /** `r` sits at position `i` of `s` with only whitespace around it. */
  predicate TrimmedAt(s: string, r: string, i: nat) {
    && OccursAt(s, r, i)
    && (forall k :: 0 <= k < i ==> IsWhitespace(s[k]))
    && (forall k :: i + |r| <= k < |s| ==> IsWhitespace(s[k]))
  }

  lemma TrimStartThenEnd(s: string)
    ensures TrimmedAt(s, TrimEnd(TrimStart(s)), |s| - |TrimStart(s)|)
  {
    var t := TrimStart(s);
    var r := TrimEnd(t);
    var i := |s| - |t|;
    PrefixOfSuffix(s, t, r);
    forall k | i + |r| <= k < |s|
      ensures IsWhitespace(s[k])
    {
      assert s[k] == t[k - i];
    }
  }

  /** A prefix `r` of a suffix `t` of `s` occurs in `s` where `t` starts. */
  lemma PrefixOfSuffix(s: string, t: string, r: string)
    requires EndsWith(s, t) && StartsWith(t, r)
    ensures OccursAt(s, r, |s| - |t|)
  {
    var i := |s| - |t|;
    forall k | 0 <= k < |r|
      ensures s[i..i + |r|][k] == r[k]
    {
      assert r[k] == t[k] == s[i + k];
    }
  }

  /** Rust's `str::trim`: the infix of `s` left once the whitespace at both
      ends is removed. */
  function Trim(s: string): (r: string)
    ensures |r| > 0 ==> !IsWhitespace(r[0]) && !IsWhitespace(r[|r| - 1])
    ensures exists i: nat | i <= |s| :: TrimmedAt(s, r, i)
  {
    TrimStartThenEnd(s);
    TrimEnd(TrimStart(s))
  }

  /** Rust's `str::split` with a non-empty string pattern: matches are found
      left to right and do not overlap. */
  function SplitStr(s: string, sep: string): (parts: seq<string>)
    requires |sep| > 0
    ensures |parts| >= 1
  {
    if |s| < |sep| then [s]
    else if s[..|sep|] == sep then [""] + SplitStr(s[|sep|..], sep)
    else
      var rest := SplitStr(s[1..], sep);
      [[s[0]] + rest[0]] + rest[1..]
  }

  /** The parts glued back together with `sep` between neighbours. */
  function JoinStr(parts: seq<string>, sep: string): string
    requires |parts| >= 1
  {
    if |parts| == 1 then parts[0] else parts[0] + sep + JoinStr(parts[1..], sep)
  }

  /** Gluing a character onto the first part glues it onto the result. */
  lemma JoinStrConsFirst(ch: char, parts: seq<string>, sep: string)
    requires |parts| >= 1
    ensures JoinStr([[ch] + parts[0]] + parts[1..], sep) == [ch] + JoinStr(parts, sep)
  {
    var glued := [[ch] + parts[0]] + parts[1..];
    if |parts| > 1 {
      assert glued[1..] == parts[1..];
    }
  }

  /** `JoinStr` undoes `SplitStr`. */
  lemma {:induction false} JoinSplitStr(s: string, sep: string)
    requires |sep| > 0
    ensures JoinStr(SplitStr(s, sep), sep) == s
  {
    if |s| >= |sep| {
      if s[..|sep|] == sep {
        var rest := SplitStr(s[|sep|..], sep);
        JoinSplitStr(s[|sep|..], sep);
        assert ([""] + rest)[1..] == rest;
        assert JoinStr([""] + rest, sep) == "" + sep + JoinStr(rest, sep);
        assert s == sep + s[|sep|..];
      } else {
        var rest := SplitStr(s[1..], sep);
        JoinSplitStr(s[1..], sep);
        JoinStrConsFirst(s[0], rest, sep);
        assert s == [s[0]] + s[1..];
      }
    }
  }

  /** Rust's `[String]::join(" ")`-style concatenation with a separator. */
  function JoinWith(parts: seq<string>, sep: string): string {
    if |parts| == 0 then ""
    else if |parts| == 1 then parts[0]
    else parts[0] + sep + JoinWith(parts[1..], sep)
  }

  /** The ASCII digit for `d`. */
  function DigitChar(d: nat): (ch: char)
    requires d < 10
    ensures '0' <= ch <= '9'
  {
    (48 + d) as char
  }

  /** The value of an ASCII digit. */
  function DigitValue(ch: char): (d: nat)
    requires '0' <= ch <= '9'
    ensures d < 10
  {
    ch as int - 48
  }

  predicate AllDigits(s: string) {
    forall i :: 0 <= i < |s| ==> '0' <= s[i] <= '9'
  }

  /** Rust's `format!("{}", n)` for an unsigned integer. */
  function NatToString(n: nat): (r: string)
    ensures |r| >= 1
    ensures AllDigits(r)
    ensures r[0] == '0' ==> n == 0
  {
    if n < 10 then [DigitChar(n)] else NatToString(n / 10) + [DigitChar(n % 10)]
  }

  /** Reads a run of decimal digits back. */
  function ParseNat(s: string): nat
    requires AllDigits(s)
  {
    if |s| == 0 then 0 else ParseNat(s[..|s| - 1]) * 10 + DigitValue(s[|s| - 1])
  }

  /** Decimal rendering is read back to the same number. */
  lemma {:induction false} ParseNatToString(n: nat)
    ensures ParseNat(NatToString(n)) == n
  {
    if n >= 10 {
      var r := NatToString(n);
      assert r[..|r| - 1] == NatToString(n / 10);
      ParseNatToString(n / 10);
    }
  }

  /** Different numbers render differently. */
  lemma NatToStringInjective(m: nat, n: nat)
    requires NatToString(m) == NatToString(n)
    ensures m == n
  {
    ParseNatToString(m);
    ParseNatToString(n);
  }

  /** Bytes Rust's UTF-8 encoding uses for one character. */
  function Utf8Width(ch: char): (w: nat)
    ensures 1 <= w <= 4
  {
    if ch as int < 0x80 then 1
    else if ch as int < 0x800 then 2
    else if ch as int < 0x10000 then 3
    else 4
  }

  /** Rust's `str::len`: the UTF-8 byte length. */
  function Utf8Len(s: string): (n: nat)
    ensures |s| <= n <= 4 * |s|
  {
    if |s| == 0 then 0 else Utf8Width(s[0]) + Utf8Len(s[1..])
  }
}

=== FILE: target.dfy ===
/** Rust target triples as the CLI understands them: the Node.js
    architecture and platform names, the `platform-arch[-abi]` tag used in
    artifact names, and the GitHub workflow settings per triple
    (crates/cli/src/utils/target.rs). */
module Targets {
  import opened Wrappers
  import opened Strings

  /** Every triple the project generator offers. */
  const AvailableTargets: seq<string> := [
    "aarch64-apple-darwin",
    "aarch64-linux-android",
    "aarch64-unknown-linux-gnu",
    "aarch64-unknown-linux-musl",
    "aarch64-pc-windows-msvc",
    "x86_64-apple-darwin",
    "x86_64-pc-windows-msvc",
    "x86_64-unknown-linux-gnu",
    "x86_64-unknown-linux-musl",
    "x86_64-unknown-freebsd",
    "i686-pc-windows-msvc",
    "armv7-unknown-linux-gnueabihf",
    "armv7-linux-androideabi"
  ]

  /** The triples selected unless the user chooses otherwise. */
  const DefaultTargets: seq<string> := [
    "x86_64-apple-darwin",
    "x86_64-pc-windows-msvc",
    "x86_64-unknown-linux-gnu"
  ]

  // ---------------------------------------------------------------------
  // Architectures
  // ---------------------------------------------------------------------

  /** Node.js `process.arch` values. */
  datatype NodeArch = X32 | X64 | Ia32 | Arm | Arm64 | Mips | Mipsel | Ppc | Ppc64 | S390 | S390x

  /** `NodeArch::from_str`: the architecture of a triple's cpu field, or
      none for a cpu the CLI does not know. */
  function ArchFromCpu(cpu: string): Option<NodeArch> {
    if cpu == "x32" then Some(X32)
    else if cpu == "x86_64" then Some(X64)
    else if cpu == "i686" then Some(Ia32)
    else if cpu == "armv7" then Some(Arm)
    else if cpu == "aarch64" then Some(Arm64)
    else if cpu == "mips" then Some(Mips)
    else if cpu == "mipsel" then Some(Mipsel)
    else if cpu == "ppc" then Some(Ppc)
    else if cpu == "ppc64" then Some(Ppc64)
    else if cpu == "s390" then Some(S390)
    else if cpu == "s390x" then Some(S390x)
    else None
  }

  /** The one cpu name that denotes each architecture. */
  function CpuName(a: NodeArch): string {
    match a
    case X32 => "x32"
    case X64 => "x86_64"
    case Ia32 => "i686"
    case Arm => "armv7"
    case Arm64 => "aarch64"
    case Mips => "mips"
    case Mipsel => "mipsel"
    case Ppc => "ppc"
    case Ppc64 => "ppc64"
    case S390 => "s390"
    case S390x => "s390x"
  }

  /** `from_str` recognises exactly the cpu names of the table, one per
      architecture. */
  lemma ArchFromCpuExactly(cpu: string, a: NodeArch)
    ensures ArchFromCpu(cpu) == Some(a) <==> cpu == CpuName(a)
  {
  }

  /** `Display for NodeArch`. */
  function ArchName(a: NodeArch): (r: string)
    ensures '-' !in r
  {
    match a
    case X32 => "x86"
    case X64 => "x64"
    case Ia32 => "ia32"
    case Arm => "arm"
    case Arm64 => "arm64"
    case Mips => "mips"
    case Mipsel => "mipsel"
    case Ppc => "ppc"
    case Ppc64 => "ppc64"
    case S390 => "s390"
    case S390x => "s390x"
  }

  /** Distinct architectures display differently. */
  lemma ArchNameInjective(a: NodeArch, b: NodeArch)
    requires ArchName(a) == ArchName(b)
    ensures a == b
  {
  }

  /** `as_github_action_arch`: `x86` for the 32-bit x86 arch, `x64` for all
      others. */
  function GithubActionArch(a: NodeArch): (r: string)
    ensures r == "x86" <==> a == X32
    ensures r == "x86" || r == "x64"
  {
    match a
    case X32 => "x86"
    case X64 => "x64"
    case _ => "x64"
  }

  // ---------------------------------------------------------------------
  // Platforms
  // ---------------------------------------------------------------------

  /** Node.js `process.platform` values; any other system name is kept. */
  datatype NodePlatform = Darwin | Freebsd | Windows | Linux | Android | Fuchsia | Unknown(name: string)

  /** The system names that have their own platform. */
  const KnownSystems: seq<string> := ["darwin", "freebsd", "windows", "linux", "android", "fuchsia"]

  /** `NodePlatform::from_str`: total; an unknown name is kept verbatim. */
  function PlatformFromStr(s: string): (p: NodePlatform)
    ensures p.Unknown? <==> s !in KnownSystems
    ensures p.Unknown? ==> p.name == s
  {
    if s == "darwin" then Darwin
    else if s == "freebsd" then Freebsd
    else if s == "windows" then Windows
    else if s == "linux" then Linux
    else if s == "android" then Android
    else if s == "fuchsia" then Fuchsia
    else Unknown(s)
  }

  /** `Display for NodePlatform`. */
  function PlatformName(p: NodePlatform): string {
    match p
    case Darwin => "darwin"
    case Freebsd => "freebsd"
    case Windows => "win32"
    case Linux => "linux"
    case Android => "android"
    case Fuchsia => "fuchsia"
    case Unknown(s) => s
  }

  /** Displaying a parsed system name gives the name back, except that
      `windows` displays as `win32`. */
  lemma PlatformNameOfParsed(s: string)
    ensures PlatformName(PlatformFromStr(s)) == (if s == "windows" then "win32" else s)
  {
  }

  /** A platform value that parsing can produce: an unknown platform never
      carries a known system name. */
  predicate CanonicalPlatform(p: NodePlatform) {
    p.Unknown? ==> p.name !in KnownSystems
  }

  /** Parsing yields canonical platforms, and parsing the display of a
      canonical platform other than Windows gives it back; Windows displays
      as `win32`, which parses to an unknown platform. */
  lemma PlatformParseOfName(p: NodePlatform, s: string)
    ensures CanonicalPlatform(PlatformFromStr(s))
    ensures CanonicalPlatform(p) && p != Windows ==> PlatformFromStr(PlatformName(p)) == p
    ensures PlatformFromStr(PlatformName(Windows)) == Unknown("win32")
  {
  }

  // ---------------------------------------------------------------------
  // Triples
  // ---------------------------------------------------------------------

  /** A parsed triple. The source compares targets by triple only. */
  datatype Target = Target(
    triple: string,
    platformArchAbi: string,
    platform: NodePlatform,
    arch: NodeArch,
    abi: Option<string>)

  /** `armv7-linux-androideabi` becomes `armv7-linux-android-eabi`: a `-`
      goes in before the final four characters of a triple ending in
      `androideabi`; any other triple is unchanged. */
  function NormalizeTriple(triple: string): string {
    if EndsWith(triple, "androideabi")
    then triple[..|triple| - 4] + "-" + triple[|triple| - 4..]
    else triple
  }

  /** The inserted `-` is the only change: it sits right before `eabi`,
      and removing it gives the triple back. */
  lemma NormalizeTripleInsertsOneDash(triple: string)
    requires EndsWith(triple, "androideabi")
    ensures var n := NormalizeTriple(triple);
            && |n| == |triple| + 1
            && n[|triple| - 4] == '-'
            && n[..|triple| - 4] + n[|triple| - 3..] == triple
            && EndsWith(n, "android-eabi")
  {
    var n := NormalizeTriple(triple);
    assert n[|triple| - 3..] == triple[|triple| - 4..];
    assert triple[|triple| - 11..] == "androideabi";
    assert n[|n| - 12..] == triple[|triple| - 11..|triple| - 4] + "-" + triple[|triple| - 4..];
  }

  /** The `-`-separated fields of the normalised triple. */
  function TripleParts(triple: string): seq<string> {
    Split(NormalizeTriple(triple), '-')
  }

  /** What `Target::new` accepts without panicking: at least two fields
      (the source indexes the third field otherwise) and a known cpu. */
  predicate ValidTriple(triple: string) {
    var parts := TripleParts(triple);
    |parts| >= 2 && ArchFromCpu(parts[0]).Some?
  }

  /** The `platform-arch[-abi]` tag. */
  function PlatformArchAbi(platform: NodePlatform, arch: NodeArch, abi: Option<string>): string {
    match abi
    case Some(a) => PlatformName(platform) + "-" + ArchName(arch) + "-" + a
    case None => PlatformName(platform) + "-" + ArchName(arch)
  }

  /** `Target::new`. Two fields are cpu and system; otherwise the system is
      the third field and the abi the fourth, if any. The stored triple is
      the caller's string, not the normalised one. */
  function NewTarget(triple: string): (t: Target)
    requires ValidTriple(triple)
    ensures t.triple == triple
    ensures Some(t.arch) == ArchFromCpu(TripleParts(triple)[0])
    ensures |TripleParts(triple)| == 2 ==> t.platform == PlatformFromStr(TripleParts(triple)[1]) && t.abi == None
    ensures |TripleParts(triple)| >= 3 ==> t.platform == PlatformFromStr(TripleParts(triple)[2])
    ensures |TripleParts(triple)| == 3 ==> t.abi == None
    ensures |TripleParts(triple)| >= 4 ==> t.abi == Some(TripleParts(triple)[3])
    ensures t.platformArchAbi == PlatformArchAbi(t.platform, t.arch, t.abi)
  {
    var parts := TripleParts(triple);
    var sys := if |parts| == 2 then parts[1] else parts[2];
    var abi := if |parts| >= 4 then Some(parts[3]) else None;
    var platform := PlatformFromStr(sys);
    var arch := ArchFromCpu(parts[0]).value;
    Target(triple, PlatformArchAbi(platform, arch, abi), platform, arch, abi)
  }

  /** `PartialEq for Target`: targets are equal when their triples are. */
  predicate SameTarget(a: Target, b: Target) {
    a.triple == b.triple
  }

  /** Targets built from triples are equal exactly when the triples are. */
  lemma SameTargetIffSameTriple(x: string, y: string)
    requires ValidTriple(x) && ValidTriple(y)
    ensures SameTarget(NewTarget(x), NewTarget(y)) <==> x == y
  {
  }

  /** Splitting a string whose first part has no separator. */
  lemma {:induction false} SplitAfterFirst(a: string, b: string, c: char)
    requires c !in a
    ensures Split(a + [c] + b, c) == [a] + Split(b, c)
  {
    if |a| == 0 {
      assert a + [c] + b == [c] + b;
      assert ([c] + b)[1..] == b;
    } else {
      assert (a + [c] + b)[1..] == a[1..] + [c] + b;
      SplitAfterFirst(a[1..], b, c);
      assert a == [a[0]] + a[1..];
    }
  }

  /** A string without the separator splits into itself. */
  lemma {:induction false} SplitWithoutSeparator(a: string, c: char)
    requires c !in a
    ensures Split(a, c) == [a]
  {
    if |a| > 0 {
      assert a[0] != c && c !in a[1..];
      SplitWithoutSeparator(a[1..], c);
      assert a == [a[0]] + a[1..];
    }
  }

  /** `x-y` with `-`-free halves splits into them. */
  lemma SplitTwo(x: string, y: string)
    requires '-' !in x && '-' !in y
    ensures Split(x + "-" + y, '-') == [x, y]
  {
    SplitWithoutSeparator(y, '-');
    SplitAfterFirst(x, y, '-');
  }

  /** `x-y-z` with `-`-free fields splits into them. */
  lemma SplitThree(x: string, y: string, z: string)
    requires '-' !in x && '-' !in y && '-' !in z
    ensures Split(x + "-" + y + "-" + z, '-') == [x, y, z]
  {
    SplitTwo(y, z);
    assert x + "-" + y + "-" + z == x + ['-'] + (y + "-" + z);
    SplitAfterFirst(x, y + "-" + z, '-');
  }

  /** The tag of every valid triple splits back on `-` into the displayed
      platform, the displayed arch and the abi, when present. */
  lemma PlatformArchAbiSplitsBack(triple: string)
    requires ValidTriple(triple)
    ensures var t := NewTarget(triple);
            Split(t.platformArchAbi, '-')
              == [PlatformName(t.platform), ArchName(t.arch)] + (if t.abi.Some? then [t.abi.value] else [])
  {
    var t := NewTarget(triple);
    var parts := TripleParts(triple);
    var p := PlatformName(t.platform);
    var a := ArchName(t.arch);
    assert '-' !in p by {
      if t.platform.Unknown? {
        assert t.platform.name in parts;
      }
    }
    match t.abi {
      case Some(abi) =>
        assert abi == parts[3];
        SplitThree(p, a, abi);
      case None =>
        SplitTwo(p, a);
    }
  }

  /** Splitting `a-b-c-d` whose fields have no `-`. */
  lemma SplitFields(fields: seq<string>)
    requires |fields| >= 1
    requires forall i :: 0 <= i < |fields| ==> '-' !in fields[i]
    ensures Split(Join(fields, '-'), '-') == fields
  {
    if |fields| == 1 {
      SplitWithoutSeparator(fields[0], '-');
    } else {
      SplitFields(fields[1..]);
      SplitAfterFirst(fields[0], Join(fields[1..], '-'), '-');
    }
  }

  /** A triple other than an `androideabi` one, written as `-`-free fields
      joined by `-`, has exactly those fields. */
  lemma FieldsOfTriple(triple: string, fields: seq<string>)
    requires !EndsWith(triple, "androideabi")
    requires |fields| >= 1 && triple == Join(fields, '-')
    requires forall i :: 0 <= i < |fields| ==> '-' !in fields[i]
    ensures TripleParts(triple) == fields
  {
    SplitFields(fields);
  }

  /** The tag `Target::new` gives a triple whose fields are known. */
  lemma TagOfParts(triple: string, parts: seq<string>, tag: string)
    requires TripleParts(triple) == parts
    requires |parts| >= 2 && ArchFromCpu(parts[0]).Some?
    requires tag == PlatformArchAbi(
      PlatformFromStr(if |parts| == 2 then parts[1] else parts[2]),
      ArchFromCpu(parts[0]).value,
      if |parts| >= 4 then Some(parts[3]) else None)
    ensures ValidTriple(triple) && NewTarget(triple).platformArchAbi == tag
  {
  }


  // ---------------------------------------------------------------------
  // GitHub workflow settings
  // ---------------------------------------------------------------------

  /** Runner, optional docker image and optional setup command of one
      build job. */
  datatype WorkflowConfig = WorkflowConfig(host: string, dockerImage: Option<string>, setup: Option<string>)

  /** `GithubWorkflowConfig::default()`. */
  const DefaultWorkflowConfig: WorkflowConfig := WorkflowConfig("ubuntu-latest", None, None)

  /** The per-triple table. */
  const TargetConfigs: map<string, WorkflowConfig> := map[
    "x86_64-apple-darwin" := WorkflowConfig("macos-latest", None, None),
    "x86_64-pc-windows-msvc" := WorkflowConfig("windows-latest", None, None),
    "i686-pc-windows-msvc" := WorkflowConfig("windows-latest", None, None),
    "x86_64-unknown-linux-gnu" := WorkflowConfig("ubuntu-latest", Some("napi-rs/nodejs-rust:lts-debian"), None),
    "x86_64-unknown-linux-musl" := WorkflowConfig("ubuntu-latest", Some("napi-rs/nodejs-rust:lts-alpine"), None),
    "x86_64-unknown-freebsd" := WorkflowConfig("ubuntu-latest", None, None),
    "aarch64-apple-darwin" := WorkflowConfig("macos-latest", None, None),
    "aarch64-unknown-linux-gnu" := WorkflowConfig("ubuntu-latest", None,
      Some("sudo apt-get update && sudo apt-get install g++-aarch64-linux-gnu gcc-aarch64-linux-gnu -y")),
    "aarch64-unknown-linux-musl" := WorkflowConfig("ubuntu-latest", Some("napi-rs/nodejs-rust:lts-alpine"), None),
    "aarch64-pc-windows-msvc" := WorkflowConfig("windows-latest", None, None),
    "aarch64-linux-android" := WorkflowConfig("ubuntu-latest", None, None),
    "armv7-unknown-linux-gnueabihf" := WorkflowConfig("ubuntu-latest", None,
      Some("sudo apt-get update && sudo apt-get install gcc-arm-linux-gnueabihf g++-arm-linux-gnueabihf -y")),
    "armv7-linux-androideabi" := WorkflowConfig("ubuntu-latest", None, None)
  ]

  /** `get_github_workflow_config`: the table entry, or the default
      configuration for a triple the table does not list. */
  function GetWorkflowConfig(target: string): (c: WorkflowConfig)
    ensures target in TargetConfigs ==> c == TargetConfigs[target]
    ensures target !in TargetConfigs ==> c.host == "ubuntu-latest" && c.dockerImage.None? && c.setup.None?
  {
    if target in TargetConfigs then TargetConfigs[target] else DefaultWorkflowConfig
  }

  /** The table has an entry for exactly the offered triples. */
  lemma WorkflowTableCoversAvailableTargets()
    ensures TargetConfigs.Keys == set t | t in AvailableTargets
  {
  }

  /** A serialised map value. */
  datatype YamlValue = YamlStr(s: string) | YamlList(items: seq<string>)

  /** The setup command split on `&&`, each command trimmed. */
  function SetupScripts(setup: string): (scripts: seq<string>)
    ensures |scripts| == |SplitStr(setup, "&&")|
    ensures forall i :: 0 <= i < |scripts| ==> scripts[i] == Trim(SplitStr(setup, "&&")[i])
  {
    var parts := SplitStr(setup, "&&");
    seq(|parts|, i requires 0 <= i < |parts| => Trim(parts[i]))
  }

  /** No setup command starts or ends with whitespace, and gluing the
      untrimmed pieces back with `&&` gives the setup string. */
  lemma SetupScriptsTrimmed(setup: string)
    ensures forall i :: 0 <= i < |SetupScripts(setup)| ==>
      var s := SetupScripts(setup)[i];
      |s| > 0 ==> !IsWhitespace(s[0]) && !IsWhitespace(s[|s| - 1])
    ensures JoinStr(SplitStr(setup, "&&"), "&&") == setup
  {
    JoinSplitStr(setup, "&&");
  }

  /** `Serialize for GithubWorkflowConfig`: `host`, then `docker_image` and
      `setup` only when present. */
  function SerializeWorkflowConfig(c: WorkflowConfig): (entries: seq<(string, YamlValue)>)
    ensures |entries| == 1 + (if c.dockerImage.Some? then 1 else 0) + (if c.setup.Some? then 1 else 0)
    ensures entries[0] == ("host", YamlStr(c.host))
  {
    [("host", YamlStr(c.host))]
    + (if c.dockerImage.Some? then [("docker_image", YamlStr(c.dockerImage.value))] else [])
    + (if c.setup.Some? then [("setup", YamlList(SetupScripts(c.setup.value)))] else [])
  }

  /** The value stored under `key`, if any. */
  function Lookup(entries: seq<(string, YamlValue)>, key: string): Option<YamlValue> {
    if |entries| == 0 then None
    else if entries[0].0 == key then Some(entries[0].1)
    else Lookup(entries[1..], key)
  }

  /** Reading the serialised map back recovers the host, the docker image
      and the (split) setup commands; absent fields stay absent. */
  lemma SerializeWorkflowConfigReadsBack(c: WorkflowConfig)
    ensures Lookup(SerializeWorkflowConfig(c), "host") == Some(YamlStr(c.host))
    ensures Lookup(SerializeWorkflowConfig(c), "docker_image")
            == (if c.dockerImage.Some? then Some(YamlStr(c.dockerImage.value)) else None)
    ensures Lookup(SerializeWorkflowConfig(c), "setup")
            == (if c.setup.Some? then Some(YamlList(SetupScripts(c.setup.value))) else None)
  {
    var e := SerializeWorkflowConfig(c);
    var host := ("host", YamlStr(c.host));
    match (c.dockerImage, c.setup) {
      case (None, None) =>
        assert e == [host];
      case (Some(d), None) =>
        assert e == [host, ("docker_image", YamlStr(d))];
        assert e[1..][1..] == [];
        assert "docker_image" != "setup";
        assert Lookup(e, "setup") == Lookup(e[1..], "setup") == Lookup(e[1..][1..], "setup");
      case (None, Some(x)) =>
        assert e == [host, ("setup", YamlList(SetupScripts(x)))];
        assert e[1..][1..] == [];
        assert "docker_image" != "setup";
        assert Lookup(e, "docker_image") == Lookup(e[1..], "docker_image") == Lookup(e[1..][1..], "docker_image");
      case (Some(d), Some(x)) =>
        assert e == [host, ("docker_image", YamlStr(d)), ("setup", YamlList(SetupScripts(x)))];
        assert e[1..][1..][1..] == [];
        assert "docker_image" != "setup";
        assert Lookup(e, "setup") == Lookup(e[1..], "setup") == Lookup(e[1..][1..], "setup");
    }
  }
}

=== FILE: target_snapshot.dfy ===
/** The offered triples, each parsed by `Target::new`: the model's
    counterpart of the repository's snapshot test over `AVAILABLE_TARGETS`. */
module TargetSnapshot {
  import opened Wrappers
  import opened Strings
  import opened Targets

  // Each plain offered triple (no `androideabi` suffix) splits into its
  // `-`-separated fields; these feed `OfferedTargetsValid`.

  lemma PartsArm64Darwin(t: string)
    requires t == "aarch64-apple-darwin"
    ensures TripleParts(t) == ["aarch64", "apple", "darwin"]
  {
    var fields := ["aarch64", "apple", "darwin"];
    assert t[|t| - 1] != 'i';
    assert Join(fields, '-') == t;
    FieldsOfTriple(t, fields);
  }

  lemma PartsArm64Android(t: string)
    requires t == "aarch64-linux-android"
    ensures TripleParts(t) == ["aarch64", "linux", "android"]
  {
    var fields := ["aarch64", "linux", "android"];
    assert t[|t| - 1] != 'i';
    assert Join(fields, '-') == t;
    FieldsOfTriple(t, fields);
  }

  lemma PartsArm64LinuxGnu(t: string)
    requires t == "aarch64-unknown-linux-gnu"
    ensures TripleParts(t) == ["aarch64", "unknown", "linux", "gnu"]
  {
    var fields := ["aarch64", "unknown", "linux", "gnu"];
    assert t[|t| - 1] != 'i';
    assert Join(fields, '-') == t;
    FieldsOfTriple(t, fields);
  }

  lemma PartsArm64LinuxMusl(t: string)
    requires t == "aarch64-unknown-linux-musl"
    ensures TripleParts(t) == ["aarch64", "unknown", "linux", "musl"]
  {
    var fields := ["aarch64", "unknown", "linux", "musl"];
    assert t[|t| - 1] != 'i';
    assert Join(fields, '-') == t;
    FieldsOfTriple(t, fields);
  }

  lemma PartsArm64Windows(t: string)
    requires t == "aarch64-pc-windows-msvc"
    ensures TripleParts(t) == ["aarch64", "pc", "windows", "msvc"]
  {
    var fields := ["aarch64", "pc", "windows", "msvc"];
    assert t[|t| - 1] != 'i';
    assert Join(fields, '-') == t;
    FieldsOfTriple(t, fields);
  }

  lemma PartsX64Darwin(t: string)
    requires t == "x86_64-apple-darwin"
    ensures TripleParts(t) == ["x86_64", "apple", "darwin"]
  {
    var fields := ["x86_64", "apple", "darwin"];
    assert t[|t| - 1] != 'i';
    assert Join(fields, '-') == t;
    FieldsOfTriple(t, fields);
  }

  lemma PartsX64Windows(t: string)
    requires t == "x86_64-pc-windows-msvc"
    ensures TripleParts(t) == ["x86_64", "pc", "windows", "msvc"]
  {
    var fields := ["x86_64", "pc", "windows", "msvc"];
    assert t[|t| - 1] != 'i';
    assert Join(fields, '-') == t;
    FieldsOfTriple(t, fields);
  }

  lemma PartsX64LinuxGnu(t: string)
    requires t == "x86_64-unknown-linux-gnu"
    ensures TripleParts(t) == ["x86_64", "unknown", "linux", "gnu"]
  {
    var fields := ["x86_64", "unknown", "linux", "gnu"];
    assert t[|t| - 1] != 'i';
    assert Join(fields, '-') == t;
    FieldsOfTriple(t, fields);
  }

  lemma PartsX64LinuxMusl(t: string)
    requires t == "x86_64-unknown-linux-musl"
    ensures TripleParts(t) == ["x86_64", "unknown", "linux", "musl"]
  {
    var fields := ["x86_64", "unknown", "linux", "musl"];
    assert t[|t| - 1] != 'i';
    assert Join(fields, '-') == t;
    FieldsOfTriple(t, fields);
  }

  lemma PartsX64Freebsd(t: string)
    requires t == "x86_64-unknown-freebsd"
    ensures TripleParts(t) == ["x86_64", "unknown", "freebsd"]
  {
    var fields := ["x86_64", "unknown", "freebsd"];
    assert t[|t| - 1] != 'i';
    assert Join(fields, '-') == t;
    FieldsOfTriple(t, fields);
  }

  lemma PartsIa32Windows(t: string)
    requires t == "i686-pc-windows-msvc"
    ensures TripleParts(t) == ["i686", "pc", "windows", "msvc"]
  {
    var fields := ["i686", "pc", "windows", "msvc"];
    assert t[|t| - 1] != 'i';
    assert Join(fields, '-') == t;
    FieldsOfTriple(t, fields);
  }

  lemma PartsArmLinuxGnueabihf(t: string)
    requires t == "armv7-unknown-linux-gnueabihf"
    ensures TripleParts(t) == ["armv7", "unknown", "linux", "gnueabihf"]
  {
    var fields := ["armv7", "unknown", "linux", "gnueabihf"];
    assert t[|t| - 1] != 'i';
    assert Join(fields, '-') == t;
    FieldsOfTriple(t, fields);
  }

  /** Every offered triple is accepted by `Target::new`: it has at least
      two fields and a cpu `NodeArch::from_str` knows. */
  lemma OfferedTargetsValid(t: string)
    requires t in AvailableTargets
    ensures ValidTriple(t)
  {
    var i :| 0 <= i < |AvailableTargets| && AvailableTargets[i] == t;
    if i == 0 {
      PartsArm64Darwin(t);
    } else if i == 1 {
      PartsArm64Android(t);
    } else if i == 2 {
      PartsArm64LinuxGnu(t);
    } else if i == 3 {
      PartsArm64LinuxMusl(t);
    } else if i == 4 {
      PartsArm64Windows(t);
    } else if i == 5 {
      PartsX64Darwin(t);
    } else if i == 6 {
      PartsX64Windows(t);
    } else if i == 7 {
      PartsX64LinuxGnu(t);
    } else if i == 8 {
      PartsX64LinuxMusl(t);
    } else if i == 9 {
      PartsX64Freebsd(t);
    } else if i == 10 {
      PartsIa32Windows(t);
    } else if i == 11 {
      PartsArmLinuxGnueabihf(t);
    } else {
      AndroidEabiTarget(t);
    }
  }

  /** `armv7-linux-androideabi` gains a `-` before `eabi` and then has
      four fields. */
  lemma PartsArmAndroidEabi(t: string)
    requires t == "armv7-linux-androideabi"
    ensures TripleParts(t) == ["armv7", "linux", "android", "eabi"]
  {
    var fields := ["armv7", "linux", "android", "eabi"];
    NormalizedAndroidEabi(t);
    JoinedAndroidEabi(fields);
    SplitFields(fields);
  }

  /** The four fields joined by `-` give the normalised triple. */
  lemma JoinedAndroidEabi(fields: seq<string>)
    requires fields == ["armv7", "linux", "android", "eabi"]
    ensures Join(fields, '-') == "armv7-linux-android-eabi"
  {
    assert Join(fields[2..], '-') == "android-eabi";
    assert Join(fields[1..], '-') == "linux-android-eabi";
  }

  /** Normalising `armv7-linux-androideabi` inserts its `-`. */
  lemma NormalizedAndroidEabi(t: string)
    requires t == "armv7-linux-androideabi"
    ensures NormalizeTriple(t) == "armv7-linux-android-eabi"
  {
    assert t[|t| - 11..] == "androideabi";
    assert t[..|t| - 4] == "armv7-linux-android";
    assert t[|t| - 4..] == "eabi";
  }

  /** `armv7-linux-androideabi` is read as platform android, arch arm and
      abi `eabi`, while the stored triple stays as given. */
  lemma AndroidEabiTarget(triple: string)
    requires triple == "armv7-linux-androideabi"
    ensures ValidTriple(triple)
    ensures var t := NewTarget(triple);
            && t.triple == "armv7-linux-androideabi"
            && t.platform == Android && t.arch == Arm && t.abi == Some("eabi")
            && t.platformArchAbi == "android-arm-eabi"
  {
    PartsArmAndroidEabi(triple);
  }
}

=== FILE: wrappers.dfy ===
/** Optional values and fallible results, the two shapes Rust's `Option` and
    `Result` take throughout the model. */
module Wrappers {

  datatype Option<+T> = None | Some(value: T) {

    /** Rust's `Option::unwrap_or`. */
    function UnwrapOr(default: T): T {
      match this
      case Some(v) => v
      case None => default
    }

    /** Rust's `Option::or`: this value if present, otherwise `other`. */
    function Or(other: Option<T>): Option<T> {
      if Some? then this else other
    }
  }

  /** The unit error of the CLI commands (`Result<_, ()>`). */
  datatype Unit = Unit

  datatype Result<+R, +E> = Ok(value: R) | Err(error: E)
}
